=== FILE: README.md ===
# FastConsoleFramework renderer, modelled in Dafny

FastConsoleFramework draws a text-mode user interface off screen and then
sends the terminal only what changed. This project models the core of that
renderer:

- **ColorMath**: `GetInterpolatedColor`, `GetAlphaBlendedColor` and
  `GetMultipliedColor` over ARGB byte colours. The `float` arithmetic is
  modelled over exact reals. The `(int)` cast truncates toward zero, and
  `Math.Round` rounds half to even.
- **Cells**: `ConsoleFrameBufferCell`, which holds a character, a
  foreground colour and a background colour. It also covers the
  finalized (opaque) colours, `IsEmpty`, the cell `AlphaBlend` and cell
  equality. The `Empty` cell is a space on transparent colours. It
  differs from the default struct value, a NUL on transparent colours.
- **FrameBuffers**: `ConsoleFrameBuffer`, a row-major cell array of a
  given size. The module covers resizing with one of five alignments,
  which moves content by the alignment's share of the size change, and
  the `Size` setter, `Clear` and the size-changed notification (returned
  as a list of events).
- **ClipStack**: the draw context's rectangle stack. `PushRectangle`
  places a local rectangle inside the current one by alignment and
  intersects the two, following .NET's `Rectangle.Intersect`.
  `PopRectangle` and the `Rectangle` property are also here; with no
  rectangle pushed, `Rectangle` is the full plane
  `(0, 0, int.MaxValue, int.MaxValue)`.
- **Drawing**: `DrawCells`, which invokes the draw callback for every
  local position of the clip rectangle and composites the result into
  the current buffer. The sequential loop and the parallel dispatch are
  both covered. A parallel schedule is any order of the indices, each
  visited once. The loop's number of `DrawCell` calls is counted too,
  beside a loop clipped to the buffer that draws the same cells.
- **ConsoleWriter**: the escape sequences the writer emits and a reader
  for them:
  - true-colour SGR;
  - CUP cursor positioning;
  - DEC private mode 25 for cursor visibility;
  - erase-display.

  It also covers the buffered `WriteString` and `FlushCommands`,
  including a raw write that accepts only part of the buffer.
- **FrameDiff**: the body of the publish task. It turns the staged and
  previously staged frames into writer commands. When both have the same
  size, it sends only the changed cells, eliding cursor moves and
  repeated colours. Otherwise it repaints in full. A reference terminal
  interprets the commands, so the model can state what the screen shows
  afterwards.
- **DrawContexts**: `ConsoleDrawContext` as a whole. It covers:
  - the three buffers that rotate on each publish;
  - the clip stack;
  - the status of the previous publish task, which gates the next
    publish.

  A console pairs a context with a terminal and a writer. Resizing the
  terminal window replaces the terminal, whatever it then shows. The
  main theorem, `ExecuteKeepsCoherent`, covers any run of pushes, pops,
  draws, buffer resizes, window resizes, task settlements and publishes.
  After such a run, the writer holds nothing buffered. The terminal
  shows the last frame that was published, or has been resized away
  from that frame's size. The theorem makes three assumptions:
  - every raw write accepts the whole buffer;
  - the terminal has the size of each frame when that frame is
    published;
  - a window resize that lands on the staged frame's size keeps
    showing that frame.

  A frame published after a window resize repaints in full
  (`WindowResizeRepaints`).

Six defects in the source came to light while proving the natural
contracts; see "## Findings". For each defect the model carries the code
as written, with a lemma that exhibits the problem on a concrete input.
It also carries the corrected behaviour, with the intended property
proved about it. The draw context pushes rectangles and resizes the
current buffer as the code does (`ClipStack.PushAsWritten`,
`FrameBuffers.SetSize`). When publishing it sends the corrected diff,
because the terminal shows the published frame only with that diff (see
"## Left out").

Three behaviours of the code worth noting, modelled as written:

- **Compositing order.** `DrawCell` computes
  `onDrawCell(local).GetAlphaBlendedFrameBufferCell(existing)`. The
  callback's cell is the base and the existing cell is appended on top,
  so new drawing goes underneath what is already there.
  `Drawing.Underlay` states this.
- **Opaque cells are skipped.** A cell whose background is already
  opaque is not written at all. A translucent draw over an opaque white
  cell therefore leaves that cell white. `Drawing.OpaqueDrawIsFinal`
  states this.
- **Resize path.** `Resize(size, alignment)` takes the sequential path
  by default, and so does the `Size` setter. Because that path's loops
  never run, the setter keeps no content when the cell count changes
  (`FrameBuffers.SetSize`).

## Model

| member | source | states |
|---|---|---|
| ColorMath.Clamp | FastConsoleFramework/Renderer/Static/ColorUtilities.cs:17 | `Math.Clamp`: the result lies in the bounds, is the value when the value is inside them, and is the nearer bound otherwise |
| ColorMath.TruncToInt | FastConsoleFramework/Renderer/Static/ColorUtilities.cs:17 | the `(int)` cast of a non-negative value is its floor, and of a non-positive value its ceiling (truncation toward zero) |
| ColorMath.RoundHalfEven | FastConsoleFramework/Renderer/Static/ColorUtilities.cs:37 | `Math.Round` lands within one half of its argument, and a tie goes to the even integer |
| ColorMath.Interpolated | FastConsoleFramework/Renderer/Static/ColorUtilities.cs:7-22 | a time at or below 0 gives the start colour, at or above 1 the end colour, and otherwise every channel lies between the two endpoints' channels |
| ColorMath.LerpChannelBetween | FastConsoleFramework/Renderer/Static/ColorUtilities.cs:17-20 | one interpolated, truncated and clamped channel stays between its endpoints |
| ColorMath.AlphaBlended | FastConsoleFramework/Renderer/Static/ColorUtilities.cs:25-32 | a transparent append leaves the base and an opaque append replaces it. Otherwise the result is the base interpolated toward the opaque append by alpha/255. The alpha never drops below the base's, and an opaque base stays opaque |
| ColorMath.AlphaBlendMonotone | FastConsoleFramework/Renderer/Static/ColorUtilities.cs:25-32 | raising the append colour's alpha brings every channel of the blend at least as close to the opaque append colour |
| ColorMath.Multiplied | FastConsoleFramework/Renderer/Static/ColorUtilities.cs:34-41 | every channel of a product is at most the smaller of the two operands' channels |
| ColorMath.MultipliedByWhite | FastConsoleFramework/Renderer/Static/ColorUtilities.cs:34-41 | opaque white is the identity of the colour product |
| ColorMath.MultipliedCommutes | FastConsoleFramework/Renderer/Static/ColorUtilities.cs:34-41 | the colour product does not depend on the operands' order |
| Cells.FinalizedBackground | FastConsoleFramework/Renderer/Misc/ConsoleFrameBufferCell.cs:15-28 | the finalized background is opaque and no channel exceeds the background's. It equals an opaque background's colour, and a transparent background finalizes to black |
| Cells.ScaledChannel | FastConsoleFramework/Renderer/Misc/ConsoleFrameBufferCell.cs:19-25 | scaling a channel by alpha/255 never raises it, keeps it at full alpha and zeroes it at zero alpha |
| Cells.FinalizedForeground | FastConsoleFramework/Renderer/Misc/ConsoleFrameBufferCell.cs:30-43 | the finalized foreground is opaque. It is the foreground's colour when that is opaque, and the background's colour when the foreground is transparent |
| Cells.AlphaBlend | FastConsoleFramework/Renderer/Misc/ConsoleFrameBufferCell.cs:54-77 | an empty append leaves the base. A whitespace append keeps the base's glyph and tints its foreground. Any other append brings its own glyph and foreground blended onto its background. The background is always the base's with the append's blended over it |
| Cells.EqualityIsStructural | FastConsoleFramework/Renderer/Misc/ConsoleFrameBufferCell.cs:79-92 | `==` holds exactly when character and both colours agree, and `!=` is its negation |
| Cells.EmptySentinels | FastConsoleFramework/Renderer/Misc/ConsoleFrameBufferCell.cs:7-45 | both the `Empty` cell and the default struct value are empty, yet they are different cells, and `Empty` finalizes to a black background |
| Cells.OpaqueAppendCovers | FastConsoleFramework/Renderer/Misc/ConsoleFrameBufferCell.cs:54-77 | an opaque append fixes the background to its own. With a non-whitespace glyph the cell becomes that glyph with the append's background as both foreground and background, because the foreground is blended under an opaque colour (:72) |
| Cells.WhitespaceKeepsGlyph | FastConsoleFramework/Renderer/Misc/ConsoleFrameBufferCell.cs:63-67 | blending a whitespace cell never changes the character shown |
| FrameBuffers.IndexRoundTrip | FastConsoleFramework/Renderer/Misc/ConsoleFrameBuffer.cs:41-43 | a position inside the grid has a row-major index inside the array, and that index maps back to the position |
| FrameBuffers.PositionRoundTrip | FastConsoleFramework/Renderer/Misc/ConsoleFrameBuffer.cs:72 | an array index maps to a position inside the grid whose row-major index is that index |
| FrameBuffers.TruncHalf | FastConsoleFramework/Renderer/Misc/ConsoleFrameBuffer.cs:38 | halving a size difference truncates toward zero, rounding a negative odd difference up |
| FrameBuffers.Resize | FastConsoleFramework/Renderer/Misc/ConsoleFrameBuffer.cs:49-88 | the buffer takes the new size. Each new cell holds the old cell at its position moved back by the alignment's share of the size change, or `Empty` when that position lies outside the old grid. An unchanged size is a no-op without a notification, and any other size notifies old size, new size and alignment |
| FrameBuffers.SetSize | FastConsoleFramework/Renderer/Misc/ConsoleFrameBuffer.cs:13-17 | the setter as written takes the new size, and it notifies with TopLeft unless the size is unchanged. With an unchanged cell count it keeps the old array as it is, read at the new width. Otherwise every cell is the zero cell |
| FrameBuffers.SetSizeIntended | FastConsoleFramework/Renderer/Misc/ConsoleFrameBuffer.cs:13-17 | the setter as intended keeps every cell still inside the grid where it was and fills the rest with `Empty` |
| FrameBuffers.SetSizeLosesContent | FastConsoleFramework/Renderer/Misc/ConsoleFrameBuffer.cs:16 | when the cell count changes, a cell that is not the zero cell, at a position in both grids, is lost by the setter as written and kept by the intended one |
| FrameBuffers.ResizeRoundTrip | FastConsoleFramework/Renderer/Misc/ConsoleFrameBuffer.cs:49-88 | growing a buffer and shrinking it back with the same alignment restores it exactly |
| FrameBuffers.GrowMovesContent | FastConsoleFramework/Renderer/Misc/ConsoleFrameBuffer.cs:31-44 | growing moves every old cell to its position shifted by the alignment's share of the growth |
| FrameBuffers.GrowFillsEmpty | FastConsoleFramework/Renderer/Misc/ConsoleFrameBuffer.cs:41-44 | after growing, every position that no old cell moves to is `Empty` |
| FrameBuffers.BottomRightGrowExample | FastConsoleFramework/Renderer/Misc/ConsoleFrameBuffer.cs:31-44 | growing 2×2 to 4×2 with BottomRight puts the four cells in columns 2 and 3 and leaves columns 0 and 1 empty |
| FrameBuffers.ResizeSequential | FastConsoleFramework/Renderer/Misc/ConsoleFrameBuffer.cs:76-86 | the row-by-row loop, with `<` in both guards and reading from a snapshot of the old cells, produces exactly the resize described by `Resize`. The snapshot matters: with an unchanged cell count the source reuses the old array (:59-63), and writing it in place in row-major order loses content (`FrameBuffers.AliasingClobbersCells`) |
| FrameBuffers.ResizeSequentialAsWritten | FastConsoleFramework/Renderer/Misc/ConsoleFrameBuffer.cs:53-86 | as written, the loops never run, so the new buffer is the freshly allocated or reused storage, while size and notification still change |
| FrameBuffers.SequentialPathDropsContent | FastConsoleFramework/Renderer/Misc/ConsoleFrameBuffer.cs:78-80 | as written, growing a 1×1 buffer to 2×1 loses its cell and leaves default cells, where `Resize` keeps it |
| FrameBuffers.ResizeParallelAsWritten | FastConsoleFramework/Renderer/Misc/ConsoleFrameBuffer.cs:53-75 | the parallel path takes the new size and notifies as `Resize` does |
| FrameBuffers.ApplyWritesFresh | FastConsoleFramework/Renderer/Misc/ConsoleFrameBuffer.cs:64-75 | into fresh storage, every scheduled index receives its migrated cell and every other index is untouched, whatever the order |
| FrameBuffers.ParallelFreshStorageIsResize | FastConsoleFramework/Renderer/Misc/ConsoleFrameBuffer.cs:58-75 | when the cell count changes, any parallel schedule covering every index produces exactly `Resize` |
| FrameBuffers.AliasingClobbersCells | FastConsoleFramework/Renderer/Misc/ConsoleFrameBuffer.cs:59-75 | with the cell count unchanged, the parallel path reads the array it is overwriting: 2×2 to 4×1 TopRight ends all `Empty` instead of keeping the top row |
| FrameBuffers.Clear | FastConsoleFramework/Renderer/Misc/ConsoleFrameBuffer.cs:90-105 | clearing keeps the size and makes every cell `Empty` |
| FrameBuffers.ClearSequential | FastConsoleFramework/Renderer/Misc/ConsoleFrameBuffer.cs:98-104 | the index loop produces exactly the cleared buffer |
| ClipStack.Intersect | FastConsoleFramework/Renderer/Misc/ConsoleDrawContext.cs:86-88 | the intersection holds exactly the points both rectangles hold, has non-negative size and is no larger than either |
| ClipStack.NotEmptyHasPoint | FastConsoleFramework/Renderer/Misc/ConsoleDrawContext.cs:24-31 | the clip rectangle has positive width and height exactly when it holds some point |
| ClipStack.Place | FastConsoleFramework/Renderer/Misc/ConsoleDrawContext.cs:89-111 | the placed rectangle keeps the local size, and each alignment lines up the named edges with the parent's edges, offset by the local position. Center offsets by half the size difference, truncated |
| ClipStack.PlacementOmitsOrigin | FastConsoleFramework/Renderer/Misc/ConsoleDrawContext.cs:92-109 | the code's placement is the intended one shifted back by the parent origin coordinates it leaves out. The two agree exactly when those coordinates are zero |
| ClipStack.TopRightPlacementExample | FastConsoleFramework/Renderer/Misc/ConsoleDrawContext.cs:92-99 | a 5×5 TopRight child of the parent at x 10, width 20 lands at x 15 as written, but at x 25, the parent's right edge, when placed as intended |
| ClipStack.Push | FastConsoleFramework/Renderer/Misc/ConsoleDrawContext.cs:81-114 | a push adds one rectangle above the untouched stack: the old top intersected with the placed local rectangle |
| ClipStack.PushAsWritten | FastConsoleFramework/Renderer/Misc/ConsoleDrawContext.cs:81-114 | the same with the placement as written |
| ClipStack.Pop | FastConsoleFramework/Renderer/Misc/ConsoleDrawContext.cs:116 | a pop reports whether the stack was non-empty and, if so, removes exactly its top |
| ClipStack.PopUndoesPush | FastConsoleFramework/Renderer/Misc/ConsoleDrawContext.cs:81-116 | popping right after a push restores the stack and reports success |
| ClipStack.PushKeepsNested | FastConsoleFramework/Renderer/Misc/ConsoleDrawContext.cs:81-114 | every pushed rectangle lies inside the one below it |
| ClipStack.PopKeepsNested | FastConsoleFramework/Renderer/Misc/ConsoleDrawContext.cs:116 | popping keeps the stack nested |
| ClipStack.TopLeftPushClips | FastConsoleFramework/Renderer/Misc/ConsoleDrawContext.cs:91 | a TopLeft child starting inside the parent is offset by the parent's origin and cut at the parent's right and bottom edges |
| ClipStack.FirstPushExample | FastConsoleFramework/Renderer/Misc/ConsoleDrawContext.cs:81-114 | the first push of (1,1,2,2) with TopLeft onto the full plane gives a stack holding exactly that rectangle |
| ClipStack.NestedPushExample | FastConsoleFramework/Renderer/Misc/ConsoleDrawContext.cs:81-114 | pushing (1,1,2,2) twice gives (2,2,1,1), and a 1×1 child at offset 0 gives (1,1,1,1) |
| Drawing.Underlay | FastConsoleFramework/Renderer/Misc/ConsoleDrawContext.cs:72-77 | an opaque cell is never changed. An empty cell becomes the callback's cell, and otherwise the existing background is blended over the callback's |
| Drawing.DrawCell | FastConsoleFramework/Renderer/Misc/ConsoleDrawContext.cs:67-79 | drawing one local position changes at most the cell at its global position inside the buffer |
| Drawing.DrawCells | FastConsoleFramework/Renderer/Misc/ConsoleDrawContext.cs:118-143 | inside the clip rectangle each non-opaque cell gets the callback's cell for its local position composited underneath. Every other cell keeps its value |
| Drawing.DrawCellsSequential | FastConsoleFramework/Renderer/Misc/ConsoleDrawContext.cs:133-142 | the row-by-row loop produces exactly `DrawCells`. It makes one `DrawCell` call per local point of the rectangle, including points outside the buffer |
| Drawing.IndexOfPointRoundTrip | FastConsoleFramework/Renderer/Misc/ConsoleDrawContext.cs:130 | the parallel index of a local position and the local position of an index are inverse over the rectangle |
| Drawing.ApplyDrawsAt | FastConsoleFramework/Renderer/Misc/ConsoleDrawContext.cs:124-132 | after any duplicate-free schedule, each cell reached by a scheduled index is drawn and every other cell is untouched |
| Drawing.DrawCellsParallel | FastConsoleFramework/Renderer/Misc/ConsoleDrawContext.cs:124-132 | any schedule visiting every index of the rectangle exactly once produces exactly `DrawCells` |
| Drawing.DrawOnClearedFrame | FastConsoleFramework/Renderer/Misc/ConsoleDrawContext.cs:118-143 | on a cleared buffer every cell inside the rectangle becomes the callback's cell and the rest stay `Empty` |
| Drawing.OpaqueDrawIsFinal | FastConsoleFramework/Renderer/Misc/ConsoleDrawContext.cs:75-77 | once an opaque callback has drawn a rectangle, later draws never change those cells |
| Drawing.EmptyRectangleDrawsNothing | FastConsoleFramework/Renderer/Misc/ConsoleDrawContext.cs:135-141 | a clip rectangle with no area leaves the buffer unchanged |
| Drawing.Mul32 | FastConsoleFramework/Renderer/Misc/ConsoleDrawContext.cs:129 | a 32-bit product lies in the `int` range, agrees with the true product modulo 2^32, and equals it when that fits |
| Drawing.ParallelCount | FastConsoleFramework/Renderer/Misc/ConsoleDrawContext.cs:129 | the dispatched count never exceeds the area and equals it whenever the area fits in an `int` |
| Drawing.DrawCellsParallelAsWritten | FastConsoleFramework/Renderer/Misc/ConsoleDrawContext.cs:124-132 | as written, the parallel dispatch keeps the buffer's size and equals `DrawCells` whenever the rectangle's area fits in an `int` |
| Drawing.BaseAreaWrapsToOne | FastConsoleFramework/Renderer/Misc/ConsoleDrawContext.cs:129 | with no rectangle pushed, the full-plane area wraps to a count of 1 |
| Drawing.UnpushedParallelDrawsOnce | FastConsoleFramework/Renderer/Misc/ConsoleDrawContext.cs:124-132 | with no rectangle pushed, the parallel dispatch as written draws only local position (0,0) |
| Drawing.UnpushedSecondCellKept | FastConsoleFramework/Renderer/Misc/ConsoleDrawContext.cs:124-132 | with no rectangle pushed, the parallel dispatch as written leaves the second cell of a 2×1 buffer untouched |
| Drawing.DrawnOverEmpty | FastConsoleFramework/Renderer/Misc/ConsoleDrawContext.cs:118-143 | with no rectangle pushed, an empty cell inside the buffer becomes the callback's cell for that very position |
| Drawing.UnpushedDrawSteps | FastConsoleFramework/Renderer/Misc/ConsoleDrawContext.cs:135-141 | with no rectangle pushed, the row-by-row loop makes (2^31 − 1)^2 = 4611686014132420609 `DrawCell` calls, whatever the buffer's size |
| Drawing.ClippedDrawIsDrawCells | FastConsoleFramework/Renderer/Misc/ConsoleDrawContext.cs:118-143 | drawing only the part of the rectangle inside the buffer, with the callback still asked for local points of the whole rectangle, gives the same buffer as drawing the whole rectangle |
| Drawing.DrawCellsClipped | FastConsoleFramework/Renderer/Misc/ConsoleDrawContext.cs:118-143 | the intended draw makes at most one `DrawCell` call per cell of the buffer and produces exactly `DrawCells` |
| Drawing.UnpushedParallelDrawsOrigin | FastConsoleFramework/Renderer/Misc/ConsoleDrawContext.cs:122-132 | on an empty 2×1 buffer with no rectangle pushed, the parallel dispatch as written differs from `DrawCells` whenever the callback's cell at (1,0) is not `Empty` |
| ConsoleWriter.NatToDecimal | FastConsoleFramework/Renderer/Misc/ConsoleWriter.cs:88-89 | a number is written as a non-empty run of decimal digits without a leading zero |
| ConsoleWriter.DecimalRoundTrip | FastConsoleFramework/Renderer/Misc/ConsoleWriter.cs:88-89 | reading a written number's digits gives the number back |
| ConsoleWriter.ParamsRoundTrip | FastConsoleFramework/Renderer/Misc/ConsoleWriter.cs:88-100 | `;`-separated parameters are read back exactly, leaving the rest of the text |
| ConsoleWriter.CsiRoundTrip | FastConsoleFramework/Renderer/Misc/ConsoleWriter.cs:16-22 | a well-formed control sequence is read back exactly, leaving the rest of the text |
| ConsoleWriter.ParseAllRoundTrip | FastConsoleFramework/Renderer/Misc/ConsoleWriter.cs:16-22 | back-to-back control sequences are read back as the same list |
| ConsoleWriter.TextIsSequences | FastConsoleFramework/Renderer/Misc/ConsoleWriter.cs:86-143 | each command's text is exactly its control sequences written out |
| ConsoleWriter.DecodeText | FastConsoleFramework/Renderer/Misc/ConsoleWriter.cs:86-143 | decoding a command's text gives back the command, with colours read as opaque and the reset read as a move to the origin |
| ConsoleWriter.MeaningOfSequences | FastConsoleFramework/Renderer/Misc/ConsoleWriter.cs:86-143 | each command's control sequences mean that command to a terminal |
| ConsoleWriter.ResetIsOriginMove | FastConsoleFramework/Renderer/Misc/ConsoleWriter.cs:117-129 | the cursor reset is the same text as a move to column 0 of row 0 |
| ConsoleWriter.WriteString | FastConsoleFramework/Renderer/Misc/ConsoleWriter.cs:53-62 | without flushing the text is buffered. With flushing, what was buffered and then the text reach the terminal, and the buffer empties |
| ConsoleWriter.FlushCommands | FastConsoleFramework/Renderer/Misc/ConsoleWriter.cs:150-171 | flushing moves everything buffered to the terminal, in order, and empties the buffer |
| ConsoleWriter.FlushCommandsShort | FastConsoleFramework/Renderer/Misc/ConsoleWriter.cs:157-167 | when the raw write accepts only a prefix, only that prefix arrives, yet the buffer empties, so the rest is lost |
| ConsoleWriter.PerformThenFlush | FastConsoleFramework/Renderer/Misc/ConsoleWriter.cs:53-171 | buffering commands and then flushing delivers the earlier buffer and every command's text in order and leaves nothing buffered |
| FrameDiff.DisplayChar | FastConsoleFramework/Renderer/Misc/ConsoleDrawContext.cs:212-217 | an empty cell is written as a space, any other cell as its character |
| FrameDiff.MoveTo | FastConsoleFramework/Renderer/Misc/ConsoleDrawContext.cs:186-197 | the cursor command for an index names the column and row whose row-major index it is |
| FrameDiff.CellCommands | FastConsoleFramework/Renderer/Misc/ConsoleDrawContext.cs:184-219 | a changed cell's commands end by writing its display character. The cursor then sits after it, and the pen holds its colours |
| FrameDiff.EqualFrom | FastConsoleFramework/Renderer/Misc/ConsoleDrawContext.cs:169-222 | the same-size pass emits nothing exactly when no remaining cell differs from the previous frame |
| FrameDiff.RepaintFrom | FastConsoleFramework/Renderer/Misc/ConsoleDrawContext.cs:223-247 | the corrected full repaint emits commands for every cell and nothing when none remain |
| FrameDiff.RepaintAsWrittenAssumes | FastConsoleFramework/Renderer/Misc/ConsoleDrawContext.cs:223-247 | the repaint as written is the corrected repaint that assumes the terminal's background is the previous cell's finalized background |
| FrameDiff.Framed | FastConsoleFramework/Renderer/Misc/ConsoleDrawContext.cs:33-41 | no body sends nothing. A body is preceded by hiding the cursor and resetting it, and followed by one flush |
| FrameDiff.Diff | FastConsoleFramework/Renderer/Misc/ConsoleDrawContext.cs:166-251 | the publish task sends nothing, or hides and resets the cursor, writes only cell commands and flushes once at the end |
| FrameDiff.DiffAsWritten | FastConsoleFramework/Renderer/Misc/ConsoleDrawContext.cs:166-251 | as written, the task agrees with the corrected one whenever the two frames have the same size |
| FrameDiff.UnchangedFrameSendsNothing | FastConsoleFramework/Renderer/Misc/ConsoleDrawContext.cs:184 | publishing a frame equal to the previous one sends nothing at all |
| FrameDiff.SendsIffChanged | FastConsoleFramework/Renderer/Misc/ConsoleDrawContext.cs:169-222 | between frames of one size, the task sends something exactly when some cell changed |
| FrameDiff.RunAppend | FastConsoleFramework/Renderer/Misc/ConsoleDrawContext.cs:166-251 | the terminal acts on a command list one command after another |
| FrameDiff.DiffShowsStaged | FastConsoleFramework/Renderer/Misc/ConsoleDrawContext.cs:169-222 | if the terminal shows the previous frame, after the same-size commands it shows the staged frame |
| FrameDiff.RepaintShowsStaged | FastConsoleFramework/Renderer/Misc/ConsoleDrawContext.cs:223-247 | on a terminal of the staged frame's size, the corrected full repaint leaves it showing the staged frame, whatever it showed and whatever colours were set |
| FrameDiff.PublishShowsStaged | FastConsoleFramework/Renderer/Misc/ConsoleDrawContext.cs:166-251 | the publish task leaves the terminal showing the staged frame, given a terminal of that size that shows the previous frame when the sizes agree |
| FrameDiff.AsWrittenAssumesBlack | FastConsoleFramework/Renderer/Misc/ConsoleDrawContext.cs:167 | the full repaint's starting reference cell finalizes to a black background |
| FrameDiff.RepaintKeepsStaleBackground | FastConsoleFramework/Renderer/Misc/ConsoleDrawContext.cs:235-238 | as written, a one-cell repaint onto a terminal with a red background sends no background command and leaves the cell red. The corrected repaint sets black and shows the frame |
| FrameDiff.SendChangedCells | FastConsoleFramework/Renderer/Misc/ConsoleDrawContext.cs:169-222 | the same-size loop sends the changed-cell commands behind one cursor hide and reset, and nothing if nothing changed |
| FrameDiff.ChangedCell | FastConsoleFramework/Renderer/Misc/ConsoleDrawContext.cs:184-220 | one changed cell's loop body emits its commands and advances cursor and pen as `CellCommands` describes |
| FrameDiff.RepaintCell | FastConsoleFramework/Renderer/Misc/ConsoleDrawContext.cs:227-245 | one full-repaint loop body compares against the previous cell's background and tracks the last foreground |
| FrameDiff.SendAllCells | FastConsoleFramework/Renderer/Misc/ConsoleDrawContext.cs:223-247 | the full-repaint loop sends the as-written repaint behind one cursor hide and reset |
| FrameDiff.WriteChanges | FastConsoleFramework/Renderer/Misc/ConsoleDrawContext.cs:164-252 | the task body produces exactly the as-written commands |
| DrawContexts.TopInsideBase | FastConsoleFramework/Renderer/Misc/ConsoleDrawContext.cs:22 | the clip rectangle of a nested stack lies inside the full plane |
| DrawContexts.RectangleBounded | FastConsoleFramework/Renderer/Misc/ConsoleDrawContext.cs:22 | the clip rectangle has non-negative size and holds only points of the non-negative quadrant below `int.MaxValue` |
| DrawContexts.PushRectangle | FastConsoleFramework/Renderer/Misc/ConsoleDrawContext.cs:81-114 | after a push, the clip rectangle holds exactly the old one's points that the rectangle placed as the code places it holds. Buffers and task are untouched and consistency is kept |
| DrawContexts.PopRectangle | FastConsoleFramework/Renderer/Misc/ConsoleDrawContext.cs:116 | a pop reports whether a rectangle was pushed, removes exactly the clip rectangle, changes nothing else and keeps consistency |
| DrawContexts.PopUndoesPushRectangle | FastConsoleFramework/Renderer/Misc/ConsoleDrawContext.cs:81-116 | popping right after a push gives back the context and reports success |
| DrawContexts.DrawCells | FastConsoleFramework/Renderer/Misc/ConsoleDrawContext.cs:118-143 | drawing changes only the current buffer. Inside the clip rectangle each non-opaque cell gets the callback's cell composited underneath, and every other cell keeps its value |
| DrawContexts.EmptyRectangleSkipsDraw | FastConsoleFramework/Renderer/Misc/ConsoleDrawContext.cs:118-143 | with an empty clip rectangle, drawing leaves the context as it was |
| DrawContexts.Publish | FastConsoleFramework/Renderer/Misc/ConsoleDrawContext.cs:145-256 | a publish succeeds exactly when the previous task has ended, and a refused one changes nothing. An accepted one rotates the buffers, returns the old previously staged buffer cleared as the current one, empties the clip stack and leaves a pending task. It sends the commands from the old staged frame to the new one |
| DrawContexts.SecondPublishRefused | FastConsoleFramework/Renderer/Misc/ConsoleDrawContext.cs:147-161 | a publish right after an accepted one is refused and changes nothing |
| DrawContexts.DrawAfterPublish | FastConsoleFramework/Renderer/Misc/ConsoleDrawContext.cs:154-160 | the first draw after a publish, with no rectangle pushed, sets every cell to the callback's cell for that position. This is the result; the loop as written reaches it only after (2^31 − 1)^2 steps (`Drawing.UnpushedDrawSteps`) |
| DrawContexts.FramedDelivers | FastConsoleFramework/Renderer/Misc/ConsoleDrawContext.cs:248-251 | a framed command list performed on an idle writer delivers every text before the final flush and leaves nothing buffered |
| DrawContexts.PublishDelivers | FastConsoleFramework/Renderer/Misc/ConsoleDrawContext.cs:161-253 | the publish task leaves the writer with nothing buffered. It leaves the writer untouched when there is nothing to send, and otherwise delivers every command's text in order |
| DrawContexts.PublishKeepsCoherent | FastConsoleFramework/Renderer/Misc/ConsoleDrawContext.cs:145-256 | an accepted publish leaves the terminal showing the frame that was current, and the console stays coherent either way |
| DrawContexts.Apply | FastConsoleFramework/Renderer/Misc/ConsoleDrawContext.cs:81-256 | every push, pop, draw, buffer resize, window resize, settlement and publish keeps the context consistent. Pushes place rectangles and buffer resizes run the setter as the code does. A window resize replaces only the terminal |
| DrawContexts.ApplyKeepsCoherent | FastConsoleFramework/Renderer/Misc/ConsoleDrawContext.cs:81-256 | every action keeps the writer idle, and keeps the terminal showing the last published frame or off that frame's size. A publish needs the terminal at its frame's size, and a window resize must leave the terminal off the staged frame's size or still showing it |
| DrawContexts.ExecuteKeepsCoherent | FastConsoleFramework/Renderer/Misc/ConsoleDrawContext.cs:81-256 | along any run of actions, window resizes included, whose publishes find the terminal at the published frame's size, nothing stays buffered. The terminal shows the last published frame, or is off its size until the next publish repaints it |
| DrawContexts.WindowResizeRepaints | FastConsoleFramework/Renderer/Misc/ConsoleDrawContext.cs:145-256 | after a window resize, resizing the current buffer to the window's size and publishing leaves the terminal showing the new frame, whatever the resized terminal showed |
| DrawContexts.FreshIsCoherent | FastConsoleFramework/Renderer/Misc/ConsoleDrawContext.cs:14-20 | a new context with an idle writer starts coherent on any terminal |

## Left out

- Floating point: `float` is modelled over exact reals, so results one unit of rounding away from the exact value are not modelled.
- `Color` equality in .NET also compares a colour's name and state. The model compares ARGB only, and `Color.Empty` is transparent black.
- 32-bit overflow is modelled only where it decides behaviour, in the parallel dispatch count. Rectangle arithmetic, positions and sizes are unbounded.
- Negative sizes are excluded: sizes are natural numbers. The source throws for some of them (a negative cell count at `ConsoleFrameBuffer.cs:63`, an out-of-range index at `ConsoleFrameBuffer.cs:41`) and silently keeps others, such as a width of -5 with a height of 0.
- Concurrency: `Parallel.For` is modelled as every order of its indices, each run once. Each index's read and write happen together, so interleavings where two indices both read before either writes are not modelled, nor are torn writes to one cell. `FrameBuffers.AliasingClobbersCells` needs only one bad order, so it is unaffected.
- The publish task's scheduling is not modelled. Its status is a value that `DrawContexts.Settle` advances, and the task's commands take effect when the publish is accepted.
- The unknown-alignment `NotImplementedException` is not modelled, because the alignment datatype has only the five cases.
- The `Async` writer methods and their cancellation tokens are left out. They produce the same text through the same buffer.
- Platform I/O is left out: `libc` `write`, the Windows console handle and its mode flags, UTF-16 encoding and byte-level short writes. The writer's output is a string, and a short write is a character prefix.
- The clear-console and show-cursor commands are modelled, but the publish task never sends them.
- `Dispose` and `DisposeAsync` only await the task and are left out.
- Subscribers to the size-changed event are left out. The event is returned as a list of notifications.
- The reference terminal is a linear screen. The cursor advances one cell per character, so control characters are treated as one-cell glyphs.
- A cell's character is a Unicode scalar value, so cells holding a surrogate half, which a C# `char` can be and `Character.ToString()` writes out, are not modelled.
- `IConsoleFrameBuffer` and `IConsoleDrawContext` are interfaces. The model uses the concrete classes.
- DrawContexts.Publish: sends the corrected `FrameDiff.Diff` rather than `FrameDiff.DiffAsWritten`. The two differ only on a full repaint, as recorded under Findings.
- DrawContexts.ExecuteKeepsCoherent: assumes that at each publish the terminal already has the size of the published frame, because the renderer never reads the window's size. It also assumes that a window resize landing on the staged frame's size leaves that frame shown; otherwise the source's same-size diff would send only the changed cells and leave the rest of the window stale. It also assumes that every raw write is complete (see the next lines).
- DrawContexts.PublishDelivers: assumes every raw write accepts the whole buffer, because the model performs each `Flush` command with `ConsoleWriter.FlushCommands`. After a short write the rest of the frame's text is lost (`ConsoleWriter.FlushCommandsShort`), and later same-size diffs never resend the lost cells.
- DrawContexts.PublishKeepsCoherent: rests on the same complete-write assumption.
- DrawContexts.ApplyKeepsCoherent: rests on the same complete-write assumption.
- FrameBuffers.Resize: models the corrected loops. The default sequential path as written is `FrameBuffers.ResizeSequentialAsWritten`.
- ColorMath.Interpolated: bounds each channel between the endpoints rather than stating the exact truncated value, because the source computes it in `float`.
- ColorMath.Multiplied: states only that each channel is at most the smaller operand's channel. The exact rounded product is the body itself (`ColorMath.MulChannel`, which matches the single-precision source exactly), so the contract states the bound instead.
- FrameDiff.Diff: its own contract gives the shape of the command list. What the list does to the terminal is stated by `FrameDiff.PublishShowsStaged` and `FrameDiff.SendsIffChanged`.

## Findings

| source | as written | input that shows it | evidently intended | confidence | as-written member | corrected member |
|---|---|---|---|---|---|---|
| FastConsoleFramework/Renderer/Misc/ConsoleFrameBuffer.cs:78-80 | the sequential resize loops run while `Y > size.Height` and `X > size.Width`, so they never run; this is the default path, which the `Size` setter (:16) also takes | growing a 1×1 buffer holding `a` to 2×1 (TopLeft, the default sequential path) leaves two default cells instead of `a` and `Empty` | `<` in both guards, and migrate from a snapshot of the old cells (or into fresh storage), so every new cell is migrated. The guards alone are not enough: with an unchanged cell count the loop would overwrite the reused array in row-major order, the ascending schedule of the next row | not executed | FrameBuffers.SequentialPathDropsContent | FrameBuffers.ResizeSequential |
| FastConsoleFramework/Renderer/Misc/ConsoleFrameBuffer.cs:60-72 | when the cell count is unchanged, the old array is reused as the destination while the parallel loop still reads it as the source | resizing a 2×2 buffer `a b / c d` to 4×1 with TopRight, indices in order, gives four `Empty` cells instead of `Empty Empty a b` | migrate from a snapshot or into fresh storage, so the result does not depend on the order | not executed | FrameBuffers.AliasingClobbersCells | FrameBuffers.ParallelFreshStorageIsResize |
| FastConsoleFramework/Renderer/Misc/ConsoleDrawContext.cs:235-238 | the full repaint compares each background with the previous cell's, starting from `Empty`'s black, not with the last background actually sent | after a frame that left the terminal's background red, repainting a one-cell empty frame of a new size sends no background command, so the space shows red | track the last background applied, starting from none, as the same-size path does | not executed | FrameDiff.RepaintKeepsStaleBackground | FrameDiff.RepaintShowsStaged |
| FastConsoleFramework/Renderer/Misc/ConsoleDrawContext.cs:92-109 | TopRight, BottomLeft, BottomRight and Center place the child from the parent's size alone, dropping the parent's X, Y or both | a 5×5 TopRight child of the parent (10, 0, 20, 5) lands at x 15 instead of at the parent's right edge, x 25 | add the parent's location, as TopLeft does | not executed | ClipStack.TopRightPlacementExample | ClipStack.Place |
| FastConsoleFramework/Renderer/Misc/ConsoleDrawContext.cs:129 | the parallel dispatch counts `rectangle.Width * rectangle.Height` in 32-bit arithmetic | with no rectangle pushed the count is `int.MaxValue` squared, which wraps to 1, so on an empty 2×1 buffer only (0, 0) is drawn | dispatch every index of the rectangle exactly once; to keep the count small, dispatch over the part inside the buffer as in the next row | not executed | Drawing.UnpushedParallelDrawsOrigin | Drawing.DrawCellsParallel |
| FastConsoleFramework/Renderer/Misc/ConsoleDrawContext.cs:135-141 | the sequential loop visits every local point of the clip rectangle, including those outside the buffer; with no rectangle pushed, as after every publish (:159), that rectangle is the full plane (:8, :22) | the first `DrawCells` after a publish on any buffer makes (2^31 − 1)^2, about 4.6·10^18, `DrawCell` calls | loop over the rectangle clipped to the buffer, at most one call per cell | not executed | Drawing.UnpushedDrawSteps | Drawing.DrawCellsClipped |

=== FILE: clip_stack.dfy ===
/**
  The draw context's clip-rectangle stack: rectangles placed by alignment
  inside the current top, intersected with it (the .NET
  `Rectangle.Intersect` rule) and pushed, so nested pushes only shrink the
  drawable region.

  `PushAsWritten` places rectangles as the source does; `Push` places them
  relative to the parent's origin for every alignment (see `Place`).
*/
module ClipStack {
  import opened ColorMath
  import opened FrameBuffers

  /** An axis-aligned integer rectangle (`System.Drawing.Rectangle`). */
  datatype Rect = Rect(x: int, y: int, w: int, h: int)

  /** The implicit full-plane rectangle used when the stack is empty. */
  const BaseRect: Rect := Rect(0, 0, 2147483647, 2147483647)

  /** `Rectangle.Empty`. */
  const EmptyRect: Rect := Rect(0, 0, 0, 0)

  /** `Rectangle.Contains(point)`: the right and bottom edges are exclusive. */
  predicate Contains(r: Rect, p: Point)
  {
    r.x <= p.x < r.x + r.w && r.y <= p.y < r.y + r.h
  }

  /**
    `Rectangle.Intersect(a, b)`: the overlap of the two rectangles, or the
    empty rectangle when they are apart. Its points are exactly the points
    both rectangles share, and it is never wider or taller than either.
  */
  function Intersect(a: Rect, b: Rect): (r: Rect)
    ensures forall p :: Contains(r, p) <==> Contains(a, p) && Contains(b, p)
    ensures 0 <= r.w && 0 <= r.h
    ensures 0 <= a.w ==> r.w <= a.w
    ensures 0 <= a.h ==> r.h <= a.h
    ensures 0 <= b.w ==> r.w <= b.w
    ensures 0 <= b.h ==> r.h <= b.h
  {
    var x1 := Max(a.x, b.x);
    var x2 := Min(a.x + a.w, b.x + b.w);
    var y1 := Max(a.y, b.y);
    var y2 := Min(a.y + a.h, b.y + b.h);
    if x2 >= x1 && y2 >= y1 then Rect(x1, y1, x2 - x1, y2 - y1) else EmptyRect
  }

  /** `Rectangle`: the top of the stack, or the full plane when the stack is empty. */
  function Top(stack: seq<Rect>): Rect
  {
    if |stack| == 0 then BaseRect else stack[|stack| - 1]
  }

  /** `IsRectangleNotEmpty`: the current rectangle has positive width and height. */
  predicate IsNotEmpty(stack: seq<Rect>)
  {
    Top(stack).w > 0 && Top(stack).h > 0
  }

  /** A rectangle is non-empty in the size sense exactly when it holds a point. */
  lemma NotEmptyHasPoint(stack: seq<Rect>)
    ensures IsNotEmpty(stack) <==> exists p :: Contains(Top(stack), p)
  {
    var t := Top(stack);
    if IsNotEmpty(stack) {
      assert Contains(t, Point(t.x, t.y));
    }
  }

  /**
    The alignment switch of `PushRectangle` as written: TopLeft is offset by
    the parent's origin, TopRight and BottomLeft by one of its coordinates,
    and BottomRight and Center by neither.
  */
  function PlaceAsWritten(local: Rect, outer: Rect, alignment: Alignment): Rect
  {
    match alignment
    case TopLeft => Rect(local.x + outer.x, local.y + outer.y, local.w, local.h)
    case TopRight => Rect(local.x + outer.w - local.w, local.y + outer.y, local.w, local.h)
    case BottomLeft => Rect(local.x + outer.x, local.y + outer.h - local.h, local.w, local.h)
    case BottomRight => Rect(local.x + outer.w - local.w, local.y + outer.h - local.h, local.w, local.h)
    case Center => Rect(local.x + TruncHalf(outer.w - local.w), local.y + TruncHalf(outer.h - local.h), local.w, local.h)
  }

  /**
    The placement the alignment rule describes: the local rectangle's
    offset is taken from the anchored corner (or the centre) of the parent,
    for every alignment.
  */
  function Place(local: Rect, outer: Rect, alignment: Alignment): (r: Rect)
    ensures r.w == local.w && r.h == local.h
    ensures (alignment == TopLeft || alignment == BottomLeft) ==> r.x == outer.x + local.x
    ensures (alignment == TopRight || alignment == BottomRight) ==> r.x + r.w == outer.x + outer.w + local.x
    ensures (alignment == TopLeft || alignment == TopRight) ==> r.y == outer.y + local.y
    ensures (alignment == BottomLeft || alignment == BottomRight) ==> r.y + r.h == outer.y + outer.h + local.y
    ensures alignment == Center ==>
      r.x == outer.x + local.x + TruncHalf(outer.w - local.w) &&
      r.y == outer.y + local.y + TruncHalf(outer.h - local.h)
  {
    var anchored := Anchor(local.w, local.h, outer, alignment);
    Rect(anchored.x + local.x, anchored.y + local.y, local.w, local.h)
  }

  /** Where a `w` by `h` rectangle with no local offset sits inside `outer`. */
  function Anchor(w: int, h: int, outer: Rect, alignment: Alignment): Point
  {
    match alignment
    case TopLeft => Point(outer.x, outer.y)
    case TopRight => Point(outer.x + outer.w - w, outer.y)
    case BottomLeft => Point(outer.x, outer.y + outer.h - h)
    case BottomRight => Point(outer.x + outer.w - w, outer.y + outer.h - h)
    case Center => Point(outer.x + TruncHalf(outer.w - w), outer.y + TruncHalf(outer.h - h))
  }

  /** The parent-origin coordinates the written placement leaves out. */
  function Omitted(outer: Rect, alignment: Alignment): Point
  {
    match alignment
    case TopLeft => Point(0, 0)
    case TopRight => Point(outer.x, 0)
    case BottomLeft => Point(0, outer.y)
    case BottomRight => Point(outer.x, outer.y)
    case Center => Point(outer.x, outer.y)
  }

  /**
    The written placement is the intended one shifted back by the omitted
    origin coordinates, so the two agree exactly when nothing is omitted:
    always for TopLeft, and for the others when the parent sits at the origin.
  */
  lemma PlacementOmitsOrigin(local: Rect, outer: Rect, alignment: Alignment)
    ensures var o := Omitted(outer, alignment);
            var r := PlaceAsWritten(local, outer, alignment);
            Place(local, outer, alignment) == Rect(r.x + o.x, r.y + o.y, r.w, r.h)
    ensures Place(local, outer, alignment) == PlaceAsWritten(local, outer, alignment) <==>
            Omitted(outer, alignment) == Point(0, 0)
  {
  }

  /** A parent away from the origin: a top-right push lands at the wrong column as written. */
  lemma TopRightPlacementExample()
    ensures PlaceAsWritten(Rect(0, 0, 5, 5), Rect(10, 0, 20, 5), TopRight) == Rect(15, 0, 5, 5)
    ensures Place(Rect(0, 0, 5, 5), Rect(10, 0, 20, 5), TopRight) == Rect(25, 0, 5, 5)
    ensures Intersect(Rect(10, 0, 20, 5), Rect(25, 0, 5, 5)) == Rect(25, 0, 5, 5)
  {
  }

  /** `PushRectangle` with the intended placement. */
  function Push(stack: seq<Rect>, local: Rect, alignment: Alignment): (r: seq<Rect>)
    ensures |r| == |stack| + 1 && r[..|stack|] == stack
    ensures Top(r) == Intersect(Top(stack), Place(local, Top(stack), alignment))
  {
    stack + [Intersect(Top(stack), Place(local, Top(stack), alignment))]
  }

  /** `PushRectangle` as written. */
  function PushAsWritten(stack: seq<Rect>, local: Rect, alignment: Alignment): (r: seq<Rect>)
    ensures |r| == |stack| + 1 && r[..|stack|] == stack
    ensures Top(r) == Intersect(Top(stack), PlaceAsWritten(local, Top(stack), alignment))
  {
    stack + [Intersect(Top(stack), PlaceAsWritten(local, Top(stack), alignment))]
  }

  /**
    `PopRectangle`: the stack without its top, and whether there was a top
    to remove. An empty stack is returned unchanged.
  */
  function Pop(stack: seq<Rect>): (r: (seq<Rect>, bool))
    ensures r.1 <==> |stack| > 0
    ensures r.1 ==> r.0 + [Top(stack)] == stack
    ensures !r.1 ==> r.0 == stack
  {
    if |stack| == 0 then (stack, false) else (stack[..|stack| - 1], true)
  }

  /** Popping right after a push restores the stack and reports success. */
  lemma PopUndoesPush(stack: seq<Rect>, local: Rect, alignment: Alignment)
    ensures Pop(Push(stack, local, alignment)) == (stack, true)
    ensures Pop(PushAsWritten(stack, local, alignment)) == (stack, true)
  {
  }

  /**
    Structural containment for a rectangle with non-negative size: it is
    empty, or each of its edges lies inside `outer`.
  */
  predicate Within(r: Rect, outer: Rect)
  {
    r.w == 0 || r.h == 0 ||
    (outer.x <= r.x && r.x + r.w <= outer.x + outer.w && outer.y <= r.y && r.y + r.h <= outer.y + outer.h)
  }

  /** For a rectangle of non-negative size, `Within` is exactly inclusion of point sets. */
  lemma WithinIsInclusion(r: Rect, outer: Rect)
    requires 0 <= r.w && 0 <= r.h
    ensures Within(r, outer) <==> forall p :: Contains(r, p) ==> Contains(outer, p)
  {
    if r.w > 0 && r.h > 0 && forall p :: Contains(r, p) ==> Contains(outer, p) {
      assert Contains(r, Point(r.x, r.y));
      assert Contains(r, Point(r.x + r.w - 1, r.y + r.h - 1));
    }
  }

  /**
    The stack invariant: every rectangle has non-negative size, lies within
    the one beneath it (the full plane for the bottom one) and is no wider
    or taller than it.
  */
  predicate Nested(stack: seq<Rect>)
  {
    forall i :: 0 <= i < |stack| ==> Inside(stack[i], Top(stack[..i]))
  }

  /** One step of the stack invariant. */
  predicate Inside(r: Rect, outer: Rect)
  {
    0 <= r.w <= outer.w && 0 <= r.h <= outer.h && Within(r, outer)
  }

  /** Every intersection with a rectangle of non-negative size lies inside it. */
  lemma IntersectWithin(top: Rect, placed: Rect)
    requires 0 <= top.w && 0 <= top.h
    ensures Inside(Intersect(top, placed), top)
  {
    var r := Intersect(top, placed);
    WithinIsInclusion(r, top);
  }

  /** Pushing, either way, keeps the stack nested. */
  lemma PushKeepsNested(stack: seq<Rect>, local: Rect, alignment: Alignment)
    requires Nested(stack)
    ensures Nested(Push(stack, local, alignment))
    ensures Nested(PushAsWritten(stack, local, alignment))
  {
    var r1 := Push(stack, local, alignment);
    var r2 := PushAsWritten(stack, local, alignment);
    if |stack| > 0 {
      assert stack[..|stack| - 1 + 1] == stack;
    }
    IntersectWithin(Top(stack), Place(local, Top(stack), alignment));
    IntersectWithin(Top(stack), PlaceAsWritten(local, Top(stack), alignment));
    assert r1[..|stack|] == stack && r2[..|stack|] == stack;
    forall i | 0 <= i < |stack|
      ensures r1[..i] == stack[..i] && r2[..i] == stack[..i]
    {
    }
  }

  /** Popping keeps the stack nested. */
  lemma PopKeepsNested(stack: seq<Rect>)
    requires Nested(stack)
    ensures Nested(Pop(stack).0)
  {
    var r := Pop(stack).0;
    forall i | 0 <= i < |r|
      ensures r[..i] == stack[..i]
    {
    }
  }

  /**
    A top-left push of a rectangle whose offset lies inside the current top
    is that rectangle translated by the top's origin and clipped at the
    top's right and bottom edges. The written placement agrees for TopLeft.
  */
  lemma TopLeftPushClips(stack: seq<Rect>, local: Rect)
    requires 0 <= local.x <= Top(stack).w && 0 <= local.y <= Top(stack).h
    requires 0 <= local.w && 0 <= local.h
    ensures Top(Push(stack, local, TopLeft)) ==
      Rect(Top(stack).x + local.x, Top(stack).y + local.y,
           Min(local.w, Top(stack).w - local.x), Min(local.h, Top(stack).h - local.y))
    ensures PushAsWritten(stack, local, TopLeft) == Push(stack, local, TopLeft)
  {
  }

  /** The first push on an empty stack is clipped by the full plane only. */
  lemma FirstPushExample()
    ensures Push([], Rect(1, 1, 2, 2), TopLeft) == [Rect(1, 1, 2, 2)]
  {
    TopLeftPushClips([], Rect(1, 1, 2, 2));
    var r := Push([], Rect(1, 1, 2, 2), TopLeft);
    assert |r| == 1 && r[0] == Top(r);
  }

  /**
    Pushing `(1,1,2,2)` top-left twice on an empty stack gives `(2,2,1,1)`,
    clipped by the first; pushing `(0,0,1,1)` second gives `(1,1,1,1)`.
  */
  lemma NestedPushExample()
    ensures Top(Push(Push([], Rect(1, 1, 2, 2), TopLeft), Rect(1, 1, 2, 2), TopLeft)) == Rect(2, 2, 1, 1)
    ensures Top(Push(Push([], Rect(1, 1, 2, 2), TopLeft), Rect(0, 0, 1, 1), TopLeft)) == Rect(1, 1, 1, 1)
  {
    var first := Rect(1, 1, 2, 2);
    FirstPushExample();
    var s := Push([], first, TopLeft);
    assert Top(s) == first;
    TopLeftPushClips(s, first);
    TopLeftPushClips(s, Rect(0, 0, 1, 1));
  }
}

=== FILE: color_math.dfy ===
/**
  Colour arithmetic of the renderer: ARGB colours with 8-bit channels,
  linear interpolation, "over" alpha blending and channel multiplication.

  The source computes the interior of each operation in 32-bit floating
  point; here the same formulas are evaluated over `real`, with the C#
  `(int)` cast modelled as truncation toward zero and `Math.Round` as
  round-half-to-even.
*/
module ColorMath {

  /** One colour channel: the range `Color.FromArgb` accepts. */
  type Byte = x: int | 0 <= x <= 255

  /** An ARGB colour. */
  datatype Color = Color(a: Byte, r: Byte, g: Byte, b: Byte)

  /** `Color.Empty`: all four channels zero. */
  const Transparent: Color := Color(0, 0, 0, 0)

  /** Opaque white, the identity of `Multiplied`. */
  const White: Color := Color(255, 255, 255, 255)

  /** Opaque black. */
  const Black: Color := Color(255, 0, 0, 0)

  /** `Math.Clamp(v, lo, hi)`. */
  function Clamp(v: int, lo: int, hi: int): (r: int)
    requires lo <= hi
    ensures lo <= r <= hi
    ensures lo <= v <= hi ==> r == v
    ensures v < lo ==> r == lo
    ensures hi < v ==> r == hi
  {
    if v < lo then lo else if hi < v then hi else v
  }

  /** The C# `(int)` conversion of a floating-point value: truncation toward zero. */
  function TruncToInt(x: real): (r: int)
    ensures 0.0 <= x ==> r as real <= x < r as real + 1.0
    ensures x <= 0.0 ==> r as real - 1.0 < x <= r as real
  {
    if x >= 0.0 then x.Floor else -((-x).Floor)
  }

  /** `Math.Round` with its default midpoint rule (to even). */
  function RoundHalfEven(x: real): (r: int)
    ensures x - 0.5 <= r as real <= x + 0.5
    ensures x - 0.5 < r as real < x + 0.5 || r % 2 == 0
  {
    var f := x.Floor;
    var d := x - f as real;
    if d < 0.5 then f
    else if d > 0.5 then f + 1
    else if f % 2 == 0 then f else f + 1
  }

  /** `GetInterpolatedValue`: the point a fraction `blend` of the way from `start` to `end`. */
  function Lerp(start: real, end: real, blend: real): real
  {
    start + (end - start) * blend
  }

  function Min(x: int, y: int): int { if x <= y then x else y }

  function Max(x: int, y: int): int { if x <= y then y else x }

  function Dist(x: int, y: int): nat { if x <= y then y - x else x - y }

  /** One channel of an interpolated colour: truncated, then clamped to a byte. */
  function LerpChannel(s: Byte, e: Byte, t: real): Byte
  {
    Clamp(TruncToInt(Lerp(s as real, e as real, t)), 0, 255)
  }

  /** `GetInterpolatedColor(start, end, time)`. */
  function Interpolated(s: Color, e: Color, t: real): (c: Color)
    ensures t <= 0.0 ==> c == s
    ensures t >= 1.0 ==> c == e
    ensures Min(s.a, e.a) <= c.a <= Max(s.a, e.a)
    ensures Min(s.r, e.r) <= c.r <= Max(s.r, e.r)
    ensures Min(s.g, e.g) <= c.g <= Max(s.g, e.g)
    ensures Min(s.b, e.b) <= c.b <= Max(s.b, e.b)
  {
    if t <= 0.0 then s
    else if t >= 1.0 then e
    else
      LerpChannelBetween(s.a, e.a, t);
      LerpChannelBetween(s.r, e.r, t);
      LerpChannelBetween(s.g, e.g, t);
      LerpChannelBetween(s.b, e.b, t);
      Color(LerpChannel(s.a, e.a, t), LerpChannel(s.r, e.r, t),
            LerpChannel(s.g, e.g, t), LerpChannel(s.b, e.b, t))
  }

  /** For a blend factor in [0, 1] the interpolated real lies between the endpoints. */
  lemma LerpBetween(s: real, e: real, t: real)
    requires 0.0 <= t <= 1.0
    ensures s <= e ==> s <= Lerp(s, e, t) <= e
    ensures e <= s ==> e <= Lerp(s, e, t) <= s
  {
    var d := e - s;
    var p := d * t;
    assert Lerp(s, e, t) == s + p;
    if d >= 0.0 {
      ScaleWithinUnit(d, t);
    } else {
      ScaleWithinUnit(-d, t);
      NegMul(d, t);
    }
  }

  lemma MulNonneg(x: real, y: real)
    requires 0.0 <= x && 0.0 <= y
    ensures 0.0 <= x * y
  {
  }

  lemma NegMul(x: real, y: real)
    ensures (-x) * y == -(x * y)
  {
  }

  lemma MulSub(d: real, a: real, b: real)
    ensures d * a - d * b == d * (a - b)
  {
  }

  /** Scaling a non-negative amount by a factor in [0, 1] keeps it between 0 and itself. */
  lemma ScaleWithinUnit(d: real, t: real)
    requires 0.0 <= d && 0.0 <= t <= 1.0
    ensures 0.0 <= d * t <= d
  {
    MulNonneg(d, t);
    MulNonneg(d, 1.0 - t);
    MulSub(d, 1.0, t);
  }

  /** Scaling by a larger factor moves a non-negative amount no less. */
  lemma ScaleMonotone(d: real, t1: real, t2: real)
    requires 0.0 <= d && t1 <= t2
    ensures d * t1 <= d * t2
  {
    MulNonneg(d, t2 - t1);
    MulSub(d, t2, t1);
  }

  /** The truncated channel keeps between the endpoints, so the clamp never bites. */
  lemma LerpChannelBetween(s: Byte, e: Byte, t: real)
    requires 0.0 <= t <= 1.0
    ensures Min(s, e) <= LerpChannel(s, e, t) <= Max(s, e)
    ensures LerpChannel(s, e, t) == Lerp(s as real, e as real, t).Floor
  {
    LerpBetween(s as real, e as real, t);
  }

  /** The interpolated real moves monotonically from the start toward the end. */
  lemma LerpMonotone(s: real, e: real, t1: real, t2: real)
    requires 0.0 <= t1 <= t2 <= 1.0
    ensures s <= e ==> Lerp(s, e, t1) <= Lerp(s, e, t2)
    ensures e <= s ==> Lerp(s, e, t2) <= Lerp(s, e, t1)
  {
    var d := e - s;
    var p1, p2 := d * t1, d * t2;
    assert Lerp(s, e, t1) == s + p1 && Lerp(s, e, t2) == s + p2;
    if d >= 0.0 {
      ScaleMonotone(d, t1, t2);
    } else {
      ScaleMonotone(-d, t1, t2);
      NegMul(d, t1);
      NegMul(d, t2);
    }
  }

  /** Flooring preserves the order of reals. */
  lemma FloorMonotone(x1: real, x2: real)
    requires x1 <= x2
    ensures x1.Floor <= x2.Floor
  {
  }

  /** Truncation is monotone, so a channel moves toward its end value as the blend factor grows. */
  lemma LerpChannelMonotone(s: Byte, e: Byte, t1: real, t2: real)
    requires 0.0 <= t1 <= t2 <= 1.0
    ensures Dist(LerpChannel(s, e, t2), e) <= Dist(LerpChannel(s, e, t1), e)
  {
    LerpChannelBetween(s, e, t1);
    LerpChannelBetween(s, e, t2);
    var x1 := Lerp(s as real, e as real, t1);
    var x2 := Lerp(s as real, e as real, t2);
    LerpMonotone(s as real, e as real, t1, t2);
    if s <= e {
      FloorMonotone(x1, x2);
    } else {
      FloorMonotone(x2, x1);
    }
  }

  /**
    `GetAlphaBlendedColor(base, append)`: `append` painted over `base`.
    A transparent append changes nothing, an opaque one replaces the base,
    and anything between moves the base toward the opaque version of the
    append by the fraction `append.a / 255`.
  */
  function AlphaBlended(base: Color, append: Color): (c: Color)
    ensures append.a == 0 ==> c == base
    ensures append.a == 255 ==> c == append
    ensures 0 < append.a < 255 ==>
      c == Interpolated(base, Color(255, append.r, append.g, append.b), append.a as real / 255.0)
    ensures c.a >= base.a
    ensures base.a == 255 ==> c.a == 255
  {
    if append.a <= 0 then base
    else if append.a >= 255 then append
    else Interpolated(base, Color(255, append.r, append.g, append.b), append.a as real / 255.0)
  }

  /** The opaque colour `AlphaBlended` heads toward for a partially covering append. */
  function Target(append: Color): Color
  {
    Color(255, append.r, append.g, append.b)
  }

  /**
    Blending is monotone in coverage: raising the append's alpha (same RGB)
    never moves any channel of the result further from the opaque target.
  */
  lemma AlphaBlendMonotone(base: Color, r: Byte, g: Byte, b: Byte, a1: Byte, a2: Byte)
    requires a1 <= a2
    ensures var t := Color(255, r, g, b);
            var c1 := AlphaBlended(base, Color(a1, r, g, b));
            var c2 := AlphaBlended(base, Color(a2, r, g, b));
            && Dist(c2.a, t.a) <= Dist(c1.a, t.a)
            && Dist(c2.r, t.r) <= Dist(c1.r, t.r)
            && Dist(c2.g, t.g) <= Dist(c1.g, t.g)
            && Dist(c2.b, t.b) <= Dist(c1.b, t.b)
  {
    var t := Color(255, r, g, b);
    var t1 := a1 as real / 255.0;
    var t2 := a2 as real / 255.0;
    if a1 == 0 {
      if 0 < a2 < 255 {
        LerpChannelMonotone(base.a, 255, 0.0, t2);
        LerpChannelMonotone(base.r, r, 0.0, t2);
        LerpChannelMonotone(base.g, g, 0.0, t2);
        LerpChannelMonotone(base.b, b, 0.0, t2);
      }
    } else if a2 < 255 {
      assert 0 < a1 <= a2 < 255;
      assert t1 <= t2 < 1.0;
      LerpChannelMonotone(base.a, 255, t1, t2);
      LerpChannelMonotone(base.r, r, t1, t2);
      LerpChannelMonotone(base.g, g, t1, t2);
      LerpChannelMonotone(base.b, b, t1, t2);
    }
  }

  /**
    One channel of `GetMultipliedColor`: `round(x * y / 255)`, clamped. The
    source multiplies in single precision, which is exact here because the
    product of two bytes needs at most 16 bits.
  */
  function MulChannel(x: Byte, y: Byte): (r: Byte)
    ensures r <= x && r <= y
  {
    var q := (x * y) as real / 255.0;
    ProductBelowMin(x, y);
    RoundBetweenIntegers(q, Min(x, y));
    Clamp(RoundHalfEven(q), 0, 255)
  }

  /** The product of two bytes is at most 255 times the smaller one. */
  lemma ProductBelowMin(x: Byte, y: Byte)
    ensures 0 <= x * y <= Min(x, y) * 255
  {
    if x <= y {
      MulMonotone(x, 0, y);
      MulMonotone(x, y, 255);
    } else {
      MulMonotone(y, 0, x);
      MulMonotone(y, x, 255);
      assert x * y == y * x;
    }
  }

  /** Multiplying by a natural number preserves order. */
  lemma {:induction false} MulMonotone(k: nat, y: int, z: int)
    requires y <= z
    ensures k * y <= k * z
    decreases k
  {
    if k > 0 {
      MulMonotone(k - 1, y, z);
      assert k * y == (k - 1) * y + y;
      assert k * z == (k - 1) * z + z;
    }
  }

  /** Rounding a value between 0 and an integer stays between 0 and that integer. */
  lemma RoundBetweenIntegers(x: real, m: int)
    requires 0.0 <= x <= m as real
    ensures 0 <= RoundHalfEven(x) <= m
  {
    var f := x.Floor;
    if f == m {
      assert x - f as real == 0.0;
    }
  }

  /** `GetMultipliedColor(left, right)`: channel-wise product scaled back to 0..255. */
  function Multiplied(left: Color, right: Color): (c: Color)
    ensures c.a <= Min(left.a, right.a) && c.r <= Min(left.r, right.r)
    ensures c.g <= Min(left.g, right.g) && c.b <= Min(left.b, right.b)
  {
    Color(MulChannel(left.a, right.a), MulChannel(left.r, right.r),
          MulChannel(left.g, right.g), MulChannel(left.b, right.b))
  }

  /** Multiplying by opaque white leaves a colour unchanged. */
  lemma MultipliedByWhite(c: Color)
    ensures Multiplied(c, White) == c
  {
    MulByMax(c.a);
    MulByMax(c.r);
    MulByMax(c.g);
    MulByMax(c.b);
  }

  lemma MulByMax(x: Byte)
    ensures MulChannel(x, 255) == x
  {
    assert (x * 255) as real / 255.0 == x as real;
  }

  /** Multiplication does not depend on the order of its operands. */
  lemma MultipliedCommutes(l: Color, r: Color)
    ensures Multiplied(l, r) == Multiplied(r, l)
  {
  }
}

=== FILE: console_writer.dfy ===
/**
  The console writer: terminal commands rendered as ECMA-48 control
  sequences (CSI, "ESC ["), appended to a pending buffer and flushed to the
  output in order.

  Each command's text is written the way the writer builds it; `Decode` is
  an independent reader of control sequences, and the round-trip lemmas
  show what each text means: the colour commands carry only red, green and
  blue, and the cursor command is 1-based with the row first.
*/
module ConsoleWriter {
  import opened ColorMath

  datatype Option<T> = None | Some(value: T)

  /** The escape character, U+001B. */
  const Esc: char := 27 as char

  /** What the draw context asks the writer for. `Flush` is `FlushCommands`. */
  datatype Command =
    | Hide
    | Show
    | Clear
    | Reset
    | Move(x: nat, y: nat)
    | Fg(c: Color)
    | Bg(c: Color)
    | Str(s: string)
    | Flush

  predicate IsDigit(c: char)
  {
    '0' <= c <= '9'
  }

  predicate AllDigits(s: string)
  {
    forall i :: 0 <= i < |s| ==> IsDigit(s[i])
  }

  function DigitChar(d: nat): (c: char)
    requires d < 10
    ensures IsDigit(c) && DigitValue(c) == d
  {
    ('0' as int + d) as char
  }

  function DigitValue(c: char): nat
    requires IsDigit(c)
  {
    c as int - '0' as int
  }

  /** The decimal digits of `n` without leading zeros, as string interpolation writes an integer. */
  function NatToDecimal(n: nat): (s: string)
    ensures 1 <= |s| && AllDigits(s)
    ensures 1 < |s| ==> s[0] != '0'
    decreases n
  {
    if n < 10 then [DigitChar(n)] else NatToDecimal(n / 10) + [DigitChar(n % 10)]
  }

  /** The number a string of decimal digits denotes. */
  function DecimalValue(s: string): nat
    requires AllDigits(s)
    decreases |s|
  {
    if |s| == 0 then 0 else DecimalValue(s[..|s| - 1]) * 10 + DigitValue(s[|s| - 1])
  }

  /** Reading the digits back gives the number. */
  lemma {:induction false} DecimalRoundTrip(n: nat)
    ensures DecimalValue(NatToDecimal(n)) == n
    decreases n
  {
    if n >= 10 {
      DecimalRoundTrip(n / 10);
      var s := NatToDecimal(n);
      assert s[..|s| - 1] == NatToDecimal(n / 10);
    }
  }

  /** The length of the run of digits at the start of `s`. */
  function DigitRun(s: string): (k: nat)
    ensures k <= |s| && AllDigits(s[..k])
    ensures k < |s| ==> !IsDigit(s[k])
    decreases |s|
  {
    if |s| == 0 || !IsDigit(s[0]) then 0
    else
      var k := 1 + DigitRun(s[1..]);
      assert s[..k] == [s[0]] + s[1..][..k - 1];
      k
  }

  /** A digit string followed by a non-digit (or nothing) is read as one run. */
  lemma {:induction false} DigitRunOf(d: string, t: string)
    requires AllDigits(d) && (|t| == 0 || !IsDigit(t[0]))
    ensures DigitRun(d + t) == |d|
    decreases |d|
  {
    if |d| > 0 {
      DigitRunOf(d[1..], t);
      assert (d + t)[1..] == d[1..] + t;
    }
  }

  /** Control-sequence parameters: decimal numbers separated by `;`. */
  function JoinParams(ps: seq<nat>): string
    requires 1 <= |ps|
    decreases |ps|
  {
    NatToDecimal(ps[0]) + if |ps| == 1 then "" else [';'] + JoinParams(ps[1..])
  }

  /** Reads `;`-separated decimal parameters from the front of `s`; returns them and what follows. */
  function ParseParams(s: string): (r: Option<(seq<nat>, string)>)
    ensures r.Some? ==> |r.value.1| < |s| && 1 <= |r.value.0|
    decreases |s|
  {
    var k := DigitRun(s);
    if k == 0 then None
    else
      var n := DecimalValue(s[..k]);
      var rest := s[k..];
      if |rest| > 0 && rest[0] == ';' then
        match ParseParams(rest[1..])
        case None => None
        case Some(more) => Some(([n] + more.0, more.1))
      else Some(([n], rest))
  }

  /** Parameters written by `JoinParams` are read back exactly, up to the next non-parameter character. */
  lemma {:induction false} ParamsRoundTrip(ps: seq<nat>, t: string)
    requires 1 <= |ps| && (|t| == 0 || (!IsDigit(t[0]) && t[0] != ';'))
    ensures ParseParams(JoinParams(ps) + t) == Some((ps, t))
    decreases |ps|
  {
    var d := NatToDecimal(ps[0]);
    DecimalRoundTrip(ps[0]);
    if |ps| == 1 {
      assert JoinParams(ps) + t == d + t;
      ParseOneParam(d, t);
      assert [ps[0]] == ps;
    } else {
      var more := JoinParams(ps[1..]) + t;
      assert JoinParams(ps) + t == d + ([';'] + more) by {
        Regroup(d, [';'], JoinParams(ps[1..]), t);
      }
      assert ParseParams(more) == Some((ps[1..], t)) by {
        ParamsRoundTrip(ps[1..], t);
      }
      assert ParseParams(d + ([';'] + more)) == Some(([ps[0]] + ps[1..], t)) by {
        ParseOneParam(d, [';'] + more);
        assert ([';'] + more)[1..] == more;
      }
      assert [ps[0]] + ps[1..] == ps;
    }
  }

  /** One decimal parameter, then whatever follows it. */
  lemma ParseOneParam(d: string, tail: string)
    requires 1 <= |d| && AllDigits(d) && (|tail| == 0 || !IsDigit(tail[0]))
    ensures ParseParams(d + tail) ==
      if |tail| > 0 && tail[0] == ';' then
        match ParseParams(tail[1..])
        case None => None
        case Some(more) => Some(([DecimalValue(d)] + more.0, more.1))
      else Some(([DecimalValue(d)], tail))
  {
    DigitRunOf(d, tail);
    assert (d + tail)[..|d|] == d && (d + tail)[|d|..] == tail;
  }

  /** Regrouping a concatenation of four strings. */
  lemma Regroup(a: string, b: string, c: string, d: string)
    ensures (a + (b + c)) + d == a + (b + (c + d))
    ensures a + b + (c + d) == a + (b + c) + d
  {
  }

  /** Regrouping a concatenation of five strings. */
  lemma Regroup5(a: string, b: string, c: string, d: string, e: string)
    ensures a + b + c + d + e == (a + b) + (c + (d + e))
  {
  }

  /** A non-empty parameter list written out starts with a digit. */
  lemma JoinParamsStartsWithDigit(ps: seq<nat>)
    requires 1 <= |ps|
    ensures 1 <= |JoinParams(ps)| && IsDigit(JoinParams(ps)[0])
  {
    assert JoinParams(ps)[0] == NatToDecimal(ps[0])[0];
  }

  /** Writing out a parameter in front of others puts a `;` between them. */
  lemma JoinParamsCons(p: nat, ps: seq<nat>)
    requires 1 <= |ps|
    ensures JoinParams([p] + ps) == NatToDecimal(p) + ";" + JoinParams(ps)
  {
    assert ([p] + ps)[1..] == ps;
  }

  /** One control sequence: `ESC [`, an optional private-mode `?`, parameters, and a final character. */
  datatype Csi = Csi(privateMode: bool, params: seq<nat>, final: char)

  predicate WellFormed(c: Csi)
  {
    1 <= |c.params| && !IsDigit(c.final) && c.final != ';'
  }

  function CsiText(c: Csi): string
    requires 1 <= |c.params|
  {
    [Esc, '['] + (if c.privateMode then "?" else "") + JoinParams(c.params) + [c.final]
  }

  /** Reads one control sequence from the front of `s`; returns it and what follows. */
  function ParseCsi(s: string): (r: Option<(Csi, string)>)
    ensures r.Some? ==> |r.value.1| < |s|
  {
    if |s| < 2 || s[0] != Esc || s[1] != '[' then None
    else
      var priv := |s| > 2 && s[2] == '?';
      var body := if priv then s[3..] else s[2..];
      match ParseParams(body)
      case None => None
      case Some(pr) => if |pr.1| == 0 then None else Some((Csi(priv, pr.0, pr.1[0]), pr.1[1..]))
  }

  lemma CsiRoundTrip(c: Csi, t: string)
    requires WellFormed(c)
    ensures ParseCsi(CsiText(c) + t) == Some((c, t))
  {
    var s := CsiText(c) + t;
    var body := JoinParams(c.params) + ([c.final] + t);
    ParamsRoundTrip(c.params, [c.final] + t);
    JoinParamsStartsWithDigit(c.params);
    var n := if c.privateMode then 3 else 2;
    var lead := [Esc, '['] + (if c.privateMode then "?" else "");
    Regroup5([Esc, '['], if c.privateMode then "?" else "", JoinParams(c.params), [c.final], t);
    assert s == lead + body;
    assert |lead| == n;
    assert s[0] == Esc && s[1] == '[' && |s| > 2;
    assert (|s| > 2 && s[2] == '?') == c.privateMode;
    assert s[n..] == body;
  }

  function CsisText(cs: seq<Csi>): string
    requires forall i :: 0 <= i < |cs| ==> WellFormed(cs[i])
  {
    if |cs| == 0 then ""
    else
      assert WellFormed(cs[0]);
      CsiText(cs[0]) + CsisText(cs[1..])
  }

  /** Reads a whole string as back-to-back control sequences. */
  function ParseAll(s: string): Option<seq<Csi>>
    decreases |s|
  {
    if |s| == 0 then Some([])
    else
      match ParseCsi(s)
      case None => None
      case Some(first) =>
        match ParseAll(first.1)
        case None => None
        case Some(rest) => Some([first.0] + rest)
  }

  lemma {:induction false} ParseAllRoundTrip(cs: seq<Csi>)
    requires forall i :: 0 <= i < |cs| ==> WellFormed(cs[i])
    ensures ParseAll(CsisText(cs)) == Some(cs)
    decreases |cs|
  {
    if |cs| > 0 {
      CsiRoundTrip(cs[0], CsisText(cs[1..]));
      ParseAllRoundTrip(cs[1..]);
      assert [cs[0]] + cs[1..] == cs;
    }
  }

  /** `ESC[?25l`. */
  const HideCursorText: string := [Esc] + "[?25l"

  /** `ESC[?25h`. */
  const ShowCursorText: string := [Esc] + "[?25h"

  /** `ESC[1;1H`. */
  const ResetCursorText: string := [Esc] + "[1;1H"

  /** `ESC[2J` followed by the cursor reset. */
  const ClearConsoleText: string := [Esc] + "[2J" + ResetCursorText

  /** The text the writer appends for each command; `Flush` appends nothing. */
  function Text(cmd: Command): string
  {
    match cmd
    case Hide => HideCursorText
    case Show => ShowCursorText
    case Clear => ClearConsoleText
    case Reset => ResetCursorText
    case Move(x, y) => [Esc] + "[" + NatToDecimal(y + 1) + ";" + NatToDecimal(x + 1) + "H"
    case Fg(c) => [Esc] + "[" + "38" + ";2;" + NatToDecimal(c.r) + ";" + NatToDecimal(c.g) + ";" + NatToDecimal(c.b) + "m"
    case Bg(c) => [Esc] + "[" + "48" + ";2;" + NatToDecimal(c.r) + ";" + NatToDecimal(c.g) + ";" + NatToDecimal(c.b) + "m"
    case Str(s) => s
    case Flush => ""
  }

  /** A command that is a terminal control (everything but text and flushing). */
  predicate IsControl(cmd: Command)
  {
    !cmd.Str? && !cmd.Flush?
  }

  /** The control sequences each control command consists of. */
  function Sequences(cmd: Command): (cs: seq<Csi>)
    requires IsControl(cmd)
    ensures forall i :: 0 <= i < |cs| ==> WellFormed(cs[i])
  {
    match cmd
    case Hide => [Csi(true, [25], 'l')]
    case Show => [Csi(true, [25], 'h')]
    case Clear => [Csi(false, [2], 'J'), Csi(false, [1, 1], 'H')]
    case Reset => [Csi(false, [1, 1], 'H')]
    case Move(x, y) => [Csi(false, [y + 1, x + 1], 'H')]
    case Fg(c) => [Csi(false, [38, 2, c.r, c.g, c.b], 'm')]
    case Bg(c) => [Csi(false, [48, 2, c.r, c.g, c.b], 'm')]
  }

  /** What a reader of the sequences understands: SGR 38;2 / 48;2 true colour, CUP row;column, DEC mode 25. */
  function Meaning(cs: seq<Csi>): Option<Command>
  {
    if |cs| == 1 && cs[0] == Csi(true, [25], 'l') then Some(Hide)
    else if |cs| == 1 && cs[0] == Csi(true, [25], 'h') then Some(Show)
    else if cs == [Csi(false, [2], 'J'), Csi(false, [1, 1], 'H')] then Some(Clear)
    else if |cs| == 1 && !cs[0].privateMode && cs[0].final == 'H' && |cs[0].params| == 2
            && cs[0].params[0] >= 1 && cs[0].params[1] >= 1 then
      Some(Move(cs[0].params[1] - 1, cs[0].params[0] - 1))
    else if |cs| == 1 && !cs[0].privateMode && cs[0].final == 'm' && |cs[0].params| == 5
            && cs[0].params[1] == 2 && (cs[0].params[0] == 38 || cs[0].params[0] == 48)
            && cs[0].params[2] < 256 && cs[0].params[3] < 256 && cs[0].params[4] < 256 then
      var c := Color(255, cs[0].params[2], cs[0].params[3], cs[0].params[4]);
      Some(if cs[0].params[0] == 38 then Fg(c) else Bg(c))
    else None
  }

  /** Reads a control command back from its text. */
  function Decode(s: string): Option<Command>
  {
    match ParseAll(s)
    case None => None
    case Some(cs) => Meaning(cs)
  }

  /** Each control command's text is exactly its control sequences written out. */
  lemma TextIsSequences(cmd: Command)
    requires IsControl(cmd)
    ensures Text(cmd) == CsisText(Sequences(cmd))
  {
    match cmd
    case Hide => CursorModeIsSequences('l');
    case Show => CursorModeIsSequences('h');
    case Clear => ClearIsSequences();
    case Reset => ResetIsSequences();
    case Move(x, y) => MoveIsSequences(x, y);
    case Fg(c) => ColourIsSequence(38, c);
    case Bg(c) => ColourIsSequence(48, c);
  }

  lemma CursorModeIsSequences(final: char)
    requires final == 'l' || final == 'h'
    ensures var cmd := if final == 'l' then Hide else Show;
            Text(cmd) == CsisText(Sequences(cmd))
  {
    SmallDecimals();
    var csi := Csi(true, [25], final);
    assert CsisText([csi]) == CsiText(csi);
  }

  lemma MoveIsSequences(x: nat, y: nat)
    ensures Text(Move(x, y)) == CsisText(Sequences(Move(x, y)))
  {
    var csi := Csi(false, [y + 1, x + 1], 'H');
    assert Text(Move(x, y)) == CsiText(csi) by {
      var a, b := NatToDecimal(y + 1), NatToDecimal(x + 1);
      JoinParamsCons(y + 1, [x + 1]);
      assert JoinParams([x + 1]) == b;
      MoveTextShape(a, b);
    }
    assert Sequences(Move(x, y)) == [csi];
    assert CsisText([csi]) == CsiText(csi);
  }

  lemma ResetIsSequences()
    ensures Text(Reset) == CsisText(Sequences(Reset))
  {
    SmallDecimals();
    JoinParamsCons(1, [1]);
    assert JoinParams([1]) == "1";
    MoveTextShape("1", "1");
    var csi := Csi(false, [1, 1], 'H');
    assert CsisText([csi]) == CsiText(csi);
  }

  lemma MoveTextShape(a: string, b: string)
    ensures [Esc] + "[" + a + ";" + b + "H" == [Esc, '['] + "" + (a + ";" + b) + ['H']
  {
  }

  lemma ClearIsSequences()
    ensures Text(Clear) == CsisText(Sequences(Clear))
  {
    SmallDecimals();
    JoinParamsCons(1, [1]);
    var a, b := Csi(false, [2], 'J'), Csi(false, [1, 1], 'H');
    assert [a, b][1..] == [b];
    assert CsisText([b]) == CsiText(b);
  }

  lemma ColourIsSequence(selector: nat, c: Color)
    requires selector == 38 || selector == 48
    ensures var cmd := if selector == 38 then Fg(c) else Bg(c);
            Text(cmd) == CsisText(Sequences(cmd))
  {
    var cmd := if selector == 38 then Fg(c) else Bg(c);
    var csi := Csi(false, [selector, 2, c.r, c.g, c.b], 'm');
    SmallDecimals();
    ColourParams(selector, c);
    var sel := if selector == 38 then "38" else "48";
    ColourTextShape(sel, NatToDecimal(c.r), NatToDecimal(c.g), NatToDecimal(c.b));
    assert Text(cmd) == CsiText(csi);
    assert CsisText([csi]) == CsiText(csi);
  }

  /** The decimal forms of the fixed parameters the writer uses. */
  lemma SmallDecimals()
    ensures NatToDecimal(1) == "1" && NatToDecimal(2) == "2" && NatToDecimal(25) == "25"
    ensures NatToDecimal(38) == "38" && NatToDecimal(48) == "48"
  {
    assert NatToDecimal(25) == NatToDecimal(2) + [DigitChar(5)];
    assert NatToDecimal(38) == NatToDecimal(3) + [DigitChar(8)];
    assert NatToDecimal(48) == NatToDecimal(4) + [DigitChar(8)];
  }

  /** The parameters of a true-colour SGR command written out. */
  lemma ColourParams(selector: nat, c: Color)
    ensures JoinParams([selector, 2, c.r, c.g, c.b]) ==
            (NatToDecimal(selector) + ";") + ((NatToDecimal(2) + ";") +
            ((NatToDecimal(c.r) + ";") + ((NatToDecimal(c.g) + ";") + NatToDecimal(c.b))))
  {
    JoinParamsCons(c.g, [c.b]);
    assert JoinParams([c.b]) == NatToDecimal(c.b);
    JoinParamsCons(c.r, [c.g, c.b]);
    assert [c.r] + [c.g, c.b] == [c.r, c.g, c.b];
    JoinParamsCons(2, [c.r, c.g, c.b]);
    assert [2] + [c.r, c.g, c.b] == [2, c.r, c.g, c.b];
    JoinParamsCons(selector, [2, c.r, c.g, c.b]);
    assert [selector] + [2, c.r, c.g, c.b] == [selector, 2, c.r, c.g, c.b];
  }

  /** The colour command's text regrouped as a control sequence. */
  lemma ColourTextShape(selector: string, a: string, b: string, c: string)
    requires selector == "38" || selector == "48"
    ensures [Esc] + "[" + selector + ";2;" + a + ";" + b + ";" + c + "m" ==
            [Esc, '['] + "" + ((selector + ";") + (("2" + ";") + ((a + ";") + ((b + ";") + c)))) + ['m']
  {
  }

  /**
    Decoding each command's text gives the command back, except that a
    colour is read as opaque (the alpha channel is never written) and the
    cursor reset is read as a move to the origin.
  */
  lemma DecodeText(cmd: Command)
    requires IsControl(cmd)
    ensures Decode(Text(cmd)) == Some(Understood(cmd))
  {
    TextIsSequences(cmd);
    ParseAllRoundTrip(Sequences(cmd));
    MeaningOfSequences(cmd);
  }

  /** The command a reader takes a control command for: colours arrive opaque, the cursor reset is a move. */
  function Understood(cmd: Command): Command
  {
    match cmd
    case Fg(c) => Fg(Color(255, c.r, c.g, c.b))
    case Bg(c) => Bg(Color(255, c.r, c.g, c.b))
    case Reset => Move(0, 0)
    case _ => cmd
  }

  lemma MeaningOfSequences(cmd: Command)
    requires IsControl(cmd)
    ensures Meaning(Sequences(cmd)) == Some(Understood(cmd))
  {
    match cmd
    case Hide =>
    case Show =>
    case Clear =>
    case Reset =>
    case Move(x, y) =>
    case Fg(c) =>
      var cs := Sequences(cmd);
      assert cs[0].params[2] == c.r && cs[0].params[3] == c.g && cs[0].params[4] == c.b;
    case Bg(c) =>
      var cs := Sequences(cmd);
      assert cs[0].params[2] == c.r && cs[0].params[3] == c.g && cs[0].params[4] == c.b;
  }

  /** The cursor reset is the cursor command for column 0 of row 0. */
  lemma ResetIsOriginMove()
    ensures Text(Reset) == Text(Move(0, 0))
  {
    assert NatToDecimal(1) == "1";
  }

  /** The writer's state: what is buffered and what has reached the terminal. */
  datatype Writer = Writer(pending: string, output: string)

  /** `WriteString(s, flushing)`: append to the buffer, then flush if asked to. */
  function WriteString(w: Writer, s: string, flushing: bool): (r: Writer)
    ensures !flushing ==> r == Writer(w.pending + s, w.output)
    ensures flushing ==> r == Writer("", w.output + w.pending + s)
  {
    var appended := Writer(w.pending + s, w.output);
    if flushing then FlushCommands(appended) else appended
  }

  /** `FlushCommands` when every chunk is written in full: the buffer moves to the output. */
  function FlushCommands(w: Writer): (r: Writer)
    ensures r.pending == "" && r.output == w.output + w.pending
  {
    FlushCommandsShort(w, |w.pending|)
  }

  /**
    `FlushCommands` when the raw write accepts only the first `sent`
    characters: copying stops there, yet the buffer is emptied, so the
    unsent remainder is lost.
  */
  function FlushCommandsShort(w: Writer, sent: nat): (r: Writer)
    requires sent <= |w.pending|
    ensures r.pending == "" && r.output == w.output + w.pending[..sent]
    ensures sent < |w.pending| ==> !IsPrefix(w.output + w.pending, r.output + r.pending)
  {
    Writer("", w.output + w.pending[..sent])
  }

  predicate IsPrefix(a: string, b: string)
  {
    |a| <= |b| && b[..|a|] == a
  }

  /** One command sent through its `Write*Command` method (`Flush` is `FlushCommands`). */
  function Perform(w: Writer, cmd: Command): Writer
  {
    if cmd.Flush? then FlushCommands(w) else WriteString(w, Text(cmd), false)
  }

  function PerformAll(w: Writer, cmds: seq<Command>): Writer
    decreases |cmds|
  {
    if |cmds| == 0 then w else PerformAll(Perform(w, cmds[0]), cmds[1..])
  }

  /** The concatenated texts of a command list. */
  function Transcript(cmds: seq<Command>): string
    decreases |cmds|
  {
    if |cmds| == 0 then "" else Text(cmds[0]) + Transcript(cmds[1..])
  }

  /**
    Buffering then flushing loses and reorders nothing: the terminal
    receives what was pending followed by every command's text in order,
    and nothing stays buffered.
  */
  lemma {:induction false} PerformThenFlush(w: Writer, cmds: seq<Command>)
    requires forall i :: 0 <= i < |cmds| ==> !cmds[i].Flush?
    ensures PerformAll(w, cmds + [Flush]) == Writer("", w.output + w.pending + Transcript(cmds))
    decreases |cmds|
  {
    if |cmds| == 0 {
      assert [] + [Flush] == [Flush];
    } else {
      var w1 := Perform(w, cmds[0]);
      assert w1 == Writer(w.pending + Text(cmds[0]), w.output);
      PerformThenFlush(w1, cmds[1..]);
      assert (cmds + [Flush])[1..] == cmds[1..] + [Flush];
      Regroup(w.output, w.pending, Text(cmds[0]), Transcript(cmds[1..]));
    }
  }
}

=== FILE: draw_cells.dfy ===
/**
  `DrawCells`: filling the current clip rectangle of the frame being drawn
  with the cells a callback produces. The new cell goes underneath what is
  already there (the existing cell is blended over it), and a cell whose
  background is already opaque is final for the frame and left alone.

  `DrawCells` is the pointwise result; `DrawCellsSequential` is the row and
  column loop and `DrawCellsParallel` the per-index dispatch in an
  arbitrary order, both shown to produce it. `DrawCellsParallelAsWritten`
  dispatches over the area computed in 32-bit arithmetic, which wraps for
  the full-plane rectangle in force when no rectangle is pushed. The
  sequential loop visits every local point of that rectangle, inside the
  buffer or not (`LoopSteps`); `DrawCellsClipped` loops over the part
  inside the buffer only, with the same result.
*/
module Drawing {
  import opened ColorMath
  import opened Cells
  import opened FrameBuffers
  import opened ClipStack

  /** `DrawCellDelegate`: the cell to draw at a position local to the current rectangle. */
  type Painter = Point -> Cell

  /**
    `DrawCell`'s update of one cell: an existing cell with a translucent
    background is blended over the candidate
    (`candidate.GetAlphaBlendedFrameBufferCell(existing)`, whose receiver is
    the base); an opaque one is kept.
  */
  function Underlay(existing: Cell, candidate: Cell): (c: Cell)
    ensures existing.bg.a == 255 ==> c == existing
    ensures existing.bg.a < 255 && IsEmpty(existing) ==> c == candidate
    ensures existing.bg.a < 255 && !IsEmpty(existing) ==> c.bg == AlphaBlended(candidate.bg, existing.bg)
    ensures candidate.bg.a == 255 ==> c.bg.a == 255
  {
    if existing.bg.a < 255 then AlphaBlend(candidate, existing) else existing
  }

  /** The position of global point `p` relative to the rectangle's origin. */
  function Local(p: Point, rect: Rect): Point
  {
    Point(p.x - rect.x, p.y - rect.y)
  }

  /** `DrawCell` for local point `l`: the one cell at `l` plus the origin is updated, if it is in the buffer. */
  function DrawCell(cells: seq<Cell>, size: Size, rect: Rect, paint: Painter, l: Point): (r: seq<Cell>)
    requires |cells| == size.w * size.h
    ensures |r| == |cells|
    ensures forall p {:trigger CellAt(FrameBuffer(r, size), p)} :: InBounds(p, size) ==>
      CellAt(FrameBuffer(r, size), p) ==
        if p == Point(l.x + rect.x, l.y + rect.y) then Underlay(CellAt(FrameBuffer(cells, size), p), paint(l))
        else CellAt(FrameBuffer(cells, size), p)
  {
    var g := Point(l.x + rect.x, l.y + rect.y);
    if InBounds(g, size) then
      IndexRoundTrip(g, size);
      var i := Index(g.x, g.y, size.w);
      var r := cells[i := Underlay(cells[i], paint(l))];
      assert forall p {:trigger CellAt(FrameBuffer(r, size), p)} | InBounds(p, size) ::
        CellAt(FrameBuffer(r, size), p) ==
          if p == g then Underlay(CellAt(FrameBuffer(cells, size), p), paint(l))
          else CellAt(FrameBuffer(cells, size), p) by {
        forall p | InBounds(p, size) {
          IndexRoundTrip(p, size);
        }
      }
      r
    else cells
  }

  /** The cell at in-buffer position `p` after the whole rectangle is drawn. */
  function DrawnAt(existing: Cell, rect: Rect, paint: Painter, p: Point): Cell
  {
    if Contains(rect, p) then Underlay(existing, paint(Local(p, rect))) else existing
  }

  function DrawnIndex(fb: FrameBuffer, rect: Rect, paint: Painter, i: nat): Cell
    requires Valid(fb) && i < |fb.cells|
  {
    WidthPositive(i, fb.size);
    DrawnAt(fb.cells[i], rect, paint, PositionOf(i, fb.size.w))
  }

  /**
    `DrawCells(callback)` into rectangle `rect`: a cell inside both the
    rectangle and the buffer whose background is not opaque becomes the
    callback's cell for its local position with the existing cell blended
    over it; every other cell is unchanged.
  */
  function DrawCells(fb: FrameBuffer, rect: Rect, paint: Painter): (r: FrameBuffer)
    requires Valid(fb)
    ensures Valid(r) && r.size == fb.size
    ensures forall p {:trigger CellAt(r, p)} :: InBounds(p, fb.size) ==>
      var e := CellAt(fb, p);
      CellAt(r, p) == if Contains(rect, p) && e.bg.a < 255 then AlphaBlend(paint(Local(p, rect)), e) else e
  {
    var cells := seq(|fb.cells|, i requires 0 <= i < |fb.cells| => DrawnIndex(fb, rect, paint, i));
    var r := FrameBuffer(cells, fb.size);
    assert forall p {:trigger CellAt(r, p)} | InBounds(p, fb.size) ::
      CellAt(r, p) == DrawnAt(CellAt(fb, p), rect, paint, p) by {
      forall p | InBounds(p, fb.size) {
        IndexRoundTrip(p, fb.size);
      }
    }
    r
  }

  /** Local point `p - origin` lies in the rows before `y`, or in row `y` before column `x`. */
  predicate Visited(p: Point, rect: Rect, x: int, y: int)
  {
    var l := Local(p, rect);
    0 <= l.x < rect.w && 0 <= l.y < rect.h && (l.y < y || (l.y == y && l.x < x))
  }

  /** The loop invariant: visited cells are drawn, the others still hold their original value. */
  ghost predicate DrawnSoFar(cells: seq<Cell>, fb: FrameBuffer, rect: Rect, paint: Painter, x: int, y: int)
    requires Valid(fb) && |cells| == |fb.cells|
  {
    forall p {:trigger CellAt(FrameBuffer(cells, fb.size), p)} :: InBounds(p, fb.size) ==>
      CellAt(FrameBuffer(cells, fb.size), p) ==
        if Visited(p, rect, x, y) then DrawnAt(CellAt(fb, p), rect, paint, p) else CellAt(fb, p)
  }

  /** The number of `DrawCell` calls the row and column loop makes: one per local point of the rectangle. */
  function LoopSteps(rect: Rect): nat
  {
    if rect.w > 0 && rect.h > 0 then rect.h * rect.w else 0
  }

  /** A full row of `columns` steps takes the count from `y` rows to `y + 1`. */
  lemma NextRowSteps(y: int, x: int, columns: int)
    requires x == columns
    ensures y * columns + x == (y + 1) * columns
  {
  }

  /** Once the loop has left the last row, its steps are one per local point. */
  lemma RowsTimesColumns(rect: Rect, y: int)
    requires y == if rect.h > 0 then rect.h else 0
    ensures y * (if rect.w > 0 then rect.w else 0) == LoopSteps(rect)
  {
  }

  /**
    The sequential path: local rows top to bottom, columns left to right,
    one `DrawCell` each. Every local point maps to a different cell, so the
    loop produces `DrawCells`; `steps` counts the `DrawCell` calls, which
    include the local points that fall outside the buffer.
  */
  method DrawCellsSequential(fb: FrameBuffer, rect: Rect, paint: Painter) returns (r: FrameBuffer, steps: nat)
    requires Valid(fb)
    ensures r == DrawCells(fb, rect, paint)
    ensures steps == LoopSteps(rect)
  {
    var cells := fb.cells;
    var columns := if rect.w > 0 then rect.w else 0;
    var rows := if rect.h > 0 then rect.h else 0;
    steps := 0;
    var y := 0;
    while y < rect.h
      invariant 0 <= y <= rows && steps == y * columns
      invariant |cells| == |fb.cells| && DrawnSoFar(cells, fb, rect, paint, 0, y)
    {
      var x := 0;
      while x < rect.w
        invariant 0 <= x <= columns && steps == y * columns + x
        invariant |cells| == |fb.cells| && DrawnSoFar(cells, fb, rect, paint, x, y)
      {
        var prev := cells;
        cells := DrawCell(cells, fb.size, rect, paint, Point(x, y));
        steps := steps + 1;
        assert DrawnSoFar(cells, fb, rect, paint, x + 1, y) by {
          forall p | InBounds(p, fb.size)
            ensures CellAt(FrameBuffer(cells, fb.size), p) ==
              if Visited(p, rect, x + 1, y) then DrawnAt(CellAt(fb, p), rect, paint, p) else CellAt(fb, p)
          {
            assert CellAt(FrameBuffer(prev, fb.size), p) ==
              if Visited(p, rect, x, y) then DrawnAt(CellAt(fb, p), rect, paint, p) else CellAt(fb, p);
          }
        }
        x := x + 1;
      }
      assert DrawnSoFar(cells, fb, rect, paint, 0, y + 1) by {
        forall p | InBounds(p, fb.size)
          ensures Visited(p, rect, x, y) == Visited(p, rect, 0, y + 1)
        {
        }
      }
      NextRowSteps(y, x, columns);
      y := y + 1;
    }
    RowsTimesColumns(rect, y);
    r := FrameBuffer(cells, fb.size);
    assert forall p {:trigger CellAt(r, p)} | InBounds(p, fb.size) ::
      CellAt(r, p) == CellAt(DrawCells(fb, rect, paint), p) by {
      forall p | InBounds(p, fb.size)
        ensures Visited(p, rect, 0, y) == Contains(rect, p)
      {
      }
    }
    CellsEqual(r, DrawCells(fb, rect, paint));
  }

  /** Two valid buffers of one size that agree at every position are equal. */
  lemma CellsEqual(a: FrameBuffer, b: FrameBuffer)
    requires Valid(a) && Valid(b) && a.size == b.size
    requires forall p {:trigger CellAt(a, p)} :: InBounds(p, a.size) ==> CellAt(a, p) == CellAt(b, p)
    ensures a == b
  {
    forall i | 0 <= i < |a.cells|
      ensures a.cells[i] == b.cells[i]
    {
      PositionRoundTrip(i, a.size);
      assert CellAt(a, PositionOf(i, a.size.w)) == CellAt(b, PositionOf(i, a.size.w));
    }
  }

  /** The local point of `Parallel.For` index `k`: `(k % w, k / w)`. */
  function LocalOfIndex(k: nat, rect: Rect): Point
    requires 0 <= rect.w && 0 <= rect.h && k < rect.w * rect.h
  {
    WidthPositive(k, Size(rect.w, rect.h));
    PositionOf(k, rect.w)
  }

  /** The `Parallel.For` index of a point inside the rectangle. */
  function IndexOfPoint(p: Point, rect: Rect): int
  {
    Index(p.x - rect.x, p.y - rect.y, rect.w)
  }

  /**
    Indices and points of the rectangle correspond one to one: index `k`
    names an inside point whose index is `k`, and an inside point's index
    is in range and names it.
  */
  lemma IndexOfPointRoundTrip(rect: Rect, k: nat, p: Point)
    requires 0 <= rect.w && 0 <= rect.h
    ensures k < rect.w * rect.h ==>
      var l := LocalOfIndex(k, rect);
      var g := Point(l.x + rect.x, l.y + rect.y);
      Contains(rect, g) && IndexOfPoint(g, rect) == k
    ensures Contains(rect, p) ==>
      0 <= IndexOfPoint(p, rect) < rect.w * rect.h && LocalOfIndex(IndexOfPoint(p, rect), rect) == Local(p, rect)
  {
    var s := Size(rect.w, rect.h);
    if k < rect.w * rect.h {
      PositionRoundTrip(k, s);
    }
    if Contains(rect, p) {
      IndexRoundTrip(Local(p, rect), s);
    }
  }

  /** `Parallel.For` over `0 .. n`: every index exactly once, in some order. */
  predicate Schedules(schedule: seq<nat>, n: nat)
  {
    && (forall k :: 0 <= k < |schedule| ==> schedule[k] < n)
    && (forall j, k :: 0 <= j < k < |schedule| ==> schedule[j] != schedule[k])
    && (forall i :: 0 <= i < n ==> i in schedule)
  }

  /** The per-index `DrawCell` calls of the parallel path, one after another in the order `schedule`. */
  function ApplyDraws(cells: seq<Cell>, size: Size, rect: Rect, paint: Painter, schedule: seq<nat>): (r: seq<Cell>)
    requires |cells| == size.w * size.h && 0 <= rect.w && 0 <= rect.h
    requires forall k :: 0 <= k < |schedule| ==> schedule[k] < rect.w * rect.h
    ensures |r| == |cells|
    decreases |schedule|
  {
    if |schedule| == 0 then cells
    else ApplyDraws(DrawCell(cells, size, rect, paint, LocalOfIndex(schedule[0], rect)), size, rect, paint, schedule[1..])
  }

  /** The cells of `r` are those of `cells` with exactly the points whose index is in `scheduled` drawn. */
  ghost predicate DrawnBy(r: seq<Cell>, cells: seq<Cell>, size: Size, rect: Rect, paint: Painter, scheduled: seq<nat>)
    requires |r| == |cells| == size.w * size.h
  {
    forall p {:trigger CellAt(FrameBuffer(r, size), p)} :: InBounds(p, size) ==>
      CellAt(FrameBuffer(r, size), p) ==
        if Contains(rect, p) && IndexOfPoint(p, rect) in scheduled
        then Underlay(CellAt(FrameBuffer(cells, size), p), paint(Local(p, rect)))
        else CellAt(FrameBuffer(cells, size), p)
  }

  /**
    With no index repeated, the writes of a schedule touch distinct cells:
    a cell is drawn exactly when its rectangle index is scheduled.
  */
  lemma {:induction false} ApplyDrawsAt(cells: seq<Cell>, size: Size, rect: Rect, paint: Painter, schedule: seq<nat>)
    requires |cells| == size.w * size.h && 0 <= rect.w && 0 <= rect.h
    requires forall k :: 0 <= k < |schedule| ==> schedule[k] < rect.w * rect.h
    requires forall j, k :: 0 <= j < k < |schedule| ==> schedule[j] != schedule[k]
    ensures DrawnBy(ApplyDraws(cells, size, rect, paint, schedule), cells, size, rect, paint, schedule)
    decreases |schedule|
  {
    var r := ApplyDraws(cells, size, rect, paint, schedule);
    if |schedule| == 0 {
      assert r == cells;
    } else {
      var k := schedule[0];
      var rest := schedule[1..];
      var next := DrawCell(cells, size, rect, paint, LocalOfIndex(k, rect));
      ApplyDrawsAt(next, size, rect, paint, rest);
      assert r == ApplyDraws(next, size, rect, paint, rest);
      assert k !in rest;
      assert forall i :: i in schedule <==> i == k || i in rest;
      forall p | InBounds(p, size)
        ensures CellAt(FrameBuffer(r, size), p) ==
          if Contains(rect, p) && IndexOfPoint(p, rect) in schedule
          then Underlay(CellAt(FrameBuffer(cells, size), p), paint(Local(p, rect)))
          else CellAt(FrameBuffer(cells, size), p)
      {
        DrawStepAt(r, next, cells, size, rect, paint, k, rest, p);
      }
    }
  }

  /** One point of the induction step: the head index's write, then the rest of the schedule. */
  lemma DrawStepAt(r: seq<Cell>, next: seq<Cell>, cells: seq<Cell>, size: Size, rect: Rect, paint: Painter,
                   k: nat, rest: seq<nat>, p: Point)
    requires |r| == |next| == |cells| == size.w * size.h && 0 <= rect.w && 0 <= rect.h
    requires k < rect.w * rect.h && k !in rest && InBounds(p, size)
    requires CellAt(FrameBuffer(r, size), p) ==
      if Contains(rect, p) && IndexOfPoint(p, rect) in rest
      then Underlay(CellAt(FrameBuffer(next, size), p), paint(Local(p, rect)))
      else CellAt(FrameBuffer(next, size), p)
    requires var l := LocalOfIndex(k, rect);
      CellAt(FrameBuffer(next, size), p) ==
        if p == Point(l.x + rect.x, l.y + rect.y) then Underlay(CellAt(FrameBuffer(cells, size), p), paint(l))
        else CellAt(FrameBuffer(cells, size), p)
    ensures CellAt(FrameBuffer(r, size), p) ==
      if Contains(rect, p) && (IndexOfPoint(p, rect) == k || IndexOfPoint(p, rect) in rest)
      then Underlay(CellAt(FrameBuffer(cells, size), p), paint(Local(p, rect)))
      else CellAt(FrameBuffer(cells, size), p)
  {
    IndexOfPointRoundTrip(rect, k, p);
  }

  /**
    The parallel path with the interleaving of `Parallel.For` fixed by
    `schedule`: whatever the order, the result is `DrawCells`.
  */
  function DrawCellsParallel(fb: FrameBuffer, rect: Rect, paint: Painter, schedule: seq<nat>): (r: FrameBuffer)
    requires Valid(fb) && 0 <= rect.w && 0 <= rect.h && Schedules(schedule, rect.w * rect.h)
    ensures r == DrawCells(fb, rect, paint)
  {
    var r := FrameBuffer(ApplyDraws(fb.cells, fb.size, rect, paint, schedule), fb.size);
    ApplyDrawsAt(fb.cells, fb.size, rect, paint, schedule);
    ScheduledDrawIsDrawCells(fb, r, rect, paint, schedule);
    r
  }

  /** A buffer drawn at every scheduled index of a full schedule is `DrawCells`'s buffer. */
  lemma ScheduledDrawIsDrawCells(fb: FrameBuffer, r: FrameBuffer, rect: Rect, paint: Painter, schedule: seq<nat>)
    requires Valid(fb) && 0 <= rect.w && 0 <= rect.h && Schedules(schedule, rect.w * rect.h)
    requires |r.cells| == |fb.cells| && r.size == fb.size
    requires DrawnBy(r.cells, fb.cells, fb.size, rect, paint, schedule)
    ensures r == DrawCells(fb, rect, paint)
  {
    var d := DrawCells(fb, rect, paint);
    forall p | InBounds(p, fb.size)
      ensures CellAt(r, p) == CellAt(d, p)
    {
      IndexOfPointRoundTrip(rect, 0, p);
    }
    CellsEqual(r, d);
  }

  /** Drawing on a cleared frame writes the callback's cells into the rectangle and nothing else. */
  lemma DrawOnClearedFrame(fb: FrameBuffer, rect: Rect, paint: Painter)
    requires Valid(fb)
    ensures var r := DrawCells(Clear(fb), rect, paint);
            forall p {:trigger CellAt(r, p)} :: InBounds(p, fb.size) ==>
              CellAt(r, p) == if Contains(rect, p) then paint(Local(p, rect)) else Empty
  {
    var c := Clear(fb);
    forall p | InBounds(p, fb.size)
      ensures CellAt(c, p) == Empty
    {
      IndexInRange(p, fb.size);
    }
  }

  /**
    Draws go underneath: once a rectangle is drawn with opaque
    backgrounds, a later draw changes nothing inside it.
  */
  lemma OpaqueDrawIsFinal(fb: FrameBuffer, rect: Rect, paint: Painter, rect2: Rect, paint2: Painter)
    requires Valid(fb)
    requires forall l :: paint(l).bg.a == 255
    ensures var once := DrawCells(fb, rect, paint);
            var twice := DrawCells(once, rect2, paint2);
            forall p {:trigger CellAt(twice, p)} :: InBounds(p, fb.size) && Contains(rect, p) ==>
              CellAt(twice, p) == CellAt(once, p)
  {
  }

  /** Drawing into a rectangle without area changes nothing. */
  lemma EmptyRectangleDrawsNothing(fb: FrameBuffer, rect: Rect, paint: Painter)
    requires Valid(fb) && (rect.w <= 0 || rect.h <= 0)
    ensures DrawCells(fb, rect, paint) == fb
  {
    CellsEqual(DrawCells(fb, rect, paint), fb);
  }

  /* ---------------- The parallel path's 32-bit index count ---------------- */

  /** C# `int` multiplication: the product wrapped to 32-bit two's complement. */
  function Mul32(a: int, b: int): (r: int)
    ensures -2147483648 <= r < 2147483648
    ensures (a * b - r) % 4294967296 == 0
    ensures 0 <= a * b < 2147483648 ==> r == a * b
  {
    var m := (a * b) % 4294967296;
    if m < 2147483648 then m else m - 4294967296
  }

  /** A non-negative width and height never wrap to more indices than the true area. */
  lemma Mul32AtMostArea(w: int, h: int)
    requires 0 <= w && 0 <= h
    ensures Mul32(w, h) <= w * h
  {
    var n := w * h;
    assert 0 <= n;
    assert n % 4294967296 <= n;
  }

  /** The number of indices the parallel path hands to `Parallel.For`: the wrapped area, none if negative. */
  function ParallelCount(rect: Rect): (n: nat)
    requires 0 <= rect.w && 0 <= rect.h
    ensures n <= rect.w * rect.h
    ensures rect.w * rect.h < 2147483648 ==> n == rect.w * rect.h
  {
    Mul32AtMostArea(rect.w, rect.h);
    var m := Mul32(rect.w, rect.h);
    if m < 0 then 0 else m
  }

  /**
    The parallel path as written, over the wrapped index count: it agrees
    with `DrawCells` whenever the area fits in an `int`.
  */
  function DrawCellsParallelAsWritten(fb: FrameBuffer, rect: Rect, paint: Painter, schedule: seq<nat>): (r: FrameBuffer)
    requires Valid(fb) && 0 <= rect.w && 0 <= rect.h && Schedules(schedule, ParallelCount(rect))
    ensures Valid(r) && r.size == fb.size
    ensures rect.w * rect.h < 2147483648 ==> r == DrawCells(fb, rect, paint)
  {
    var r := FrameBuffer(ApplyDraws(fb.cells, fb.size, rect, paint, schedule), fb.size);
    if rect.w * rect.h < 2147483648 then
      assert r == DrawCellsParallel(fb, rect, paint, schedule);
      r
    else r
  }

  /** With no rectangle pushed, the area `int.MaxValue * int.MaxValue` wraps to one index. */
  lemma BaseAreaWrapsToOne()
    ensures ParallelCount(BaseRect) == 1
  {
  }

  /** With no rectangle pushed, the parallel path as written makes the one `DrawCell` call for the origin. */
  lemma UnpushedParallelDrawsOnce(fb: FrameBuffer, paint: Painter)
    requires Valid(fb)
    ensures Schedules([0], ParallelCount(BaseRect))
    ensures DrawCellsParallelAsWritten(fb, BaseRect, paint, [0]).cells ==
            DrawCell(fb.cells, fb.size, BaseRect, paint, Point(0, 0))
  {
    BaseAreaWrapsToOne();
    assert LocalOfIndex(0, BaseRect) == Point(0, 0);
    var drawn := DrawCell(fb.cells, fb.size, BaseRect, paint, Point(0, 0));
    assert [0][1..] == [];
    assert ApplyDraws(drawn, fb.size, BaseRect, paint, []) == drawn;
  }

  /**
    On a one-row, two-cell frame with no rectangle pushed, the parallel
    path as written leaves the second cell as it was.
  */
  lemma UnpushedSecondCellKept(fb: FrameBuffer, paint: Painter)
    requires Valid(fb) && fb.size == Size(2, 1)
    ensures Schedules([0], ParallelCount(BaseRect))
    ensures DrawCellsParallelAsWritten(fb, BaseRect, paint, [0]).cells[1] == fb.cells[1]
  {
    var p := Point(1, 0);
    assert Index(p.x, p.y, fb.size.w) == 1;
    var drawn := DrawCell(fb.cells, fb.size, BaseRect, paint, Point(0, 0));
    UnpushedParallelDrawsOnce(fb, paint);
    assert CellAt(FrameBuffer(drawn, fb.size), p) == CellAt(fb, p);
  }

  /** With no rectangle pushed, an empty cell of the frame becomes the callback's cell for its own position. */
  lemma DrawnOverEmpty(fb: FrameBuffer, paint: Painter, p: Point)
    requires Valid(fb) && InBounds(p, fb.size) && CellAt(fb, p) == Empty
    requires p.x < BaseRect.w && p.y < BaseRect.h
    ensures CellAt(DrawCells(fb, BaseRect, paint), p) == paint(p)
  {
    assert IsEmpty(Empty);
    assert Local(p, BaseRect) == p;
  }

  /**
    With no rectangle pushed, the parallel path as written draws the origin
    cell only: on an empty one-by-two frame, the second cell stays empty
    where `DrawCells` gives it the callback's cell.
  */
  lemma UnpushedParallelDrawsOrigin(paint: Painter)
    requires paint(Point(1, 0)) != Empty
    ensures Schedules([0], ParallelCount(BaseRect))
    ensures var fb := FrameBuffer([Empty, Empty], Size(2, 1));
            DrawCellsParallelAsWritten(fb, BaseRect, paint, [0]) != DrawCells(fb, BaseRect, paint)
  {
    var fb := FrameBuffer([Empty, Empty], Size(2, 1));
    var p := Point(1, 0);
    UnpushedSecondCellKept(fb, paint);
    assert Index(p.x, p.y, fb.size.w) == 1;
    DrawnOverEmpty(fb, paint, p);
  }

  /**
    With no rectangle pushed the clip rectangle is the full plane, so the
    row and column loop makes (2^31 - 1)^2 `DrawCell` calls, whatever the
    size of the buffer: about 4.6 * 10^18, nearly all of them outside it.
  */
  lemma UnpushedDrawSteps()
    ensures LoopSteps(BaseRect) == 4611686014132420609
  {
  }

  /** The buffer as a rectangle at the origin (`new Rectangle(Point.Empty, Size)`). */
  function BufferRect(size: Size): Rect
  {
    Rect(0, 0, size.w, size.h)
  }

  /** The callback seen from a rectangle whose origin lies `(dx, dy)` further on. */
  function Shifted(paint: Painter, dx: int, dy: int): Painter
  {
    (l: Point) => paint(Point(l.x + dx, l.y + dy))
  }

  /**
    Drawing only the part of the rectangle inside the buffer, with the
    callback still asked for local points of the whole rectangle, gives
    the same buffer as drawing the whole rectangle.
  */
  lemma ClippedDrawIsDrawCells(fb: FrameBuffer, rect: Rect, paint: Painter)
    requires Valid(fb)
    ensures var clip := Intersect(rect, BufferRect(fb.size));
            DrawCells(fb, clip, Shifted(paint, clip.x - rect.x, clip.y - rect.y)) == DrawCells(fb, rect, paint)
  {
    var clip := Intersect(rect, BufferRect(fb.size));
    var q := Shifted(paint, clip.x - rect.x, clip.y - rect.y);
    var a := DrawCells(fb, clip, q);
    var b := DrawCells(fb, rect, paint);
    forall p | InBounds(p, fb.size)
      ensures CellAt(a, p) == CellAt(b, p)
    {
      assert Contains(BufferRect(fb.size), p);
      assert Contains(clip, p) == Contains(rect, p);
      assert q(Local(p, clip)) == paint(Local(p, rect));
    }
    CellsEqual(a, b);
  }

  /** A rectangle no wider and no taller than the buffer takes at most one loop step per cell. */
  lemma StepsWithinBuffer(rect: Rect, size: Size)
    requires 0 <= rect.w <= size.w && 0 <= rect.h <= size.h
    ensures LoopSteps(rect) <= size.w * size.h
  {
    MulMonotone(rect.h, rect.w, size.w);
    MulMonotone(size.w, rect.h, size.h);
    assert rect.h * size.w == size.w * rect.h;
  }

  /**
    The draw as intended: the loop runs over the rectangle clipped to the
    buffer, so it makes at most one `DrawCell` call per cell of the buffer,
    and produces `DrawCells`.
  */
  method DrawCellsClipped(fb: FrameBuffer, rect: Rect, paint: Painter) returns (r: FrameBuffer, steps: nat)
    requires Valid(fb)
    ensures r == DrawCells(fb, rect, paint)
    ensures steps <= |fb.cells|
  {
    var clip := Intersect(rect, BufferRect(fb.size));
    r, steps := DrawCellsSequential(fb, clip, Shifted(paint, clip.x - rect.x, clip.y - rect.y));
    ClippedDrawIsDrawCells(fb, rect, paint);
    StepsWithinBuffer(clip, fb.size);
  }
}

=== FILE: draw_context.dfy ===
/**
  The draw context: three frame buffers that rotate on every publish, the
  clip-rectangle stack the user interface draws through, and the status of
  the task that sends the last published frame, which gates the next
  publish.

  A console pairs a context with the terminal and the console writer it
  drives. Publishing runs the publish commands on both at once: the task's
  scheduling is not modelled, only its status, which `Settle` advances.
  The terminal window can also be resized, which replaces the terminal
  outright. The main theorem says that along any sequence of pushes, pops,
  draws, resizes, window resizes, settlements and publishes, the terminal
  shows the last frame published, or no longer has its size. It needs
  the terminal to have the size of every frame when it is published.
*/
module DrawContexts {
  import opened Cells
  import opened FrameBuffers
  import opened ClipStack
  import Drawing
  import ConsoleWriter
  import FrameDiff

  /** `System.Threading.Tasks.TaskStatus`. */
  datatype TaskStatus =
    | Created
    | WaitingForActivation
    | WaitingToRun
    | Running
    | WaitingForChildrenToComplete
    | RanToCompletion
    | Canceled
    | Faulted

  /** The statuses a publish accepts: the previous publish task has ended, in whatever way. */
  predicate HasEnded(status: TaskStatus)
  {
    status == RanToCompletion || status == Canceled || status == Faulted
  }

  datatype Context = Context(
    current: FrameBuffer,
    staged: FrameBuffer,
    previouslyStaged: FrameBuffer,
    stack: seq<Rect>,
    task: TaskStatus)

  /** A new context: three empty buffers, no clip rectangle and an already completed task. */
  const Fresh: Context := Context(Initial, Initial, Initial, [], RanToCompletion)

  /** Every buffer holds one cell per position, and the clip stack is nested. */
  predicate Consistent(c: Context)
  {
    Valid(c.current) && Valid(c.staged) && Valid(c.previouslyStaged) && Nested(c.stack)
  }

  /* ---------------- The clip rectangle ---------------- */

  /** `Rectangle`: the top of the clip stack, or the full plane. */
  function Rectangle(c: Context): Rect
  {
    Top(c.stack)
  }

  /** `IsRectangleNotEmpty`. */
  predicate IsRectangleNotEmpty(c: Context)
  {
    IsNotEmpty(c.stack)
  }

  /** A prefix of a nested stack is nested. */
  lemma NestedPrefix(stack: seq<Rect>, k: nat)
    requires Nested(stack) && k <= |stack|
    ensures Nested(stack[..k])
  {
    forall i | 0 <= i < k
      ensures stack[..k][i] == stack[i] && stack[..k][..i] == stack[..i]
    {
    }
  }

  /** `Inside` is transitive. */
  lemma InsideTrans(a: Rect, b: Rect, c: Rect)
    requires Inside(a, b) && Inside(b, c)
    ensures Inside(a, c)
  {
  }

  /** The top of a nested stack lies inside the full plane. */
  lemma {:induction false} TopInsideBase(stack: seq<Rect>)
    requires Nested(stack)
    ensures Inside(Top(stack), BaseRect)
    decreases |stack|
  {
    if |stack| > 0 {
      var n := |stack| - 1;
      NestedPrefix(stack, n);
      TopInsideBase(stack[..n]);
      assert Inside(stack[n], Top(stack[..n]));
      InsideTrans(stack[n], Top(stack[..n]), BaseRect);
    }
  }

  /**
    However many rectangles were pushed, the clip rectangle has
    non-negative size and every point it holds lies in the non-negative
    quadrant below `int.MaxValue`.
  */
  lemma RectangleBounded(c: Context)
    requires Nested(c.stack)
    ensures var r := Rectangle(c);
            0 <= r.w && 0 <= r.h &&
            forall p :: Contains(r, p) ==> Contains(BaseRect, p)
  {
    var r := Rectangle(c);
    TopInsideBase(c.stack);
    WithinIsInclusion(r, BaseRect);
  }

  /**
    `PushRectangle`: the new clip rectangle holds exactly the points of the
    old one that the rectangle placed as the source places it holds;
    nothing else changes.
  */
  function PushRectangle(c: Context, local: Rect, alignment: Alignment): (r: Context)
    ensures r.current == c.current && r.staged == c.staged && r.previouslyStaged == c.previouslyStaged
    ensures r.task == c.task
    ensures forall p :: Contains(Rectangle(r), p) <==>
      Contains(Rectangle(c), p) && Contains(PlaceAsWritten(local, Rectangle(c), alignment), p)
    ensures Consistent(c) ==> Consistent(r)
  {
    var r := c.(stack := PushAsWritten(c.stack, local, alignment));
    if Nested(c.stack) then PushKeepsNested(c.stack, local, alignment); r else r
  }

  /**
    `PopRectangle`: removes the top rectangle if there is one and says
    whether there was; nothing else changes.
  */
  function PopRectangle(c: Context): (r: (Context, bool))
    ensures r.1 <==> |c.stack| > 0
    ensures r.0.(stack := c.stack) == c
    ensures r.1 ==> r.0.stack + [Rectangle(c)] == c.stack
    ensures Consistent(c) ==> Consistent(r.0)
  {
    var (stack, popped) := Pop(c.stack);
    if Nested(c.stack) then PopKeepsNested(c.stack); (c.(stack := stack), popped) else (c.(stack := stack), popped)
  }

  /** Popping right after a push gives back the context and reports success. */
  lemma PopUndoesPushRectangle(c: Context, local: Rect, alignment: Alignment)
    ensures PopRectangle(PushRectangle(c, local, alignment)) == (c, true)
  {
    PopUndoesPush(c.stack, local, alignment);
  }

  /* ---------------- Drawing ---------------- */

  /**
    `DrawCells` on the current buffer through the clip rectangle: cells
    outside the rectangle and cells already opaque keep their value, every
    other cell inside gets the callback's cell for its local position
    composited underneath it, and nothing but the current buffer changes.
  */
  function DrawCells(c: Context, paint: Drawing.Painter): (r: Context)
    requires Valid(c.current)
    ensures r.(current := c.current) == c
    ensures Valid(r.current) && r.current.size == c.current.size
    ensures forall p {:trigger CellAt(r.current, p)} :: InBounds(p, c.current.size) ==>
      var e := CellAt(c.current, p);
      CellAt(r.current, p) ==
        if Contains(Rectangle(c), p) && e.bg.a < 255 then AlphaBlend(paint(Drawing.Local(p, Rectangle(c))), e) else e
  {
    c.(current := Drawing.DrawCells(c.current, Rectangle(c), paint))
  }

  /** When the clip rectangle has no area, drawing leaves the context as it was. */
  lemma EmptyRectangleSkipsDraw(c: Context, paint: Drawing.Painter)
    requires Valid(c.current) && !IsRectangleNotEmpty(c)
    ensures DrawCells(c, paint) == c
  {
    Drawing.EmptyRectangleDrawsNothing(c.current, Rectangle(c), paint);
  }

  /* ---------------- Publishing ---------------- */

  /**
    `WriteCurrentConsoleFrameBufferToConsole`: refused while the previous
    publish task is still pending. Otherwise the current frame becomes the
    staged one, the staged one the previously staged one, and the old
    previously staged buffer comes back cleared as the current one; the
    clip stack is emptied, a new task is scheduled, and the commands are
    those that take the terminal from the old staged frame to the new.
  */
  function Publish(c: Context): (r: (Context, bool, seq<ConsoleWriter.Command>))
    requires Valid(c.current) && Valid(c.staged)
    ensures r.1 <==> HasEnded(c.task)
    ensures !r.1 ==> r.0 == c && r.2 == []
    ensures r.1 ==> r.0.staged == c.current && r.0.previouslyStaged == c.staged
    ensures r.1 ==> r.0.stack == [] && !HasEnded(r.0.task)
    ensures r.1 ==> r.0.current.size == c.previouslyStaged.size && |r.0.current.cells| == |c.previouslyStaged.cells|
    ensures r.1 ==> forall i :: 0 <= i < |r.0.current.cells| ==> r.0.current.cells[i] == Empty
    ensures r.1 ==> r.2 == FrameDiff.Diff(c.current, c.staged)
    ensures Consistent(c) ==> Consistent(r.0)
  {
    if !HasEnded(c.task) then
      (c, false, [])
    else
      var next := Context(Clear(c.previouslyStaged), c.current, c.staged, [], WaitingToRun);
      (next, true, FrameDiff.Diff(c.current, c.staged))
  }

  /** The scheduler moves the publish task to another status. */
  function Settle(c: Context, status: TaskStatus): Context
  {
    c.(task := status)
  }

  /** A second publish before the first one's task has ended is refused. */
  lemma SecondPublishRefused(c: Context)
    requires Consistent(c) && HasEnded(c.task)
    ensures var once := Publish(c).0;
            Publish(once) == (once, false, [])
  {
  }

  /**
    The first draw after a publish starts on a blank frame with no clip:
    every position shows the callback's cell for that very position. This
    is the result the draw produces; the source's sequential loop gets
    there only after visiting every point of the full-plane rectangle
    (`Drawing.UnpushedDrawSteps`).
  */
  lemma DrawAfterPublish(c: Context, paint: Drawing.Painter)
    requires Consistent(c) && HasEnded(c.task)
    requires c.previouslyStaged.size.w <= 2147483647 && c.previouslyStaged.size.h <= 2147483647
    ensures var d := DrawCells(Publish(c).0, paint);
            forall p {:trigger CellAt(d.current, p)} :: InBounds(p, c.previouslyStaged.size) ==>
              CellAt(d.current, p) == paint(p)
  {
    var next := Publish(c).0;
    assert next.current == Clear(c.previouslyStaged);
    assert Rectangle(next) == BaseRect;
    Drawing.DrawOnClearedFrame(c.previouslyStaged, BaseRect, paint);
    var d := DrawCells(next, paint);
    forall p | InBounds(p, c.previouslyStaged.size)
      ensures CellAt(d.current, p) == paint(p)
    {
      assert Drawing.Local(p, BaseRect) == p;
    }
  }

  /* ---------------- The console: context, terminal and writer ---------------- */

  datatype Console = Console(context: Context, terminal: FrameDiff.Terminal, writer: ConsoleWriter.Writer)

  /**
    The terminal still agrees with the staged frame: it shows it, or the
    window has been resized away from its size, so that the next publish
    of a frame of the window's size repaints in full.
  */
  predicate Tracks(t: FrameDiff.Terminal, staged: FrameBuffer)
  {
    FrameDiff.Displays(t, staged) || !FrameDiff.Fits(t, staged)
  }

  /**
    The console invariant: the context is consistent, the writer has
    nothing left buffered, and the terminal tracks the staged frame unless
    nothing has been published yet.
  */
  predicate Coherent(s: Console)
  {
    && Consistent(s.context)
    && s.writer.pending == ""
    && (s.context.staged == Initial || Tracks(s.terminal, s.context.staged))
  }

  /** A publish, with its task's commands delivered to the writer and acted on by the terminal. */
  function PublishTo(s: Console): (r: (Console, bool))
    requires Valid(s.context.current) && Valid(s.context.staged)
  {
    var (c, ok, cmds) := Publish(s.context);
    (Console(c, FrameDiff.Run(s.terminal, cmds), ConsoleWriter.PerformAll(s.writer, cmds)), ok)
  }

  /**
    A framed command list reaches the terminal whole: a writer with nothing
    buffered writes the text of every command but the final flush and
    keeps nothing buffered.
  */
  lemma FramedDelivers(w: ConsoleWriter.Writer, cmds: seq<ConsoleWriter.Command>)
    requires w.pending == ""
    requires |cmds| >= 3 && cmds[0] == ConsoleWriter.Hide && cmds[1] == ConsoleWriter.Reset
    requires cmds[|cmds| - 1] == ConsoleWriter.Flush && FrameDiff.AllBody(cmds[2..|cmds| - 1])
    ensures ConsoleWriter.PerformAll(w, cmds) == ConsoleWriter.Writer("", w.output + ConsoleWriter.Transcript(cmds[..|cmds| - 1]))
  {
    var body := cmds[..|cmds| - 1];
    assert forall i :: 0 <= i < |body| ==> !body[i].Flush? by {
      forall i | 2 <= i < |body|
        ensures !body[i].Flush?
      {
        assert cmds[2..|cmds| - 1][i - 2] == body[i];
      }
    }
    assert cmds == body + [ConsoleWriter.Flush];
    ConsoleWriter.PerformThenFlush(w, body);
  }

  /**
    Publishing delivers everything: a writer with nothing buffered writes
    the text of every command but the final flush to the terminal and
    keeps nothing buffered.
  */
  lemma PublishDelivers(s: Console)
    requires Valid(s.context.current) && Valid(s.context.staged) && s.writer.pending == ""
    ensures var cmds := Publish(s.context).2;
            var w := PublishTo(s).0.writer;
            w.pending == "" &&
            (|cmds| == 0 ==> w == s.writer) &&
            (|cmds| > 0 ==> w.output == s.writer.output + ConsoleWriter.Transcript(cmds[..|cmds| - 1]))
  {
    var cmds := Publish(s.context).2;
    assert PublishTo(s).0.writer == ConsoleWriter.PerformAll(s.writer, cmds);
    if |cmds| > 0 {
      FramedDelivers(s.writer, cmds);
    }
  }

  /**
    Publishing keeps the console coherent, provided the terminal has the
    size of the frame being published; when the publish is accepted, the
    terminal then shows the frame just published.
  */
  lemma PublishKeepsCoherent(s: Console)
    requires Coherent(s) && FrameDiff.Fits(s.terminal, s.context.current)
    ensures Coherent(PublishTo(s).0)
    ensures PublishTo(s).1 ==> FrameDiff.Displays(PublishTo(s).0.terminal, s.context.current)
  {
    var c := s.context;
    PublishDelivers(s);
    if HasEnded(c.task) {
      if c.current.size == c.staged.size {
        assert FrameDiff.Fits(s.terminal, c.staged);
        if c.staged == Initial {
          assert |c.current.cells| == 0;
        }
        assert FrameDiff.Displays(s.terminal, c.staged);
      }
      FrameDiff.PublishShowsStaged(s.terminal, c.current, c.staged);
    }
  }

  /* ---------------- Sequences of operations ---------------- */

  /** What the user interface and the scheduler can do to a console. */
  datatype Action =
    | PushAction(local: Rect, alignment: Alignment)
    | PopAction
    | DrawAction(paint: Drawing.Painter)
    | ResizeAction(size: Size)
    | WindowResizeAction(terminal: FrameDiff.Terminal)
    | PublishAction
    | SettleAction(status: TaskStatus)

  /**
    One action. A push places its rectangle as the source does, and a
    resize is the current buffer's `Size` setter as written. A window
    resize happens outside the renderer: the terminal is replaced, with
    whatever it now shows.
  */
  function Apply(s: Console, a: Action): (r: Console)
    requires Consistent(s.context)
    ensures Consistent(r.context)
  {
    match a
    case PushAction(local, alignment) => s.(context := PushRectangle(s.context, local, alignment))
    case PopAction => s.(context := PopRectangle(s.context).0)
    case DrawAction(paint) => s.(context := DrawCells(s.context, paint))
    case ResizeAction(size) => s.(context := s.context.(current := SetSize(s.context.current, size).fb))
    case WindowResizeAction(terminal) => s.(terminal := terminal)
    case PublishAction => PublishTo(s).0
    case SettleAction(status) => s.(context := Settle(s.context, status))
  }

  /**
    Every action keeps the console coherent, provided a publish finds the
    terminal at the size of its frame and a window resize leaves a terminal
    that tracks the staged frame.
  */
  lemma ApplyKeepsCoherent(s: Console, a: Action)
    requires Coherent(s)
    requires a.PublishAction? ==> FrameDiff.Fits(s.terminal, s.context.current)
    requires a.WindowResizeAction? ==> Tracks(a.terminal, s.context.staged)
    ensures Coherent(Apply(s, a))
  {
    if a.PublishAction? {
      PublishKeepsCoherent(s);
    }
  }

  function Execute(s: Console, actions: seq<Action>): (r: Console)
    requires Consistent(s.context)
    ensures Consistent(r.context)
    decreases |actions|
  {
    if |actions| == 0 then s else Execute(Apply(s, actions[0]), actions[1..])
  }

  /**
    Each publish along the way finds the terminal at the size of the frame
    it publishes, and each window resize leaves a terminal that tracks the
    staged frame.
  */
  predicate SizedPublishes(s: Console, actions: seq<Action>)
    requires Consistent(s.context)
    decreases |actions|
  {
    |actions| == 0 ||
    ((actions[0].PublishAction? ==> FrameDiff.Fits(s.terminal, s.context.current)) &&
     (actions[0].WindowResizeAction? ==> Tracks(actions[0].terminal, s.context.staged)) &&
     SizedPublishes(Apply(s, actions[0]), actions[1..]))
  }

  /**
    The end-to-end theorem: from a coherent console, after any sequence of
    actions whose publishes find the terminal at the right size and whose
    window resizes leave it tracking the staged frame, the writer has
    nothing buffered and the terminal shows the last published frame (if
    any was), or no longer has its size.
  */
  lemma {:induction false} ExecuteKeepsCoherent(s: Console, actions: seq<Action>)
    requires Coherent(s) && SizedPublishes(s, actions)
    ensures Coherent(Execute(s, actions))
    decreases |actions|
  {
    if |actions| > 0 {
      ApplyKeepsCoherent(s, actions[0]);
      ExecuteKeepsCoherent(Apply(s, actions[0]), actions[1..]);
    }
  }

  /**
    A window resize followed by the matching buffer resize and a publish:
    whatever the resized terminal shows, the publish repaints it with the
    resized frame, which becomes the staged frame.
  */
  lemma WindowResizeRepaints(s: Console, t: FrameDiff.Terminal, size: Size)
    requires Coherent(s) && HasEnded(s.context.task)
    requires Tracks(t, s.context.staged)
    requires |t.screen| == size.w * size.h && t.w == size.w
    ensures var r := Execute(s, [WindowResizeAction(t), ResizeAction(size), PublishAction]);
            Coherent(r) && r.context.staged.size == size && FrameDiff.Displays(r.terminal, r.context.staged)
  {
    var actions := [WindowResizeAction(t), ResizeAction(size), PublishAction];
    var s1 := Apply(s, actions[0]);
    var s2 := Apply(s1, actions[1]);
    assert FrameDiff.Fits(s2.terminal, s2.context.current);
    ApplyKeepsCoherent(s, actions[0]);
    ApplyKeepsCoherent(s1, actions[1]);
    PublishKeepsCoherent(s2);
    assert actions[1..][1..] == [PublishAction];
    assert Execute(s, actions) == Apply(s2, PublishAction) by {
      assert Execute(s2, [PublishAction]) == Execute(Apply(s2, PublishAction), []);
    }
  }

  /** A new console is coherent whatever the terminal shows, once its writer has nothing buffered. */
  lemma FreshIsCoherent(t: FrameDiff.Terminal, w: ConsoleWriter.Writer)
    requires w.pending == ""
    ensures Coherent(Console(Fresh, t, w))
  {
    assert Nested(Fresh.stack);
  }
}

=== FILE: frame_buffer.dfy ===
/**
  The frame buffer: a row-major sequence of cells with a size, resized with
  alignment-preserving content migration and cleared to the empty sentinel.

  `Resize` is the intended behaviour: every new cell is computed from a
  snapshot of the old grid. The source's two execution paths differ from it
  and are modelled as written in `ResizeSequentialAsWritten` and
  `ResizeParallelAsWritten`. The `Size` setter takes the sequential path
  (`SetSize`); `SetSizeIntended` is the top-left resize it was meant to be.
*/
module FrameBuffers {
  import opened ColorMath
  import opened Cells

  /** A width and height (`System.Drawing.Size`); negative sizes are not modelled. */
  datatype Size = Size(w: nat, h: nat)

  /** An integer position (`System.Drawing.Point`). */
  datatype Point = Point(x: int, y: int)

  /** A signed size difference, `old - new`. */
  datatype Offset = Offset(dx: int, dy: int)

  /** `EAlignment`: which corner (or the centre) of the grid content stays anchored to. */
  datatype Alignment = TopLeft | TopRight | BottomLeft | BottomRight | Center

  /** The notification raised after a size change. */
  datatype SizeChanged = SizeChanged(oldSize: Size, newSize: Size, alignment: Alignment)

  datatype FrameBuffer = FrameBuffer(cells: seq<Cell>, size: Size)

  /** The result of a resize: the buffer and the notifications raised, in order. */
  datatype Resized = Resized(fb: FrameBuffer, events: seq<SizeChanged>)

  /** The buffer holds exactly one cell per grid position. */
  predicate Valid(fb: FrameBuffer)
  {
    |fb.cells| == fb.size.w * fb.size.h
  }

  /** A fresh buffer of size zero. */
  const Initial: FrameBuffer := FrameBuffer([], Size(0, 0))

  predicate InBounds(p: Point, s: Size)
  {
    0 <= p.x < s.w && 0 <= p.y < s.h
  }

  /** Row-major index of column `x` in row `y` of a grid `w` cells wide. */
  function Index(x: int, y: int, w: int): int
  {
    x + y * w
  }

  /** The position of a row-major index, as `(index % w, index / w)`. */
  function PositionOf(i: nat, w: nat): Point
    requires w > 0
  {
    Point(i % w, i / w)
  }

  /** An in-bounds position has an index inside the cell sequence. */
  lemma IndexInRange(p: Point, s: Size)
    requires InBounds(p, s)
    ensures 0 <= Index(p.x, p.y, s.w) < s.w * s.h
  {
    MulMonotone(s.w, 0, p.y);
    MulMonotone(s.w, p.y + 1, s.h);
    assert s.w * (p.y + 1) == p.y * s.w + s.w;
  }

  /** A non-empty grid has a positive width. */
  lemma WidthPositive(i: nat, s: Size)
    requires i < s.w * s.h
    ensures s.w > 0
  {
  }

  /** Row-major indexing is a bijection between the grid and `0 .. w*h`. */
  lemma IndexRoundTrip(p: Point, s: Size)
    requires InBounds(p, s)
    ensures 0 <= Index(p.x, p.y, s.w) < s.w * s.h
    ensures PositionOf(Index(p.x, p.y, s.w), s.w) == p
  {
    IndexInRange(p, s);
    DivModUnique(p.x + p.y * s.w, s.w, p.y, p.x);
  }

  lemma PositionRoundTrip(i: nat, s: Size)
    requires i < s.w * s.h
    ensures s.w > 0
    ensures InBounds(PositionOf(i, s.w), s)
    ensures Index(PositionOf(i, s.w).x, PositionOf(i, s.w).y, s.w) == i
  {
    var q := i / s.w;
    if q >= s.h {
      assert q * s.w >= s.h * s.w;
    }
  }

  lemma DivModUnique(i: int, w: int, q: int, r: int)
    requires w > 0 && 0 <= r < w && i == r + q * w
    ensures i / w == q && i % w == r
  {
    var q0, r0 := i / w, i % w;
    assert (q - q0) * w == r0 - r;
    if q > q0 {
      MulAtLeast(q - q0, w);
    } else if q < q0 {
      MulAtLeast(q0 - q, w);
    }
  }

  lemma MulAtLeast(k: int, w: int)
    requires k >= 1 && w > 0
    ensures k * w >= w
  {
  }

  /** The cell at an in-bounds position. */
  function CellAt(fb: FrameBuffer, p: Point): Cell
    requires Valid(fb) && InBounds(p, fb.size)
  {
    IndexInRange(p, fb.size);
    fb.cells[Index(p.x, p.y, fb.size.w)]
  }

  /**
    C# `n / 2`: the quotient truncated toward zero. Dafny's `/` is Euclidean
    and rounds odd negative numerators the other way.
  */
  function TruncHalf(n: int): (q: int)
    ensures 0 <= n ==> q == n / 2
    ensures n < 0 && n % 2 == 0 ==> q == n / 2
    ensures n < 0 && n % 2 != 0 ==> q == n / 2 + 1
  {
    if n >= 0 then n / 2 else -((-n) / 2)
  }

  /** Truncating halving is odd, which Euclidean halving is not. */
  lemma TruncHalfOdd(n: int)
    ensures TruncHalf(-n) == -TruncHalf(n)
    ensures 0 <= n ==> 0 <= TruncHalf(n) <= n
  {
  }

  /**
    `ProcessResizingAtPosition`'s alignment switch: the old-grid position a
    new-grid position takes its content from, given `offset = old - new`.
  */
  function SourcePosition(p: Point, alignment: Alignment, offset: Offset): Point
  {
    match alignment
    case TopLeft => p
    case TopRight => Point(p.x + offset.dx, p.y)
    case BottomLeft => Point(p.x, p.y + offset.dy)
    case BottomRight => Point(p.x + offset.dx, p.y + offset.dy)
    case Center => Point(p.x + TruncHalf(offset.dx), p.y + TruncHalf(offset.dy))
  }

  function OffsetOf(oldSize: Size, newSize: Size): Offset
  {
    Offset(oldSize.w - newSize.w, oldSize.h - newSize.h)
  }

  /**
    The value written at new position `p` when reading the old cells from
    `src`: the aligned old cell if it exists, the empty sentinel otherwise.
  */
  function MigratedCell(src: seq<Cell>, oldSize: Size, newSize: Size, alignment: Alignment, p: Point): Cell
    requires |src| == oldSize.w * oldSize.h
  {
    var q := SourcePosition(p, alignment, OffsetOf(oldSize, newSize));
    if InBounds(q, oldSize) then
      IndexInRange(q, oldSize);
      src[Index(q.x, q.y, oldSize.w)]
    else Empty
  }

  /** The new cell at row-major index `i`, computed from a snapshot of the old grid. */
  function RemapCell(fb: FrameBuffer, newSize: Size, alignment: Alignment, i: nat): Cell
    requires Valid(fb) && i < newSize.w * newSize.h
  {
    WidthPositive(i, newSize);
    MigratedCell(fb.cells, fb.size, newSize, alignment, PositionOf(i, newSize.w))
  }

  /** The first `k` cells of the new grid, in row-major order. */
  function RemapPrefix(fb: FrameBuffer, newSize: Size, alignment: Alignment, k: nat): (cells: seq<Cell>)
    requires Valid(fb) && k <= newSize.w * newSize.h
    ensures |cells| == k
  {
    if k == 0 then [] else RemapPrefix(fb, newSize, alignment, k - 1) + [RemapCell(fb, newSize, alignment, k - 1)]
  }

  /** The whole new grid computed from a snapshot of the old one. */
  function Remap(fb: FrameBuffer, newSize: Size, alignment: Alignment): (cells: seq<Cell>)
    requires Valid(fb)
    ensures |cells| == newSize.w * newSize.h
  {
    RemapPrefix(fb, newSize, alignment, newSize.w * newSize.h)
  }

  /** Every cell of a prefix is the remapped cell of its index. */
  lemma {:induction false} RemapPrefixAt(fb: FrameBuffer, newSize: Size, alignment: Alignment, k: nat, i: nat)
    requires Valid(fb) && k <= newSize.w * newSize.h && i < k
    ensures RemapPrefix(fb, newSize, alignment, k)[i] == RemapCell(fb, newSize, alignment, i)
    decreases k
  {
    if i < k - 1 {
      RemapPrefixAt(fb, newSize, alignment, k - 1, i);
    }
  }

  /** Extending a row-major prefix by one position appends that position's migrated cell. */
  lemma RemapPrefixStep(fb: FrameBuffer, newSize: Size, alignment: Alignment, x: nat, y: nat)
    requires Valid(fb) && x < newSize.w && y < newSize.h
    ensures y * newSize.w + x < newSize.w * newSize.h
    ensures RemapPrefix(fb, newSize, alignment, y * newSize.w + x + 1) ==
            RemapPrefix(fb, newSize, alignment, y * newSize.w + x) +
            [MigratedCell(fb.cells, fb.size, newSize, alignment, Point(x, y))]
  {
    IndexRoundTrip(Point(x, y), newSize);
  }

  /** The remapped cell at each position is the migrated cell for that position. */
  lemma RemapAt(fb: FrameBuffer, newSize: Size, alignment: Alignment, x: nat, y: nat)
    requires Valid(fb) && x < newSize.w && y < newSize.h
    ensures x + y * newSize.w < |Remap(fb, newSize, alignment)|
    ensures Remap(fb, newSize, alignment)[x + y * newSize.w] ==
            MigratedCell(fb.cells, fb.size, newSize, alignment, Point(x, y))
  {
    IndexRoundTrip(Point(x, y), newSize);
    RemapPrefixAt(fb, newSize, alignment, newSize.w * newSize.h, x + y * newSize.w);
  }

  /**
    `Resize(size, alignment)` with the content migration applied to a
    snapshot of the old grid, whichever execution path is chosen.
  */
  function Resize(fb: FrameBuffer, newSize: Size, alignment: Alignment): (r: Resized)
    requires Valid(fb)
    ensures Valid(r.fb) && r.fb.size == newSize
    ensures fb.size == newSize ==> r == Resized(fb, [])
    ensures fb.size != newSize ==> r.events == [SizeChanged(fb.size, newSize, alignment)]
    ensures forall p {:trigger CellAt(r.fb, p)} :: InBounds(p, newSize) ==>
      var q := SourcePosition(p, alignment, OffsetOf(fb.size, newSize));
      CellAt(r.fb, p) == if InBounds(q, fb.size) then CellAt(fb, q) else Empty
  {
    if fb.size == newSize then
      assert forall p :: SourcePosition(p, alignment, OffsetOf(fb.size, newSize)) == p;
      Resized(fb, [])
    else
      var r := FrameBuffer(Remap(fb, newSize, alignment), newSize);
      assert forall p {:trigger CellAt(r, p)} | InBounds(p, newSize) ::
        CellAt(r, p) == MigratedCell(fb.cells, fb.size, newSize, alignment, p) by {
        forall p | InBounds(p, newSize) {
          RemapAt(fb, newSize, alignment, p.x, p.y);
        }
      }
      Resized(r, [SizeChanged(fb.size, newSize, alignment)])
  }

  /**
    The `Size` setter as intended: a top-left anchored resize, so every
    cell still inside the grid stays where it was.
  */
  function SetSizeIntended(fb: FrameBuffer, newSize: Size): (r: Resized)
    requires Valid(fb)
    ensures Valid(r.fb) && r.fb.size == newSize
    ensures forall p {:trigger CellAt(r.fb, p)} :: InBounds(p, newSize) ==>
      CellAt(r.fb, p) == if InBounds(p, fb.size) then CellAt(fb, p) else Empty
  {
    Resize(fb, newSize, TopLeft)
  }

  /**
    How far an alignment shifts old content when the grid grows by `d`
    (the negation of the source position's displacement).
  */
  function Shift(alignment: Alignment, d: Offset): Offset
  {
    match alignment
    case TopLeft => Offset(0, 0)
    case TopRight => Offset(d.dx, 0)
    case BottomLeft => Offset(0, d.dy)
    case BottomRight => Offset(d.dx, d.dy)
    case Center => Offset(TruncHalf(d.dx), TruncHalf(d.dy))
  }

  /** Shrinking back after growing with the same alignment restores the original grid. */
  lemma {:induction false} ResizeRoundTrip(fb: FrameBuffer, big: Size, alignment: Alignment)
    requires Valid(fb) && big.w >= fb.size.w && big.h >= fb.size.h
    ensures Resize(Resize(fb, big, alignment).fb, fb.size, alignment).fb == fb
  {
    var grown := Resize(fb, big, alignment).fb;
    var back := Resize(grown, fb.size, alignment).fb;
    var d := Offset(big.w - fb.size.w, big.h - fb.size.h);
    forall i | 0 <= i < |fb.cells|
      ensures back.cells[i] == fb.cells[i]
    {
      PositionRoundTrip(i, fb.size);
      var p := PositionOf(i, fb.size.w);
      var q := SourcePosition(p, alignment, OffsetOf(big, fb.size));
      assert OffsetOf(big, fb.size) == d;
      assert OffsetOf(fb.size, big) == Offset(-d.dx, -d.dy);
      assert InBounds(q, big);
      assert SourcePosition(q, alignment, OffsetOf(fb.size, big)) == p;
      ResizeAt(grown, fb.size, alignment, p);
      ResizeAt(fb, big, alignment, q);
    }
  }

  /** Reading back through the negated offset undoes an alignment's shift. */
  lemma ShiftUndone(alignment: Alignment, d: Offset, p: Point)
    ensures var s := Shift(alignment, d);
            && SourcePosition(Point(p.x + s.dx, p.y + s.dy), alignment, Offset(-d.dx, -d.dy)) == p
            && SourcePosition(p, alignment, Offset(-d.dx, -d.dy)) == Point(p.x - s.dx, p.y - s.dy)
  {
    TruncHalfOdd(d.dx);
    TruncHalfOdd(d.dy);
  }

  /** A growth shifts content by no more than the growth itself. */
  lemma ShiftWithin(alignment: Alignment, d: Offset)
    requires 0 <= d.dx && 0 <= d.dy
    ensures var s := Shift(alignment, d);
            0 <= s.dx <= d.dx && 0 <= s.dy <= d.dy
  {
    TruncHalfOdd(d.dx);
    TruncHalfOdd(d.dy);
  }

  /** Growing the grid moves every old cell by the alignment's shift. */
  lemma GrowMovesContent(fb: FrameBuffer, big: Size, alignment: Alignment)
    requires Valid(fb) && big.w >= fb.size.w && big.h >= fb.size.h
    ensures forall p :: InBounds(p, fb.size) ==> GrowMoves(fb, big, alignment, p)
  {
    forall p | InBounds(p, fb.size)
      ensures GrowMoves(fb, big, alignment, p)
    {
      GrowMovesCell(fb, big, alignment, p);
    }
  }

  /** Where old position `p` lands when the grid grows from `small` to `big`. */
  function Landing(small: Size, big: Size, alignment: Alignment, p: Point): Point
  {
    var s := Shift(alignment, Offset(big.w - small.w, big.h - small.h));
    Point(p.x + s.dx, p.y + s.dy)
  }

  /** Old cell `p` reappears, shifted, inside the grown grid. */
  predicate GrowMoves(fb: FrameBuffer, big: Size, alignment: Alignment, p: Point)
    requires Valid(fb) && InBounds(p, fb.size)
  {
    var q := Landing(fb.size, big, alignment, p);
    InBounds(q, big) && CellAt(Resize(fb, big, alignment).fb, q) == CellAt(fb, p)
  }

  lemma GrowMovesCell(fb: FrameBuffer, big: Size, alignment: Alignment, p: Point)
    requires Valid(fb) && big.w >= fb.size.w && big.h >= fb.size.h && InBounds(p, fb.size)
    ensures GrowMoves(fb, big, alignment, p)
  {
    var q := Landing(fb.size, big, alignment, p);
    GrowLands(fb.size, big, alignment, p);
    ResizeAt(fb, big, alignment, q);
  }

  /** One position of a resized grid. */
  lemma ResizeAt(fb: FrameBuffer, newSize: Size, alignment: Alignment, p: Point)
    requires Valid(fb) && InBounds(p, newSize)
    ensures var q := SourcePosition(p, alignment, OffsetOf(fb.size, newSize));
            CellAt(Resize(fb, newSize, alignment).fb, p) == if InBounds(q, fb.size) then CellAt(fb, q) else Empty
  {
  }

  /** A shifted old position lies in the grown grid and reads back from where it came. */
  lemma GrowLands(small: Size, big: Size, alignment: Alignment, p: Point)
    requires big.w >= small.w && big.h >= small.h && InBounds(p, small)
    ensures var q := Landing(small, big, alignment, p);
            InBounds(q, big) && SourcePosition(q, alignment, OffsetOf(small, big)) == p
  {
    var d := Offset(big.w - small.w, big.h - small.h);
    ShiftWithin(alignment, d);
    ShiftUndone(alignment, d, p);
    assert OffsetOf(small, big) == Offset(-d.dx, -d.dy);
  }

  /** Growing the grid fills every position no old cell lands on with the empty sentinel. */
  lemma GrowFillsEmpty(fb: FrameBuffer, big: Size, alignment: Alignment)
    requires Valid(fb) && big.w >= fb.size.w && big.h >= fb.size.h
    ensures var r := Resize(fb, big, alignment).fb;
            var s := Shift(alignment, Offset(big.w - fb.size.w, big.h - fb.size.h));
            forall p {:trigger CellAt(r, p)} :: InBounds(p, big) && !InBounds(Point(p.x - s.dx, p.y - s.dy), fb.size) ==>
              CellAt(r, p) == Empty
  {
    var r := Resize(fb, big, alignment).fb;
    var d := Offset(big.w - fb.size.w, big.h - fb.size.h);
    var s := Shift(alignment, d);
    assert OffsetOf(fb.size, big) == Offset(-d.dx, -d.dy);
    forall p | InBounds(p, big) && !InBounds(Point(p.x - s.dx, p.y - s.dy), fb.size)
      ensures CellAt(r, p) == Empty
    {
      ShiftUndone(alignment, d, p);
    }
  }

  /** One cell of a two-by-two grid grown to four-by-two anchored bottom-right. */
  lemma BottomRightGrowCell(src: seq<Cell>, x: nat, y: nat)
    requires |src| == 4 && x < 4 && y < 2
    ensures Remap(FrameBuffer(src, Size(2, 2)), Size(4, 2), BottomRight)[x + y * 4] ==
            if x < 2 then Empty else src[x - 2 + y * 2]
  {
    var fb := FrameBuffer(src, Size(2, 2));
    RemapAt(fb, Size(4, 2), BottomRight, x, y);
    assert SourcePosition(Point(x, y), BottomRight, OffsetOf(fb.size, Size(4, 2))) == Point(x - 2, y);
  }

  /** Two-by-two grown to four-by-two anchored bottom-right: old content lands in columns 2 and 3. */
  lemma BottomRightGrowExample(c0: Cell, c1: Cell, c2: Cell, c3: Cell)
    ensures Resize(FrameBuffer([c0, c1, c2, c3], Size(2, 2)), Size(4, 2), BottomRight).fb.cells ==
            [Empty, Empty, c0, c1, Empty, Empty, c2, c3]
  {
    var src := [c0, c1, c2, c3];
    BottomRightGrowCell(src, 0, 0);
    BottomRightGrowCell(src, 1, 0);
    BottomRightGrowCell(src, 2, 0);
    BottomRightGrowCell(src, 3, 0);
    BottomRightGrowCell(src, 0, 1);
    BottomRightGrowCell(src, 1, 1);
    BottomRightGrowCell(src, 2, 1);
    BottomRightGrowCell(src, 3, 1);
  }

  /**
    The sequential resize with row and column loops bounded by `<`, reading
    from a snapshot of the old cells and producing the new grid row by row:
    the same grid as `Resize`. The snapshot is part of the correction: writing
    the reused array in place, in this order, is the ascending schedule of
    `AliasingClobbersCells`.
  */
  method ResizeSequential(fb: FrameBuffer, newSize: Size, alignment: Alignment) returns (r: Resized)
    requires Valid(fb)
    ensures r == Resize(fb, newSize, alignment)
  {
    if fb.size == newSize {
      return Resized(fb, []);
    }
    var w := newSize.w;
    var cells: seq<Cell> := [];
    var y, row := 0, 0;
    MulMonotone(w, 0, newSize.h);
    while y < newSize.h
      invariant 0 <= y <= newSize.h && row == w * y && row <= w * newSize.h
      invariant cells == RemapPrefix(fb, newSize, alignment, row)
    {
      MulMonotone(w, y + 1, newSize.h);
      assert w * (y + 1) == row + w;
      var x := 0;
      while x < w
        invariant 0 <= x <= w && row + w <= w * newSize.h
        invariant cells == RemapPrefix(fb, newSize, alignment, row + x)
      {
        RemapPrefixStep(fb, newSize, alignment, x, y);
        cells := cells + [MigratedCell(fb.cells, fb.size, newSize, alignment, Point(x, y))];
        x := x + 1;
      }
      y, row := y + 1, row + w;
    }
    assert row == w * newSize.h;
    assert cells == Remap(fb, newSize, alignment);
    r := Resized(FrameBuffer(cells, newSize), [SizeChanged(fb.size, newSize, alignment)]);
  }

  /**
    The storage a resize writes into: the old array itself when the cell
    count is unchanged, otherwise a fresh array of zero cells.
  */
  function Storage(fb: FrameBuffer, newSize: Size): (cells: seq<Cell>)
    ensures |cells| == newSize.w * newSize.h
  {
    var n := newSize.w * newSize.h;
    if |fb.cells| == n then fb.cells else seq(n, _ => DefaultCell)
  }

  /**
    The sequential path as written: both loop guards compare with `>`, so
    for non-negative sizes neither loop body runs and the storage keeps
    whatever it held.
  */
  function ResizeSequentialAsWritten(fb: FrameBuffer, newSize: Size, alignment: Alignment): (r: Resized)
    requires Valid(fb)
    ensures Valid(r.fb) && r.fb.size == newSize
    ensures fb.size == newSize ==> r == Resized(fb, [])
    ensures fb.size != newSize ==> r.events == [SizeChanged(fb.size, newSize, alignment)]
    ensures fb.size != newSize ==> r.fb.cells == Storage(fb, newSize)
  {
    if fb.size == newSize then Resized(fb, [])
    else Resized(FrameBuffer(Storage(fb, newSize), newSize), [SizeChanged(fb.size, newSize, alignment)])
  }

  /**
    The per-index writes of the parallel path performed one after another in
    the order `schedule`. When the cell count is unchanged the array being
    written is also the array being read (`aliased`), so a write can be
    seen by a later read.
  */
  function ApplyWrites(cells: seq<Cell>, snapshot: seq<Cell>, aliased: bool, oldSize: Size, newSize: Size,
                       alignment: Alignment, schedule: seq<nat>): (r: seq<Cell>)
    requires newSize.w > 0 || |cells| == 0
    requires |cells| == newSize.w * newSize.h && |snapshot| == oldSize.w * oldSize.h
    requires aliased ==> |cells| == |snapshot|
    requires forall k :: 0 <= k < |schedule| ==> schedule[k] < |cells|
    ensures |r| == |cells|
    decreases |schedule|
  {
    if |schedule| == 0 then cells
    else
      var i := schedule[0];
      var src := if aliased then cells else snapshot;
      var v := MigratedCell(src, oldSize, newSize, alignment, PositionOf(i, newSize.w));
      ApplyWrites(cells[i := v], snapshot, aliased, oldSize, newSize, alignment, schedule[1..])
  }

  /** A schedule that performs every index of `0 .. n` (each at least once, nothing else). */
  predicate Covers(schedule: seq<nat>, n: nat)
  {
    (forall k :: 0 <= k < |schedule| ==> schedule[k] < n) &&
    (forall i :: 0 <= i < n ==> i in schedule)
  }

  /**
    The parallel path as written, with the interleaving of `Parallel.For`
    fixed by `schedule`.
  */
  function ResizeParallelAsWritten(fb: FrameBuffer, newSize: Size, alignment: Alignment, schedule: seq<nat>): (r: Resized)
    requires Valid(fb) && Covers(schedule, newSize.w * newSize.h)
    ensures Valid(r.fb) && r.fb.size == newSize
    ensures fb.size == newSize ==> r == Resized(fb, [])
    ensures fb.size != newSize ==> r.events == [SizeChanged(fb.size, newSize, alignment)]
  {
    if fb.size == newSize then Resized(fb, [])
    else
      var n := newSize.w * newSize.h;
      var aliased := |fb.cells| == n;
      var cells := ApplyWrites(Storage(fb, newSize), fb.cells, aliased, fb.size, newSize, alignment, schedule);
      Resized(FrameBuffer(cells, newSize), [SizeChanged(fb.size, newSize, alignment)])
  }

  /** Without aliasing the writes commute: an index is migrated if scheduled, untouched otherwise. */
  lemma {:induction false} ApplyWritesFresh(cells: seq<Cell>, snapshot: seq<Cell>, oldSize: Size, newSize: Size,
                                           alignment: Alignment, schedule: seq<nat>)
    requires newSize.w > 0 || |cells| == 0
    requires |cells| == newSize.w * newSize.h && |snapshot| == oldSize.w * oldSize.h
    requires forall k :: 0 <= k < |schedule| ==> schedule[k] < |cells|
    ensures var r := ApplyWrites(cells, snapshot, false, oldSize, newSize, alignment, schedule);
            forall i :: 0 <= i < |cells| ==>
              r[i] == if i in schedule then MigratedCell(snapshot, oldSize, newSize, alignment, PositionOf(i, newSize.w))
                      else cells[i]
    decreases |schedule|
  {
    if |schedule| > 0 {
      var i := schedule[0];
      var v := MigratedCell(snapshot, oldSize, newSize, alignment, PositionOf(i, newSize.w));
      ApplyWritesFresh(cells[i := v], snapshot, oldSize, newSize, alignment, schedule[1..]);
      assert forall j :: j in schedule <==> j == i || j in schedule[1..];
    }
  }

  /** When the cell count changes, every interleaving of the parallel path yields `Resize`'s grid. */
  lemma ParallelFreshStorageIsResize(fb: FrameBuffer, newSize: Size, alignment: Alignment, schedule: seq<nat>)
    requires Valid(fb) && Covers(schedule, newSize.w * newSize.h)
    requires |fb.cells| != newSize.w * newSize.h
    ensures ResizeParallelAsWritten(fb, newSize, alignment, schedule) == Resize(fb, newSize, alignment)
  {
    var n := newSize.w * newSize.h;
    if newSize.w == 0 {
      assert n == 0;
    }
    ApplyWritesFresh(Storage(fb, newSize), fb.cells, fb.size, newSize, alignment, schedule);
    var r := ResizeParallelAsWritten(fb, newSize, alignment, schedule).fb.cells;
    var e := Remap(fb, newSize, alignment);
    forall i | 0 <= i < n
      ensures r[i] == e[i]
    {
      RemapPrefixAt(fb, newSize, alignment, n, i);
    }
  }

  /** `0, 1, ..., n-1`: the order a sequential reading of `Parallel.For` would use. */
  function Ascending(n: nat): (s: seq<nat>)
    ensures |s| == n && forall k :: 0 <= k < n ==> s[k] == k
    ensures Covers(s, n)
  {
    var s := seq(n, k requires 0 <= k < n => k);
    forall i | 0 <= i < n
      ensures i in s
    {
      assert s[i] == i;
    }
    s
  }

  /**
    Aliasing loses content: two-by-two resized to four-by-one anchored
    top-right with the same cell count, written in ascending order, reads
    the already-cleared cells 0 and 1 back when filling cells 2 and 3.
  */
  lemma AliasingClobbersCells()
    ensures var a, b, c, d := Cell('a', Black, Black), Cell('b', Black, Black), Cell('c', Black, Black), Cell('d', Black, Black);
            var fb := FrameBuffer([a, b, c, d], Size(2, 2));
            && ResizeParallelAsWritten(fb, Size(4, 1), TopRight, Ascending(4)).fb.cells == [Empty, Empty, Empty, Empty]
            && Resize(fb, Size(4, 1), TopRight).fb.cells == [Empty, Empty, a, b]
  {
    var a, b, c, d := Cell('a', Black, Black), Cell('b', Black, Black), Cell('c', Black, Black), Cell('d', Black, Black);
    var fb := FrameBuffer([a, b, c, d], Size(2, 2));
    var s := Size(4, 1);
    AliasedWritesClear(a, b, c, d);
    assert Ascending(4) == [0, 1, 2, 3];
    RemapAt(fb, s, TopRight, 0, 0);
    RemapAt(fb, s, TopRight, 1, 0);
    RemapAt(fb, s, TopRight, 2, 0);
    RemapAt(fb, s, TopRight, 3, 0);
    assert Remap(fb, s, TopRight) == [Empty, Empty, a, b];
  }

  /** The four in-place writes of the aliasing example, one after another. */
  lemma AliasedWritesClear(a: Cell, b: Cell, c: Cell, d: Cell)
    ensures ApplyWrites([a, b, c, d], [a, b, c, d], true, Size(2, 2), Size(4, 1), TopRight, [0, 1, 2, 3]) ==
            [Empty, Empty, Empty, Empty]
  {
    var o, s := Size(2, 2), Size(4, 1);
    var c0 := [Empty, b, c, d];
    var c1 := [Empty, Empty, c, d];
    var c2 := [Empty, Empty, Empty, d];
    var c3 := [Empty, Empty, Empty, Empty];
    assert MigratedCell([a, b, c, d], o, s, TopRight, Point(0, 0)) == Empty;
    assert MigratedCell(c0, o, s, TopRight, Point(1, 0)) == Empty;
    assert MigratedCell(c1, o, s, TopRight, Point(2, 0)) == Empty;
    assert MigratedCell(c2, o, s, TopRight, Point(3, 0)) == Empty;
    assert ApplyWrites(c2, [a, b, c, d], true, o, s, TopRight, [3]) == c3;
    assert ApplyWrites(c1, [a, b, c, d], true, o, s, TopRight, [2, 3]) == c3;
    assert ApplyWrites(c0, [a, b, c, d], true, o, s, TopRight, [1, 2, 3]) == c3;
  }

  /**
    The sequential path migrates nothing: one cell grown to two, anchored
    top-left, ends up as two zero cells instead of the old cell and an empty one.
  */
  lemma SequentialPathDropsContent()
    ensures var a := Cell('a', Black, Black);
            var fb := FrameBuffer([a], Size(1, 1));
            && ResizeSequentialAsWritten(fb, Size(2, 1), TopLeft).fb.cells == [DefaultCell, DefaultCell]
            && Resize(fb, Size(2, 1), TopLeft).fb.cells == [a, Empty]
  {
    var a := Cell('a', Black, Black);
    var fb := FrameBuffer([a], Size(1, 1));
    RemapAt(fb, Size(2, 1), TopLeft, 0, 0);
    RemapAt(fb, Size(2, 1), TopLeft, 1, 0);
  }

  /**
    The `Size` setter as written: `Resize(value, TopLeft)`, whose default
    overload takes the sequential path, whose loops never run. A new cell
    count gets a fresh array of zero cells; an unchanged count keeps the
    old array, its cells now read at the new width.
  */
  function SetSize(fb: FrameBuffer, newSize: Size): (r: Resized)
    requires Valid(fb)
    ensures Valid(r.fb) && r.fb.size == newSize
    ensures fb.size == newSize ==> r == Resized(fb, [])
    ensures fb.size != newSize ==> r.events == [SizeChanged(fb.size, newSize, TopLeft)]
    ensures |r.fb.cells| == |fb.cells| ==> r.fb.cells == fb.cells
    ensures |r.fb.cells| != |fb.cells| ==> forall i :: 0 <= i < |r.fb.cells| ==> r.fb.cells[i] == DefaultCell
  {
    ResizeSequentialAsWritten(fb, newSize, TopLeft)
  }

  /**
    When the cell count changes, the setter as written loses every cell
    the intended setter keeps: a position in both grids whose cell is not
    the zero cell reads differently afterwards.
  */
  lemma SetSizeLosesContent(fb: FrameBuffer, newSize: Size, p: Point)
    requires Valid(fb) && InBounds(p, fb.size) && InBounds(p, newSize)
    requires |fb.cells| != newSize.w * newSize.h && CellAt(fb, p) != DefaultCell
    ensures CellAt(SetSize(fb, newSize).fb, p) == DefaultCell
    ensures CellAt(SetSizeIntended(fb, newSize).fb, p) == CellAt(fb, p)
  {
    IndexRoundTrip(p, newSize);
  }

  /** `Clear`: every cell becomes the empty sentinel; size and cell count are kept. */
  function Clear(fb: FrameBuffer): (r: FrameBuffer)
    ensures r.size == fb.size && |r.cells| == |fb.cells|
    ensures forall i :: 0 <= i < |r.cells| ==> r.cells[i] == Empty
  {
    FrameBuffer(seq(|fb.cells|, _ => Empty), fb.size)
  }

  /** The sequential clearing loop resets every cell, giving the same buffer as `Clear`. */
  method ClearSequential(fb: FrameBuffer) returns (r: FrameBuffer)
    ensures r == Clear(fb)
  {
    var cells := fb.cells;
    var i := 0;
    while i < |cells|
      invariant 0 <= i <= |cells| == |fb.cells|
      invariant forall k :: 0 <= k < i ==> cells[k] == Empty
    {
      cells := cells[i := Empty];
      i := i + 1;
    }
    r := FrameBuffer(cells, fb.size);
  }
}

=== FILE: frame_buffer_cell.dfy ===
/**
  One frame-buffer cell: a character with a foreground and a background
  colour, the derived "empty" predicate and "finalized" (opaque) colours,
  and the compositing rule that paints one cell over another.
*/
module Cells {
  import opened ColorMath

  /** A grid cell. Structural equality of the datatype is the cell's `==`. */
  datatype Cell = Cell(ch: char, fg: Color, bg: Color)

  /** The empty-cell sentinel: a space on transparent colours. */
  const Empty: Cell := Cell(' ', Transparent, Transparent)

  /** What a freshly allocated cell array holds: the all-zero struct. */
  const DefaultCell: Cell := Cell(0 as char, Transparent, Transparent)

  /**
    `char.IsWhiteSpace` for one UTF-16 unit: the control characters
    U+0009..U+000D and U+0085, and the space, line and paragraph separators.
  */
  predicate IsWhiteSpace(c: char)
  {
    var n := c as int;
    || 0x09 <= n <= 0x0D || n == 0x20 || n == 0x85 || n == 0xA0 || n == 0x1680
    || 0x2000 <= n <= 0x200A || n == 0x2028 || n == 0x2029 || n == 0x202F
    || n == 0x205F || n == 0x3000
  }

  /** A cell that contributes nothing when painted: no background and no visible glyph. */
  predicate IsEmpty(c: Cell)
  {
    c.bg.a <= 0 && (c.fg.a <= 0 || IsWhiteSpace(c.ch))
  }

  /** The background as a terminal shows it: scaled by its own alpha over black, then opaque. */
  function FinalizedBackground(c: Cell): (r: Color)
    ensures r.a == 255
    ensures c.bg.a == 255 ==> r == Color(255, c.bg.r, c.bg.g, c.bg.b)
    ensures c.bg.a == 0 ==> r == Black
    ensures r.r <= c.bg.r && r.g <= c.bg.g && r.b <= c.bg.b
  {
    Color(255, ScaledChannel(c.bg.r, c.bg.a), ScaledChannel(c.bg.g, c.bg.a), ScaledChannel(c.bg.b, c.bg.a))
  }

  /** One channel multiplied by an alpha fraction, truncated and clamped as the source does. */
  function ScaledChannel(x: Byte, a: Byte): (r: Byte)
    ensures r <= x
    ensures a == 255 ==> r == x
    ensures a == 0 ==> r == 0
  {
    var p := x as real * (a as real / 255.0);
    ScaleWithinUnit(x as real, a as real / 255.0);
    TruncBelowInteger(p, x);
    assert a == 255 ==> p == x as real;
    Clamp(TruncToInt(p), 0, 255)
  }

  /** Truncating a value between 0 and an integer stays between 0 and that integer. */
  lemma TruncBelowInteger(p: real, m: int)
    requires 0.0 <= p <= m as real
    ensures 0 <= TruncToInt(p) <= m
  {
  }

  /** The glyph colour as a terminal shows it: blended over the cell's own background, then opaque. */
  function FinalizedForeground(c: Cell): (r: Color)
    ensures r.a == 255
    ensures c.fg.a == 255 ==> r == Color(255, c.fg.r, c.fg.g, c.fg.b)
    ensures c.fg.a == 0 ==> r == Color(255, c.bg.r, c.bg.g, c.bg.b)
  {
    var blended := AlphaBlended(c.bg, c.fg);
    Color(255, blended.r, blended.g, blended.b)
  }

  /**
    `ConsoleFrameBufferCell.AlphaBlend(base, append)`: `append` painted over
    `base`. An empty append is a no-op; otherwise a whitespace append keeps
    the base glyph and tints its colour, a visible append replaces the glyph,
    and the backgrounds blend.
  */
  function AlphaBlend(base: Cell, append: Cell): (r: Cell)
    ensures IsEmpty(append) ==> r == base
    ensures !IsEmpty(append) && IsWhiteSpace(append.ch) ==>
      r.ch == base.ch && r.fg == AlphaBlended(base.fg, append.bg)
    ensures !IsEmpty(append) && !IsWhiteSpace(append.ch) ==>
      r.ch == append.ch && r.fg == AlphaBlended(append.fg, append.bg)
    ensures !IsEmpty(append) ==> r.bg == AlphaBlended(base.bg, append.bg)
  {
    if IsEmpty(append) then base
    else
      var white := IsWhiteSpace(append.ch);
      Cell(if white then base.ch else append.ch,
           AlphaBlended(if white then base.fg else append.fg, append.bg),
           AlphaBlended(base.bg, append.bg))
  }

  /** The `==` operator: all three fields agree. */
  predicate CellEquals(left: Cell, right: Cell)
  {
    left.ch == right.ch && left.bg == right.bg && left.fg == right.fg
  }

  /** The `!=` operator, written field by field as the source does. */
  predicate CellDiffers(left: Cell, right: Cell)
  {
    left.ch != right.ch || left.bg != right.bg || left.fg != right.fg
  }

  /** `==` is value equality and `!=` is exactly its negation. */
  lemma EqualityIsStructural(left: Cell, right: Cell)
    ensures CellEquals(left, right) <==> left == right
    ensures CellDiffers(left, right) <==> !CellEquals(left, right)
  {
  }

  /** The sentinel is empty, and so is a fresh array's zero cell, although the two differ. */
  lemma EmptySentinels()
    ensures IsEmpty(Empty) && IsEmpty(DefaultCell)
    ensures Empty != DefaultCell
    ensures FinalizedBackground(Empty) == Black
  {
  }

  /**
    An append with an opaque background hides the base's background, and a
    visible glyph on it is recoloured with that background: its foreground is
    blended with its own background, which an opaque background replaces.
  */
  lemma OpaqueAppendCovers(base: Cell, append: Cell)
    requires append.bg.a == 255
    ensures AlphaBlend(base, append).bg == append.bg
    ensures !IsWhiteSpace(append.ch) ==> AlphaBlend(base, append) == Cell(append.ch, append.bg, append.bg)
  {
  }

  /** A whitespace append never replaces the glyph underneath. */
  lemma WhitespaceKeepsGlyph(base: Cell, append: Cell)
    requires IsWhiteSpace(append.ch)
    ensures AlphaBlend(base, append).ch == base.ch
  {
  }
}

=== FILE: frame_diff.dfy ===
/**
  Publishing a frame: the commands the draw context sends to bring the
  terminal from the previously staged frame to the staged one.

  When the two frames have the same size only changed cells are sent, with
  the cursor moved only where the changed cells are not contiguous and the
  colours sent only when they differ from the last ones sent. Otherwise the
  whole frame is repainted from the top-left corner. Output is framed by
  hiding the cursor and resetting its position before the first command,
  and flushing after the last one; a frame with nothing to send sends
  nothing at all.

  A reference terminal gives the commands their meaning, and the main
  theorems say that the terminal ends up showing the staged frame.
*/
module FrameDiff {
  import opened ColorMath
  import opened Cells
  import opened FrameBuffers
  import opened ConsoleWriter

  /** The character a cell is written as: a space for an empty cell. */
  function DisplayChar(c: Cell): (ch: char)
    ensures !IsEmpty(c) ==> ch == c.ch
    ensures IsEmpty(c) ==> ch == ' '
  {
    if IsEmpty(c) then ' ' else c.ch
  }

  /**
    The writer state the publish loop keeps between cells: where the
    terminal cursor is (as a cell index) and the last colours sent.
    `Transparent` means "none sent yet": every colour sent is opaque.
  */
  datatype Pen = Pen(cursor: int, fg: Color, bg: Color)

  const StartPen: Pen := Pen(0, Transparent, Transparent)

  /** A command the per-cell part of the publish loop may send. */
  predicate IsBodyCommand(c: Command)
  {
    && (c.Move? || c.Fg? || c.Bg? || c.Str?)
    && (c.Fg? ==> c.c.a == 255)
    && (c.Bg? ==> c.c.a == 255)
    && (c.Str? ==> |c.s| == 1)
  }

  predicate AllBody(cmds: seq<Command>)
  {
    forall k :: 0 <= k < |cmds| ==> IsBodyCommand(cmds[k])
  }

  /** One command when `b` holds, none otherwise. */
  function When(b: bool, c: Command): (r: seq<Command>)
    ensures IsBodyCommand(c) ==> AllBody(r)
  {
    if b then [c] else []
  }

  /** The glyph colour the pen records after a cell: the cell's, unless the cell is empty. */
  function NextFg(cell: Cell, fg: Color): Color
  {
    if !IsEmpty(cell) && fg != FinalizedForeground(cell) then FinalizedForeground(cell) else fg
  }

  /**
    The colour and glyph commands for one cell: the glyph colour unless the
    cell is empty or it was the last one sent, the background unless it was
    the last one sent, then the glyph.
  */
  function ColourCommands(cell: Cell, fg: Color, bg: Color): (r: seq<Command>)
    ensures AllBody(r) && 1 <= |r|
    ensures r[|r| - 1] == Str([DisplayChar(cell)])
  {
    var ff := FinalizedForeground(cell);
    var fb := FinalizedBackground(cell);
    var glyph := [Str([DisplayChar(cell)])];
    AllBodyAppend(When(bg != fb, Bg(fb)), glyph);
    AllBodyAppend(When(!IsEmpty(cell) && fg != ff, Fg(ff)), When(bg != fb, Bg(fb)) + glyph);
    LastOfAppend(When(bg != fb, Bg(fb)), glyph);
    LastOfAppend(When(!IsEmpty(cell) && fg != ff, Fg(ff)), When(bg != fb, Bg(fb)) + glyph);
    When(!IsEmpty(cell) && fg != ff, Fg(ff)) + (When(bg != fb, Bg(fb)) + glyph)
  }

  /**
    The commands for one changed cell at index `i` of a grid `w` cells wide,
    and the pen afterwards: a cursor move unless the cursor is already
    there, then the colour and glyph commands.
  */
  function CellCommands(cell: Cell, i: nat, w: nat, pen: Pen): (r: (seq<Command>, Pen))
    requires w > 0
    ensures AllBody(r.0) && 1 <= |r.0|
    ensures r.0[|r.0| - 1] == Str([DisplayChar(cell)])
    ensures r.1 == Pen(i + 1, NextFg(cell, pen.fg), FinalizedBackground(cell))
  {
    var colours := ColourCommands(cell, pen.fg, pen.bg);
    AllBodyAppend(When(pen.cursor != i, MoveTo(i, w)), colours);
    LastOfAppend(When(pen.cursor != i, MoveTo(i, w)), colours);
    (When(pen.cursor != i, MoveTo(i, w)) + colours, Pen(i + 1, NextFg(cell, pen.fg), FinalizedBackground(cell)))
  }

  lemma LastOfAppend(a: seq<Command>, b: seq<Command>)
    requires |b| > 0
    ensures (a + b)[|a + b| - 1] == b[|b| - 1]
  {
  }

  /**
    The same-size path from cell `i` on: cells equal to the previous frame's
    are skipped, the others sent with `CellCommands`. Nothing is sent
    exactly when no cell from `i` on changed.
  */
  function EqualFrom(staged: seq<Cell>, prev: seq<Cell>, w: nat, i: nat, pen: Pen): (r: seq<Command>)
    requires |prev| == |staged| && i <= |staged| && (|staged| > 0 ==> w > 0)
    ensures AllBody(r)
    ensures |r| == 0 <==> forall j :: i <= j < |staged| ==> prev[j] == staged[j]
    decreases |staged| - i
  {
    if i == |staged| then []
    else if !CellDiffers(prev[i], staged[i]) then EqualFrom(staged, prev, w, i + 1, pen)
    else
      var step := CellCommands(staged[i], i, w, pen);
      AllBodyAppend(step.0, EqualFrom(staged, prev, w, i + 1, step.1));
      step.0 + EqualFrom(staged, prev, w, i + 1, step.1)
  }

  lemma AllBodyAppend(a: seq<Command>, b: seq<Command>)
    requires AllBody(a) && AllBody(b)
    ensures AllBody(a + b)
  {
    assert forall k :: |a| <= k < |a + b| ==> (a + b)[k] == b[k - |a|];
  }

  /**
    The full repaint from cell `i` on, as corrected: every cell is sent in
    order, the glyph colour unless the cell is empty or it was the last one
    sent, the background unless it was the last one sent.
  */
  function RepaintFrom(cells: seq<Cell>, i: nat, fg: Color, bg: Color): (r: seq<Command>)
    requires i <= |cells|
    ensures AllBody(r)
    ensures |r| == 0 <==> i == |cells|
    decreases |cells| - i
  {
    if i == |cells| then []
    else
      var rest := RepaintFrom(cells, i + 1, NextFg(cells[i], fg), FinalizedBackground(cells[i]));
      AllBodyAppend(ColourCommands(cells[i], fg, bg), rest);
      ColourCommands(cells[i], fg, bg) + rest
  }

  /**
    The full repaint as the source writes it: the background is compared
    with the previous cell's finalized background, and "the previous cell"
    starts as the empty sentinel, whose finalized background is black.
  */
  function RepaintAsWritten(cells: seq<Cell>, i: nat, fg: Color, previous: Cell): seq<Command>
    requires i <= |cells|
    decreases |cells| - i
  {
    if i == |cells| then []
    else
      var cell := cells[i];
      var ff := FinalizedForeground(cell);
      var fb := FinalizedBackground(cell);
      var setFg := !IsEmpty(cell) && fg != ff;
      When(setFg, Fg(ff))
        + (When(FinalizedBackground(previous) != fb, Bg(fb)) + [Str([DisplayChar(cell)])])
        + RepaintAsWritten(cells, i + 1, if setFg then ff else fg, cell)
  }

  /**
    The full repaint as written is the corrected one started from the
    assumption that the terminal's background is the empty sentinel's
    finalized one: the two differ only in that starting assumption.
  */
  lemma {:induction false} RepaintAsWrittenAssumes(cells: seq<Cell>, i: nat, fg: Color, previous: Cell)
    requires i <= |cells|
    ensures RepaintAsWritten(cells, i, fg, previous) == RepaintFrom(cells, i, fg, FinalizedBackground(previous))
    decreases |cells| - i
  {
    if i < |cells| {
      var head := ColourCommands(cells[i], fg, FinalizedBackground(previous));
      RepaintAsWrittenStep(cells, i, fg, previous);
      assert RepaintFrom(cells, i, fg, FinalizedBackground(previous))
        == head + RepaintFrom(cells, i + 1, NextFg(cells[i], fg), FinalizedBackground(cells[i]));
      RepaintAsWrittenAssumes(cells, i + 1, NextFg(cells[i], fg), cells[i]);
    }
  }

  /** Hide the cursor and reset its position before the first command, flush after the last; nothing if there is nothing to send. */
  function Framed(body: seq<Command>): (r: seq<Command>)
    ensures |body| == 0 ==> r == []
    ensures |body| > 0 ==> |r| == |body| + 3 && r[0] == Hide && r[1] == Reset && r[|r| - 1] == Flush
    ensures |body| > 0 ==> r[2..|r| - 1] == body
  {
    if |body| == 0 then [] else [Hide, Reset] + body + [Flush]
  }

  /** The publish commands, with the full repaint corrected to track the background it last sent. */
  function Diff(staged: FrameBuffer, prev: FrameBuffer): (r: seq<Command>)
    requires Valid(staged) && Valid(prev)
    ensures |r| == 0 || (|r| >= 3 && r[0] == Hide && r[1] == Reset && r[|r| - 1] == Flush && AllBody(r[2..|r| - 1]))
  {
    SameSizeSameLength(staged, prev);
    if staged.size == prev.size then
      Framed(EqualFrom(staged.cells, prev.cells, staged.size.w, 0, StartPen))
    else
      Framed(RepaintFrom(staged.cells, 0, Transparent, Transparent))
  }

  /** The publish commands exactly as the source sends them. */
  function DiffAsWritten(staged: FrameBuffer, prev: FrameBuffer): (r: seq<Command>)
    requires Valid(staged) && Valid(prev)
    ensures staged.size == prev.size ==> r == Diff(staged, prev)
  {
    SameSizeSameLength(staged, prev);
    if staged.size == prev.size then
      Framed(EqualFrom(staged.cells, prev.cells, staged.size.w, 0, StartPen))
    else
      Framed(RepaintAsWritten(staged.cells, 0, Transparent, Empty))
  }

  lemma SameSizeSameLength(staged: FrameBuffer, prev: FrameBuffer)
    requires Valid(staged) && Valid(prev)
    ensures staged.size == prev.size ==> |staged.cells| == |prev.cells|
    ensures |staged.cells| > 0 ==> staged.size.w > 0
  {
    if |staged.cells| > 0 {
      WidthPositive(0, staged.size);
    }
  }

  /** Publishing a frame identical to the previous one sends nothing, not even a flush. */
  lemma UnchangedFrameSendsNothing(fb: FrameBuffer)
    requires Valid(fb)
    ensures Diff(fb, fb) == []
  {
  }

  /** Same-size frames send something exactly when some cell changed. */
  lemma SendsIffChanged(staged: FrameBuffer, prev: FrameBuffer)
    requires Valid(staged) && Valid(prev) && staged.size == prev.size
    ensures Diff(staged, prev) == [] <==> staged.cells == prev.cells
  {
    SameSizeSameLength(staged, prev);
    if staged.cells != prev.cells {
      var j :| 0 <= j < |staged.cells| && staged.cells[j] != prev.cells[j];
    }
  }

  /* ---------------- The reference terminal ---------------- */

  /** What one screen position shows. */
  datatype Shown = Shown(ch: char, fg: Color, bg: Color)

  /**
    A terminal `w` columns wide whose screen is a row-major sequence; the
    cursor is a linear position, so writing past the end of a row continues
    on the next one.
  */
  datatype Terminal = Terminal(screen: seq<Shown>, w: nat, cursor: int, fg: Color, bg: Color, visible: bool)

  /** Writing one character: shown at the cursor in the current colours, then the cursor advances. */
  function Put(t: Terminal, ch: char): (r: Terminal)
    ensures r.cursor == t.cursor + 1 && |r.screen| == |t.screen|
    ensures r.w == t.w && r.fg == t.fg && r.bg == t.bg
  {
    if 0 <= t.cursor < |t.screen| then
      t.(screen := t.screen[t.cursor := Shown(ch, t.fg, t.bg)], cursor := t.cursor + 1)
    else t.(cursor := t.cursor + 1)
  }

  function PutAll(t: Terminal, s: string): (r: Terminal)
    ensures r.w == t.w && |r.screen| == |t.screen| && r.fg == t.fg && r.bg == t.bg
    decreases |s|
  {
    if |s| == 0 then t else PutAll(Put(t, s[0]), s[1..])
  }

  /** What each command does to the terminal. */
  function Step(t: Terminal, cmd: Command): (r: Terminal)
    ensures r.w == t.w && |r.screen| == |t.screen|
  {
    match cmd
    case Hide => t.(visible := false)
    case Show => t.(visible := true)
    case Clear => t.(screen := seq(|t.screen|, _ => Shown(' ', t.fg, t.bg)), cursor := 0)
    case Reset => t.(cursor := 0)
    case Move(x, y) => t.(cursor := Index(x, y, t.w))
    case Fg(c) => t.(fg := c)
    case Bg(c) => t.(bg := c)
    case Str(s) => PutAll(t, s)
    case Flush => t
  }

  function Run(t: Terminal, cmds: seq<Command>): (r: Terminal)
    ensures r.w == t.w && |r.screen| == |t.screen|
    decreases |cmds|
  {
    if |cmds| == 0 then t else Run(Step(t, cmds[0]), cmds[1..])
  }

  lemma {:induction false} RunAppend(t: Terminal, a: seq<Command>, b: seq<Command>)
    ensures Run(t, a + b) == Run(Run(t, a), b)
    decreases |a|
  {
    if |a| == 0 {
      assert a + b == b;
    } else {
      assert (a + b)[1..] == a[1..] + b;
      RunAppend(Step(t, a[0]), a[1..], b);
    }
  }

  lemma Assoc<T>(a: seq<T>, b: seq<T>, c: seq<T>)
    ensures a + b + c == a + (b + c)
  {
  }

  lemma Pair<T>(x: T, y: T, rest: seq<T>)
    ensures [x, y] + rest == [x] + ([y] + rest)
  {
  }

  lemma RunCons(t: Terminal, c: Command, rest: seq<Command>)
    ensures Run(t, [c] + rest) == Run(Step(t, c), rest)
  {
    assert ([c] + rest)[0] == c && ([c] + rest)[1..] == rest;
  }

  lemma RunWhen(t: Terminal, b: bool, c: Command, rest: seq<Command>)
    ensures Run(t, When(b, c) + rest) == Run(if b then Step(t, c) else t, rest)
  {
    if b {
      RunCons(t, c, rest);
    } else {
      assert When(b, c) + rest == rest;
    }
  }

  /** A screen position shows a cell: its character, its finalized background and, unless empty, its finalized glyph colour. */
  predicate Shows(s: Shown, cell: Cell)
  {
    && s.ch == DisplayChar(cell)
    && s.bg == FinalizedBackground(cell)
    && (IsEmpty(cell) || s.fg == FinalizedForeground(cell))
  }

  /** The terminal has the frame's width and cell count. */
  predicate Fits(t: Terminal, fb: FrameBuffer)
  {
    |t.screen| == |fb.cells| && t.w == fb.size.w
  }

  /** The terminal shows the frame. */
  predicate Displays(t: Terminal, fb: FrameBuffer)
  {
    Fits(t, fb) && forall j :: 0 <= j < |t.screen| ==> Shows(t.screen[j], fb.cells[j])
  }

  /** The terminal's colours agree with every colour the pen says was sent. */
  predicate PenHeld(t: Terminal, fg: Color, bg: Color)
  {
    (fg != Transparent ==> t.fg == fg) && (bg != Transparent ==> t.bg == bg)
  }

  /** The terminal after one cell's colour commands: the colours the pen records after the cell. */
  function Inked(t: Terminal, cell: Cell, fg: Color): (u: Terminal)
  {
    var t1 := if !IsEmpty(cell) && fg != FinalizedForeground(cell) then t.(fg := FinalizedForeground(cell)) else t;
    t1.(bg := FinalizedBackground(cell))
  }

  /** The terminal after one cell's colour and glyph commands. */
  function Painted(t: Terminal, cell: Cell, fg: Color): (u: Terminal)
  {
    Put(Inked(t, cell, fg), DisplayChar(cell))
  }

  /** Running one cell's colour and glyph commands on a terminal whose colours the pen tracks. */
  lemma ColourRun(t: Terminal, cell: Cell, fg: Color, bg: Color, rest: seq<Command>)
    requires PenHeld(t, fg, bg)
    ensures Run(t, ColourCommands(cell, fg, bg) + rest) == Run(Painted(t, cell, fg), rest)
  {
    var ff, fb := FinalizedForeground(cell), FinalizedBackground(cell);
    var setFg := !IsEmpty(cell) && fg != ff;
    var glyph := [Str([DisplayChar(cell)])] + rest;
    var t1 := if setFg then t.(fg := ff) else t;
    assert ColourCommands(cell, fg, bg) + rest == When(setFg, Fg(ff)) + (When(bg != fb, Bg(fb)) + glyph) by {
      Assoc(When(setFg, Fg(ff)), When(bg != fb, Bg(fb)) + [Str([DisplayChar(cell)])], rest);
      Assoc(When(bg != fb, Bg(fb)), [Str([DisplayChar(cell)])], rest);
    }
    assert Run(t, When(setFg, Fg(ff)) + (When(bg != fb, Bg(fb)) + glyph)) == Run(t1, When(bg != fb, Bg(fb)) + glyph) by {
      RunWhenFg(t, setFg, ff, When(bg != fb, Bg(fb)) + glyph);
    }
    assert Run(t1, When(bg != fb, Bg(fb)) + glyph) == Run(Inked(t, cell, fg), glyph) by {
      RunWhenBg(t1, bg != fb, fb, glyph);
      assert bg == fb ==> t1.bg == fb;
    }
    PutOne(Inked(t, cell, fg), DisplayChar(cell), rest);
  }

  lemma RunWhenFg(t: Terminal, b: bool, c: Color, rest: seq<Command>)
    ensures Run(t, When(b, Fg(c)) + rest) == Run(if b then t.(fg := c) else t, rest)
  {
    RunWhen(t, b, Fg(c), rest);
  }

  lemma RunWhenBg(t: Terminal, b: bool, c: Color, rest: seq<Command>)
    ensures Run(t, When(b, Bg(c)) + rest) == Run(if b then t.(bg := c) else t, rest)
  {
    RunWhen(t, b, Bg(c), rest);
  }

  /** Writing a one-character string. */
  lemma PutOne(t: Terminal, ch: char, rest: seq<Command>)
    ensures Run(t, [Str([ch])] + rest) == Run(Put(t, ch), rest)
  {
    RunCons(t, Str([ch]), rest);
    assert [ch][0] == ch && [ch][1..] == [];
    assert PutAll(t, [ch]) == PutAll(Put(t, ch), []);
  }

  /** The cursor move to cell `i` of a grid `w` cells wide, as `(i % w, i / w)`. */
  function MoveTo(i: nat, w: nat): (c: Command)
    requires w > 0
    ensures c.Move? && c.x < w && Index(c.x, c.y, w) == i
  {
    Move(i % w, i / w)
  }

  /** Running one changed cell's commands on a terminal whose cursor and colours the pen tracks. */
  lemma CellRun(t: Terminal, cell: Cell, i: nat, w: nat, pen: Pen, rest: seq<Command>)
    requires w > 0 && i < |t.screen| && t.w == w
    requires t.cursor == pen.cursor && PenHeld(t, pen.fg, pen.bg)
    ensures Run(t, CellCommands(cell, i, w, pen).0 + rest) == Run(Painted(t.(cursor := i), cell, pen.fg), rest)
  {
    var colours := ColourCommands(cell, pen.fg, pen.bg);
    Assoc(When(pen.cursor != i, MoveTo(i, w)), colours, rest);
    RunWhen(t, pen.cursor != i, MoveTo(i, w), colours + rest);
    assert (if pen.cursor != i then Step(t, MoveTo(i, w)) else t) == t.(cursor := i);
    ColourRun(t.(cursor := i), cell, pen.fg, pen.bg, rest);
  }

  /**
    How far the same-size path has got at cell `i`: the cells before `i`
    show the staged frame, the rest still show the previous one, the
    cursor is where the pen says, and the tracked colours are the
    terminal's.
  */
  predicate Progress(t: Terminal, staged: seq<Cell>, prev: seq<Cell>, w: nat, i: nat, pen: Pen)
  {
    && |t.screen| == |staged| == |prev| && t.w == w && i <= |staged|
    && t.cursor == pen.cursor
    && PenHeld(t, pen.fg, pen.bg)
    && (forall j :: 0 <= j < i ==> Shows(t.screen[j], staged[j]))
    && (forall j :: i <= j < |staged| ==> Shows(t.screen[j], prev[j]))
  }

  /** Painting a cell shows it, and the pen's colours stay the terminal's. */
  lemma PaintedShows(t: Terminal, cell: Cell, fg: Color, bg: Color)
    requires 0 <= t.cursor < |t.screen| && PenHeld(t, fg, bg)
    ensures var u := Painted(t, cell, fg);
      && Shows(u.screen[t.cursor], cell)
      && PenHeld(u, NextFg(cell, fg), FinalizedBackground(cell))
      && (forall j :: 0 <= j < |t.screen| && j != t.cursor ==> u.screen[j] == t.screen[j])
  {
  }

  /** An unchanged cell sends nothing and needs nothing. */
  lemma UnchangedCellStep(t: Terminal, staged: seq<Cell>, prev: seq<Cell>, w: nat, i: nat, pen: Pen)
    requires i < |staged| && w > 0
    requires Progress(t, staged, prev, w, i, pen) && !CellDiffers(prev[i], staged[i])
    ensures EqualFrom(staged, prev, w, i, pen) == EqualFrom(staged, prev, w, i + 1, pen)
    ensures Progress(t, staged, prev, w, i + 1, pen)
  {
    EqualityIsStructural(prev[i], staged[i]);
  }

  /** A changed cell is painted, and the path carries on from the painted terminal. */
  lemma ChangedCellStep(t: Terminal, staged: seq<Cell>, prev: seq<Cell>, w: nat, i: nat, pen: Pen)
    requires i < |staged| && w > 0
    requires Progress(t, staged, prev, w, i, pen) && CellDiffers(prev[i], staged[i])
    ensures var step := CellCommands(staged[i], i, w, pen);
      var u := Painted(t.(cursor := i), staged[i], pen.fg);
      && Run(t, EqualFrom(staged, prev, w, i, pen)) == Run(u, EqualFrom(staged, prev, w, i + 1, step.1))
      && Progress(u, staged, prev, w, i + 1, step.1)
  {
    var step := CellCommands(staged[i], i, w, pen);
    var rest := EqualFrom(staged, prev, w, i + 1, step.1);
    assert Run(t, EqualFrom(staged, prev, w, i, pen)) == Run(Painted(t.(cursor := i), staged[i], pen.fg), rest) by {
      CellRun(t, staged[i], i, w, pen, rest);
    }
    PaintedProgress(t, staged, prev, w, i, pen);
  }

  lemma PaintedProgress(t: Terminal, staged: seq<Cell>, prev: seq<Cell>, w: nat, i: nat, pen: Pen)
    requires i < |staged| && Progress(t, staged, prev, w, i, pen)
    ensures Progress(Painted(t.(cursor := i), staged[i], pen.fg), staged, prev, w, i + 1,
                     Pen(i + 1, NextFg(staged[i], pen.fg), FinalizedBackground(staged[i])))
  {
    PaintedShows(t.(cursor := i), staged[i], pen.fg, pen.bg);
  }

  /** The same-size path from cell `i` on finishes the frame. */
  lemma {:induction false} EqualFromShows(t: Terminal, staged: seq<Cell>, prev: seq<Cell>, w: nat, i: nat, pen: Pen)
    requires |staged| > 0 ==> w > 0
    requires Progress(t, staged, prev, w, i, pen)
    ensures var r := Run(t, EqualFrom(staged, prev, w, i, pen));
      forall j :: 0 <= j < |staged| ==> Shows(r.screen[j], staged[j])
    decreases |staged| - i
  {
    if i < |staged| {
      if !CellDiffers(prev[i], staged[i]) {
        UnchangedCellStep(t, staged, prev, w, i, pen);
        EqualFromShows(t, staged, prev, w, i + 1, pen);
      } else {
        var step := CellCommands(staged[i], i, w, pen);
        ChangedCellStep(t, staged, prev, w, i, pen);
        EqualFromShows(Painted(t.(cursor := i), staged[i], pen.fg), staged, prev, w, i + 1, step.1);
      }
    }
  }

  /** How far the full repaint has got at cell `i`. */
  predicate RepaintProgress(t: Terminal, cells: seq<Cell>, i: nat, fg: Color, bg: Color)
  {
    && |t.screen| == |cells| && i <= |cells|
    && t.cursor == i
    && PenHeld(t, fg, bg)
    && (forall j :: 0 <= j < i ==> Shows(t.screen[j], cells[j]))
  }

  /** The full repaint from cell `i` on finishes the frame. */
  lemma {:induction false} RepaintFromShows(t: Terminal, cells: seq<Cell>, i: nat, fg: Color, bg: Color)
    requires RepaintProgress(t, cells, i, fg, bg)
    ensures var r := Run(t, RepaintFrom(cells, i, fg, bg));
      forall j :: 0 <= j < |cells| ==> Shows(r.screen[j], cells[j])
    decreases |cells| - i
  {
    if i < |cells| {
      var fg', bg' := NextFg(cells[i], fg), FinalizedBackground(cells[i]);
      var rest := RepaintFrom(cells, i + 1, fg', bg');
      assert Run(t, RepaintFrom(cells, i, fg, bg)) == Run(Painted(t, cells[i], fg), rest) by {
        ColourRun(t, cells[i], fg, bg, rest);
      }
      PaintedRepaintProgress(t, cells, i, fg, bg);
      RepaintFromShows(Painted(t, cells[i], fg), cells, i + 1, fg', bg');
    }
  }

  lemma PaintedRepaintProgress(t: Terminal, cells: seq<Cell>, i: nat, fg: Color, bg: Color)
    requires i < |cells| && RepaintProgress(t, cells, i, fg, bg)
    ensures RepaintProgress(Painted(t, cells[i], fg), cells, i + 1, NextFg(cells[i], fg), FinalizedBackground(cells[i]))
  {
    PaintedShows(t, cells[i], fg, bg);
  }

  /** Running a framed body is running the body after hiding the cursor and homing it. */
  lemma RunFramed(t: Terminal, body: seq<Command>)
    requires |body| > 0
    ensures Run(t, Framed(body)) == Run(t.(visible := false, cursor := 0), body)
  {
    Assoc([Hide, Reset], body, [Flush]);
    Pair(Hide, Reset, body + [Flush]);
    RunCons(t, Hide, [Reset] + (body + [Flush]));
    RunCons(t.(visible := false), Reset, body + [Flush]);
    RunAppend(t.(visible := false, cursor := 0), body, [Flush]);
  }

  /**
    The publish theorem for same-size frames: from a terminal showing the
    previous frame, the commands leave it showing the staged frame.
  */
  lemma DiffShowsStaged(t: Terminal, staged: FrameBuffer, prev: FrameBuffer)
    requires Valid(staged) && Valid(prev) && staged.size == prev.size
    requires Displays(t, prev)
    ensures Displays(Run(t, Diff(staged, prev)), staged)
  {
    SameSizeSameLength(staged, prev);
    var body := EqualFrom(staged.cells, prev.cells, staged.size.w, 0, StartPen);
    var t0 := t.(visible := false, cursor := 0);
    assert Progress(t0, staged.cells, prev.cells, staged.size.w, 0, StartPen);
    EqualFromShows(t0, staged.cells, prev.cells, staged.size.w, 0, StartPen);
    if |body| > 0 {
      RunFramed(t, body);
    } else {
      assert forall j :: 0 <= j < |staged.cells| ==> prev.cells[j] == staged.cells[j];
    }
  }

  /**
    The publish theorem for a change of size: the corrected repaint leaves
    any terminal of the staged frame's dimensions showing the staged frame,
    whatever colours it was left with.
  */
  lemma RepaintShowsStaged(t: Terminal, staged: FrameBuffer, prev: FrameBuffer)
    requires Valid(staged) && Valid(prev) && staged.size != prev.size
    requires Fits(t, staged)
    ensures Displays(Run(t, Diff(staged, prev)), staged)
  {
    var body := RepaintFrom(staged.cells, 0, Transparent, Transparent);
    var t0 := t.(visible := false, cursor := 0);
    RepaintFromShows(t0, staged.cells, 0, Transparent, Transparent);
    if |body| > 0 {
      RunFramed(t, body);
    }
  }

  /**
    Both paths together: a terminal showing the previous frame, with the
    staged frame's dimensions, shows the staged frame after publishing.
  */
  lemma PublishShowsStaged(t: Terminal, staged: FrameBuffer, prev: FrameBuffer)
    requires Valid(staged) && Valid(prev)
    requires Fits(t, staged) && (staged.size == prev.size ==> Displays(t, prev))
    ensures Displays(Run(t, Diff(staged, prev)), staged)
  {
    if staged.size == prev.size {
      DiffShowsStaged(t, staged, prev);
    } else {
      RepaintShowsStaged(t, staged, prev);
    }
  }

  /** The background the full repaint as written assumes the terminal starts with. */
  lemma AsWrittenAssumesBlack()
    ensures FinalizedBackground(Empty) == Black
  {
    EmptySentinels();
  }

  /**
    The full repaint as written can leave a stale background: a terminal
    whose last background was red, repainted with a single empty cell on a
    size change, gets no background command and shows the space on red.
    The corrected repaint sends black first.
  */
  lemma RepaintKeepsStaleBackground()
    ensures var red := Color(255, 255, 0, 0);
      var t := Terminal([Shown(' ', White, red)], 1, 0, White, red, true);
      var staged := FrameBuffer([Empty], Size(1, 1));
      && DiffAsWritten(staged, Initial) == [Hide, Reset, Str(" "), Flush]
      && !Displays(Run(t, DiffAsWritten(staged, Initial)), staged)
      && Diff(staged, Initial) == [Hide, Reset, Bg(Black), Str(" "), Flush]
      && Displays(Run(t, Diff(staged, Initial)), staged)
  {
    var red := Color(255, 255, 0, 0);
    var t := Terminal([Shown(' ', White, red)], 1, 0, White, red, true);
    var staged := FrameBuffer([Empty], Size(1, 1));
    EmptySentinels();
    RepaintAsWrittenAssumes(staged.cells, 0, Transparent, Empty);
    assert DisplayChar(Empty) == ' ';
    var body := RepaintFrom(staged.cells, 0, Transparent, Black);
    assert body == [Str(" ")];
    var fixedBody := RepaintFrom(staged.cells, 0, Transparent, Transparent);
    assert fixedBody == [Bg(Black), Str(" ")];
    RunFramed(t, body);
    var t0 := t.(visible := false, cursor := 0);
    PutOne(t0, ' ', []);
    assert Run(t, DiffAsWritten(staged, Initial)).screen[0] == Shown(' ', White, red);
    RepaintShowsStaged(t, staged, Initial);
  }

  /* ---------------- The publish loop ---------------- */

  /**
    Sending commands through the helpers that send the hide-cursor and
    reset-cursor commands before the first command of the frame.
  */
  function Send(cmds: seq<Command>, notInitialized: bool, more: seq<Command>): (r: seq<Command>)
    ensures notInitialized ==> r == cmds + [Hide, Reset] + more
    ensures !notInitialized ==> r == cmds + more
  {
    (if notInitialized then cmds + [Hide, Reset] else cmds) + more
  }

  /** What has been sent once the frame body so far is `body`. */
  function SentSoFar(body: seq<Command>): seq<Command>
  {
    if |body| == 0 then [] else [Hide, Reset] + body
  }

  /** Sending the next non-empty piece of the body. */
  lemma SendMore(body: seq<Command>, more: seq<Command>)
    requires |more| > 0
    ensures Send(SentSoFar(body), |body| == 0, more) == SentSoFar(body + more)
  {
    if |body| > 0 {
      Assoc([Hide, Reset], body, more);
    } else {
      assert body + more == more;
    }
  }

  /** The writer calls for one changed cell, in the order the loop makes them, and the updated loop variables. */
  method ChangedCell(s: Cell, i: nat, w: nat, cursor: int, lastFg: Color, lastBg: Color)
    returns (step: seq<Command>, cursor': int, lastFg': Color, lastBg': Color)
    requires w > 0
    ensures (step, Pen(cursor', lastFg', lastBg')) == CellCommands(s, i, w, Pen(cursor, lastFg, lastBg))
  {
    lastFg', lastBg' := lastFg, lastBg;
    var move: seq<Command> := [];
    if cursor != i {
      move := [Move(i % w, i / w)];
    }
    var ff := FinalizedForeground(s);
    var fb := FinalizedBackground(s);
    var empty := IsEmpty(s);
    var colours: seq<Command> := [];
    if !empty && lastFg' != ff {
      colours := [Fg(ff)];
      lastFg' := ff;
    }
    var paper: seq<Command> := [];
    if lastBg' != fb {
      paper := [Bg(fb)];
      lastBg' := fb;
    }
    var glyph := [Str([if empty then ' ' else s.ch])];
    step := move + (colours + (paper + glyph));
    cursor' := i + 1;
  }

  /** The same-size loop: the changed cells, in index order. */
  method SendChangedCells(staged: seq<Cell>, prev: seq<Cell>, w: nat) returns (cmds: seq<Command>, notInitialized: bool)
    requires |prev| == |staged| && (|staged| > 0 ==> w > 0)
    ensures var body := EqualFrom(staged, prev, w, 0, StartPen);
      cmds == SentSoFar(body) && (notInitialized <==> |body| == 0)
  {
    notInitialized := true;
    cmds := [];
    var lastFg, lastBg := Transparent, Transparent;
    var cursor := 0;
    ghost var body: seq<Command> := [];
    var i := 0;
    while i < |staged|
      invariant 0 <= i <= |staged|
      invariant body + EqualFrom(staged, prev, w, i, Pen(cursor, lastFg, lastBg)) == EqualFrom(staged, prev, w, 0, StartPen)
      invariant notInitialized <==> |body| == 0
      invariant cmds == SentSoFar(body)
    {
      if CellDiffers(prev[i], staged[i]) {
        ghost var pen := Pen(cursor, lastFg, lastBg);
        var step;
        step, cursor, lastFg, lastBg := ChangedCell(staged[i], i, w, cursor, lastFg, lastBg);
        assert body + EqualFrom(staged, prev, w, i, pen) == (body + step) + EqualFrom(staged, prev, w, i + 1, Pen(cursor, lastFg, lastBg)) by {
          Assoc(body, step, EqualFrom(staged, prev, w, i + 1, Pen(cursor, lastFg, lastBg)));
        }
        SendMore(body, step);
        cmds := Send(cmds, notInitialized, step);
        body := body + step;
        notInitialized := false;
      }
      i := i + 1;
    }
  }

  /** The writer calls the full-repaint loop makes for one cell, and the updated glyph colour. */
  method RepaintCell(s: Cell, lastFg: Color, previous: Cell) returns (step: seq<Command>, lastFg': Color)
    ensures step == ColourCommands(s, lastFg, FinalizedBackground(previous))
    ensures lastFg' == NextFg(s, lastFg)
  {
    var ff := FinalizedForeground(s);
    var fb := FinalizedBackground(s);
    var empty := IsEmpty(s);
    lastFg' := lastFg;
    var colours: seq<Command> := [];
    if !empty && lastFg' != ff {
      colours := [Fg(ff)];
      lastFg' := ff;
    }
    var paper: seq<Command> := [];
    if FinalizedBackground(previous) != fb {
      paper := [Bg(fb)];
    }
    step := colours + (paper + [Str([if empty then ' ' else s.ch])]);
  }

  /** One cell of the full repaint as written, and the rest after it. */
  lemma RepaintAsWrittenStep(cells: seq<Cell>, i: nat, fg: Color, previous: Cell)
    requires i < |cells|
    ensures RepaintAsWritten(cells, i, fg, previous) ==
      ColourCommands(cells[i], fg, FinalizedBackground(previous)) + RepaintAsWritten(cells, i + 1, NextFg(cells[i], fg), cells[i])
  {
  }

  /** The full-repaint loop as the source writes it: every cell, the background compared with the previous cell's. */
  method SendAllCells(staged: seq<Cell>) returns (cmds: seq<Command>, notInitialized: bool)
    ensures var body := RepaintAsWritten(staged, 0, Transparent, Empty);
      cmds == SentSoFar(body) && (notInitialized <==> |body| == 0)
  {
    notInitialized := true;
    cmds := [];
    var lastFg := Transparent;
    var previous := Empty;
    ghost var body: seq<Command> := [];
    ghost var whole := RepaintAsWritten(staged, 0, Transparent, Empty);
    var i := 0;
    while i < |staged|
      invariant 0 <= i <= |staged|
      invariant body + RepaintAsWritten(staged, i, lastFg, previous) == whole
      invariant notInitialized <==> |body| == 0
      invariant cmds == SentSoFar(body)
    {
      ghost var fgBefore := lastFg;
      var step;
      step, lastFg := RepaintCell(staged[i], lastFg, previous);
      ghost var rest := RepaintAsWritten(staged, i + 1, lastFg, staged[i]);
      assert body + RepaintAsWritten(staged, i, fgBefore, previous) == (body + step) + rest by {
        RepaintAsWrittenStep(staged, i, fgBefore, previous);
        Assoc(body, step, rest);
      }
      previous := staged[i];
      SendMore(body, step);
      cmds := Send(cmds, notInitialized, step);
      body := body + step;
      notInitialized := false;
      i := i + 1;
    }
    assert body + [] == body;
  }

  /** The publish task: one of the two loops, then a flush if anything was sent. */
  method WriteChanges(staged: FrameBuffer, prev: FrameBuffer) returns (cmds: seq<Command>)
    requires Valid(staged) && Valid(prev)
    ensures cmds == DiffAsWritten(staged, prev)
  {
    SameSizeSameLength(staged, prev);
    var notInitialized;
    if staged.size == prev.size {
      cmds, notInitialized := SendChangedCells(staged.cells, prev.cells, staged.size.w);
    } else {
      cmds, notInitialized := SendAllCells(staged.cells);
    }
    if !notInitialized {
      cmds := cmds + [Flush];
    }
  }
}
